=== FILE: README.md ===
# OpenAI for Drupal: a Dafny model of its core

This project models the core of the Drupal `openai` module family in Dafny and proves
properties of the model. It covers five areas:

- **Text preparation.** `StringHelper::prepareText()` in `string_helper.dfy`, built on
  PHP string functions in `php_strings.dfy`. Those functions are `trim`, `str_replace`,
  `explode`/`implode`, `mb_strtolower`, `sort`, `is_numeric`, the `(int)` cast and
  `Unicode::truncate`.
- **Embeddings (`openai_embeddings`).**
  - The queue worker, which embeds every text field value of an entity, upserts the
    vector into Pinecone and records a row in the local table
    (`embedding_queue_worker.dfy`).
  - The settings form (`embeddings_settings_form.dfy`).
  - The similarity search form (`search_form.dfy`).
  - The Pinecone HTTP client (`pinecone_client.dfy`) and vector-client plugin
    (`pinecone_plugin.dfy`).
  - The delete-all form (`delete_confirm_form.dfy`) and the index statistics page
    (`pinecone_stats.dfy`).
- **Content generation (`openai_api`).**
  - The two Drush commands that plan a batch, one operation per node or media item asked
    for (`content_generation_command.dfy`, `batch_media_generation_commands.dfy`). Their
    shared nested-loop layout is in `batch_plan.dfy` and their prompt validators in
    `drush_input.dfy`.
  - The batch callbacks (`generation_service.dfy`) and the controller that builds
    requests, nodes and media items (`generation_controller.dfy`).
- **Chat (`openai_chatgpt`).** The ChatGPT form keeps the conversation in form storage
  (`chat_gpt_form.dfy`).
- **Log explanations (`openai_dblog`).** The log event page asks OpenAI to explain an
  error message and caches the answer by the message's hash
  (`openai_dblog_controller.dfy`).

One Dafny module corresponds to one source class.

State that the source changes in place is a `class` with `modifies` clauses: the worker's
table, log and call record, the forms' saved settings and storage, the batch context and
the explanation cache. Each loop of the source is a `method` with a `while` loop, proved
equal to a specification function (usually a left fold). The properties are proved about
that function.

Everything outside the module is a parameter:

- OpenAI calls (completions, chat, images, embeddings, model list);
- Pinecone calls;
- entity loading and field definitions;
- file retrieval;
- `hash('sha256')` and `strip_tags`.

Each call is a function returning `Option`, with `None` standing for a thrown exception.
The HTML parser is replaced by the DOM tree it would produce. A `Request` value records
what would be sent to Pinecone, and the result of a sent request is the answer the
parameter gives for it.

## Model

| member | source | states |
|---|---|---|
| PhpStrings.Trim | web/modules/contrib/openai/src/Utility/StringHelper.php:67 | trim() strips only the default blank characters, from both ends: the result keeps no blank at either end and holds only characters of the input |
| PhpStrings.TrimIdempotent | web/modules/contrib/openai/src/Utility/StringHelper.php:67-69 | trimming twice is trimming once, so the second trim() of prepareText() changes nothing it has not changed already |
| PhpStrings.TrimUntouched | web/modules/contrib/openai/src/Utility/StringHelper.php:69 | a text that starts and ends with a kept character is returned by trim() unchanged |
| PhpStrings.TrimLeftAppend | web/modules/contrib/openai/src/Utility/StringHelper.php:67 | left-trimming a text followed by more text removes only the leading blanks of the whole |
| PhpStrings.TrimAppendKept | web/modules/contrib/openai/src/Utility/StringHelper.php:67 | trim() of a text followed by a suffix that ends in a kept character removes only the text's leading blanks |
| PhpStrings.RemoveAll | web/modules/contrib/openai/src/Utility/StringHelper.php:68 | str_replace() with an empty replacement never lengthens the text, and a one-character pattern leaves no occurrence of that character |
| PhpStrings.RemoveAllWithin | web/modules/contrib/openai/src/Utility/StringHelper.php:68 | str_replace() with an empty replacement introduces no character that was not in the subject |
| PhpStrings.RemoveAllAbsent | web/modules/contrib/openai/src/Utility/StringHelper.php:68 | a pattern that does not occur leaves the subject unchanged |
| PhpStrings.RemoveAllSkip | web/modules/contrib/openai/src/Utility/StringHelper.php:68 | a one-character pattern is deleted where it first occurs and the scan resumes after it |
| PhpStrings.Truncate | web/modules/contrib/openai/src/Utility/StringHelper.php:73 | Unicode::truncate(..., TRUE): a text within the limit is kept; otherwise the result is the longest prefix of 1..limit characters followed by a word-boundary character (Latin-1 and General Punctuation), or the plain limit-length prefix when there is none |
| PhpStrings.TruncateDinosaurs26 | web/modules/contrib/openai/tests/src/Unit/Utility/StringHelperTest.php:58-61 | the 26-character cut of the dinosaur sentence is "Dinosaurs roamed the earth" |
| PhpStrings.TruncateDinosaurs10 | web/modules/contrib/openai/tests/src/Unit/Utility/StringHelperTest.php:63-66 | the 10-character cut of the same sentence is "Dinosaurs" |
| PhpStrings.TruncateDinosaurs12 | web/modules/contrib/openai/tests/src/Unit/Utility/StringHelperTest.php:68-70 | the 12-character cut falls back to the same boundary and is "Dinosaurs" |
| StringHelper.RemovalSetAsWritten | web/modules/contrib/openai/src/Utility/StringHelper.php:39 | the array union `+=` keeps the caller's list and adds only the defaults at indices the caller did not use |
| StringHelper.AsWrittenDropsPre | web/modules/contrib/openai/src/Utility/StringHelper.php:39 | as written, any non-empty caller list loses the default "pre" (finding 1) |
| StringHelper.RemovalSet | web/modules/contrib/openai/src/Utility/StringHelper.php:38-39 | the intended removal list: an element is removed exactly when the caller names it or it is one of pre, code, script, iframe |
| StringHelper.RemoveElements | web/modules/contrib/openai/src/Utility/StringHelper.php:49-63 | after removal no element with a removed tag is left anywhere in the tree, and the forest never grows |
| StringHelper.RemoveElementsFree | web/modules/contrib/openai/src/Utility/StringHelper.php:49-63 | a tree without the removed tags is left as it is |
| StringHelper.RemoveElementsStep | web/modules/contrib/openai/src/Utility/StringHelper.php:52-63 | removing the tags one after the other is removing them all at once |
| StringHelper.DetachElements | web/modules/contrib/openai/src/Utility/StringHelper.php:49-63 | the collect-then-detach loops yield the all-at-once removal and leave the tree free of every removed tag |
| StringHelper.StripLineBreaks | web/modules/contrib/openai/src/Utility/StringHelper.php:68 | after the str_replace() of the six line-break patterns no \r or \n remains, and the text never grows |
| StringHelper.StripLineBreaksAbsent | web/modules/contrib/openai/src/Utility/StringHelper.php:68 | text without line breaks or backslashes is left unchanged by that str_replace() |
| StringHelper.CollapseSpaces | web/modules/contrib/openai/src/Utility/StringHelper.php:70 | after preg_replace("/  +/", ' ') no two spaces are adjacent, the first character is kept and a text with a space still has one |
| StringHelper.CollapseSpacesKeepsNonSpaces | web/modules/contrib/openai/src/Utility/StringHelper.php:70 | collapsing deletes only spaces: the other characters stay, in order |
| StringHelper.CollapseSpacesIdempotent | web/modules/contrib/openai/src/Utility/StringHelper.php:70 | text without a double space is unchanged by the collapse |
| StringHelper.FilterChars | web/modules/contrib/openai/src/Utility/StringHelper.php:71 | after the character whitelist only letters, digits, . ? ! , ' and space remain |
| StringHelper.FilterCharsKeeps | web/modules/contrib/openai/src/Utility/StringHelper.php:71 | a character survives the whitelist exactly when it occurs in the input and is whitelisted |
| StringHelper.FilterCharsIdempotent | web/modules/contrib/openai/src/Utility/StringHelper.php:71 | whitelisted text passes the filter unchanged |
| StringHelper.PrepareTextWith | web/modules/contrib/openai/src/Utility/StringHelper.php:37-74 | prepareText() returns at most max_length characters, all of them whitelisted, whatever the removal list |
| StringHelper.PrepareText | web/modules/contrib/openai/src/Utility/StringHelper.php:37-74 | the same bounds for prepareText() with the defaults always removed |
| StringHelper.RemovedContentIgnored | web/modules/contrib/openai/src/Utility/StringHelper.php:49-73 | nothing inside a removed element reaches the output, at any depth and for any removal list: two documents that differ only inside removed elements give the same text |
| StringHelper.RemovedSubtreeIgnored | web/modules/contrib/openai/src/Utility/StringHelper.php:49-63 | two forests that differ only inside elements with a removed tag, however deeply nested, are equal after removal |
| StringHelper.CleanTextPlain | web/modules/contrib/openai/src/Utility/StringHelper.php:66-71 | plain whitelisted text with single spaces and no blank ends comes through the clean-up unchanged |
| StringHelper.CollapseSpacesRun | web/modules/contrib/openai/src/Utility/StringHelper.php:70 | any run of spaces before a word becomes exactly one space |
| StringHelper.CleanTextJoin | web/modules/contrib/openai/src/Utility/StringHelper.php:66-71 | two plain texts separated by a line break and indentation are joined by a single space |
| StringHelper.PrepareTextKept | web/modules/contrib/openai/src/Utility/StringHelper.php:43-73 | when removal leaves the document whole, the output is the cleaned text content cut to length |
| StringHelper.ExampleHeadingAndParagraph | web/modules/contrib/openai/tests/src/Unit/Utility/StringHelperTest.php:17-22 | a heading and a paragraph on separate indented lines come out as the two texts joined by one space |
| StringHelper.ExampleAllRemoved | web/modules/contrib/openai/tests/src/Unit/Utility/StringHelperTest.php:49-52 | removing both h1 and p leaves the empty string |
| StringHelper.ExampleParagraph | web/modules/contrib/openai/tests/src/Unit/Utility/StringHelperTest.php:58-70 | a single plain paragraph is only cut to length |
| StringHelper.CleanTextBlank | web/modules/contrib/openai/src/Utility/StringHelper.php:67-69 | a line break followed only by indentation cleans up to the empty string |
| StringHelper.AsWrittenKeepsPreContent | web/modules/contrib/openai/src/Utility/StringHelper.php:39 | as written, prepareText(<h1>a</h1><pre>b</pre>, ['h1']) keeps the pre block's text (finding 1) |
| StringHelper.IntendedDropsPreContent | web/modules/contrib/openai/src/Utility/StringHelper.php:38-39 | with the defaults always removed, the same call returns the empty string |
| StringHelper.CleanTextIsFilter | web/modules/contrib/openai/src/Utility/StringHelper.php:66-71 | text without line breaks, blank ends or double spaces reaches the whitelist unchanged, so the clean-up is the filter alone |
| StringHelper.CleanTextDropped | web/modules/contrib/openai/src/Utility/StringHelper.php:70-71 | a dropped character between two single spaces leaves two adjacent spaces |
| StringHelper.FilterCanLeaveDoubleSpace | web/modules/contrib/openai/src/Utility/StringHelper.php:70-71 | because spaces are collapsed before the whitelist runs, prepareText() can return a double space |
| EmbeddingQueueWorker.GetFieldTypes | web/modules/contrib/openai/modules/openai_embeddings/src/Plugin/QueueWorker/EmbeddingQueueWorker.php:239-247 | exactly the five text field types string, string_long, text, text_long and text_with_summary |
| EmbeddingQueueWorker.UniqueId | web/modules/contrib/openai/modules/openai_embeddings/src/Plugin/QueueWorker/EmbeddingQueueWorker.php:230-232 | the record id starts with "entity:" |
| EmbeddingQueueWorker.UniqueIdSeparatesDeltas | web/modules/contrib/openai/modules/openai_embeddings/src/Plugin/QueueWorker/EmbeddingQueueWorker.php:230-232 | two deltas of the same field of the same entity never share a record id |
| EmbeddingQueueWorker.Namespace | web/modules/contrib/openai/modules/openai_embeddings/src/Plugin/QueueWorker/EmbeddingQueueWorker.php:154 | the namespace is the entity type, a colon, then the field name |
| EmbeddingQueueWorker.KeyMetadata | web/modules/contrib/openai/modules/openai_embeddings/src/Plugin/QueueWorker/EmbeddingQueueWorker.php:159-165 | the metadata carries exactly entity_id, entity_type, bundle, field_name and field_delta |
| EmbeddingQueueWorker.VectorJson | web/modules/contrib/openai/modules/openai_embeddings/src/Plugin/QueueWorker/EmbeddingQueueWorker.php:156-166 | the vector object has exactly id, values and metadata, with the generated unique id |
| EmbeddingQueueWorker.MetadataIdentifiesRow | web/modules/contrib/openai/modules/openai_embeddings/src/Plugin/QueueWorker/EmbeddingQueueWorker.php:159-178 | two vectors with the same metadata belong to the same table row |
| EmbeddingQueueWorker.VectorUpsert | web/modules/contrib/openai/modules/openai_embeddings/src/Plugin/QueueWorker/EmbeddingQueueWorker.php:154-168 | one POST /vectors/upsert carrying exactly the value's vector and the namespace "<entity type>:<field>" |
| EmbeddingQueueWorker.RemoveStopWord | web/modules/contrib/openai/modules/openai_embeddings/src/Plugin/QueueWorker/EmbeddingQueueWorker.php:260-262 | removing a stopword never lengthens the text |
| EmbeddingQueueWorker.RemoveStopWordWithin | web/modules/contrib/openai/modules/openai_embeddings/src/Plugin/QueueWorker/EmbeddingQueueWorker.php:260-262 | removing a stopword only deletes characters: nothing new appears |
| EmbeddingQueueWorker.RemoveStopWordAbsent | web/modules/contrib/openai/modules/openai_embeddings/src/Plugin/QueueWorker/EmbeddingQueueWorker.php:260-262 | where the word has no whole-word match, only the trim happens |
| EmbeddingQueueWorker.RemoveWordFromWhole | web/modules/contrib/openai/modules/openai_embeddings/src/Plugin/QueueWorker/EmbeddingQueueWorker.php:261 | a text that is the stopword itself, in any letter case, is removed entirely |
| EmbeddingQueueWorker.WholeWordUntrimmed | web/modules/contrib/openai/modules/openai_embeddings/src/Plugin/QueueWorker/EmbeddingQueueWorker.php:261 | such a text is left alone by the trim that precedes the removal |
| EmbeddingQueueWorker.RemoveStopWords | web/modules/contrib/openai/modules/openai_embeddings/src/Plugin/QueueWorker/EmbeddingQueueWorker.php:141-143 | the stopword loop never lengthens the text |
| EmbeddingQueueWorker.RemoveStopWordsWithin | web/modules/contrib/openai/modules/openai_embeddings/src/Plugin/QueueWorker/EmbeddingQueueWorker.php:141-143 | the stopword loop only deletes characters |
| EmbeddingQueueWorker.ValueText | web/modules/contrib/openai/modules/openai_embeddings/src/Plugin/QueueWorker/EmbeddingQueueWorker.php:139-143 | the text sent for embedding has at most 8000 characters, all whitelisted |
| EmbeddingQueueWorker.KeyOf | web/modules/contrib/openai/modules/openai_embeddings/src/Plugin/QueueWorker/EmbeddingQueueWorker.php:172-178 | the row key holds the entity's id, type and bundle, the field name and the delta |
| EmbeddingQueueWorker.ValueEffect | web/modules/contrib/openai/modules/openai_embeddings/src/Plugin/QueueWorker/EmbeddingQueueWorker.php:134-203 | a value is skipped exactly when it is empty; a written row means the upsert was accepted; every upsert goes to the field's namespace |
| EmbeddingQueueWorker.TextEffect | web/modules/contrib/openai/modules/openai_embeddings/src/Plugin/QueueWorker/EmbeddingQueueWorker.php:146-203 | a sent text is never skipped; a row is written only after an accepted upsert to the field's namespace |
| EmbeddingQueueWorker.Effects | web/modules/contrib/openai/modules/openai_embeddings/src/Plugin/QueueWorker/EmbeddingQueueWorker.php:134-204 | one effect per value, delta by delta, each decided by that value alone |
| EmbeddingQueueWorker.ApplyAllEffects | web/modules/contrib/openai/modules/openai_embeddings/src/Plugin/QueueWorker/EmbeddingQueueWorker.php:134-204 | the inner loop adds exactly the rows of its successful values and appends the sent texts, the sent requests and the failures |
| EmbeddingQueueWorker.WrittenRowsExactly | web/modules/contrib/openai/modules/openai_embeddings/src/Plugin/QueueWorker/EmbeddingQueueWorker.php:146-203 | failure isolation: the row of delta d is written exactly when d's own calls succeeded, whatever happened to the other values |
| EmbeddingQueueWorker.FieldUpsertsNamespace | web/modules/contrib/openai/modules/openai_embeddings/src/Plugin/QueueWorker/EmbeddingQueueWorker.php:154-168 | every upsert sent while walking a field goes to "<entity type>:<field>" |
| EmbeddingQueueWorker.FieldRowExactly | web/modules/contrib/openai/modules/openai_embeddings/src/Plugin/QueueWorker/EmbeddingQueueWorker.php:135-186 | the row of a value is written exactly when the value is non-empty, the embedding call answered and the upsert was accepted |
| EmbeddingQueueWorker.EmptyValuesSkipped | web/modules/contrib/openai/modules/openai_embeddings/src/Plugin/QueueWorker/EmbeddingQueueWorker.php:135-137 | a field whose values are all empty causes no embedding call, no upsert and no row (the per-value case is ValueEffect's first clause) |
| EmbeddingQueueWorker.FieldsTable | web/modules/contrib/openai/modules/openai_embeddings/src/Plugin/QueueWorker/EmbeddingQueueWorker.php:130-206 | the fields loop merges exactly the rows of the text fields into the table |
| EmbeddingQueueWorker.ProcessItemTable | web/modules/contrib/openai/modules/openai_embeddings/src/Plugin/QueueWorker/EmbeddingQueueWorker.php:116-215 | processItem() merges the item's rows into the table and touches no other row |
| EmbeddingQueueWorker.ReprocessOverwrites | web/modules/contrib/openai/modules/openai_embeddings/src/Plugin/QueueWorker/EmbeddingQueueWorker.php:170-186 | reprocessing an item with the same answers overwrites its rows rather than adding any (the merge keys) |
| EmbeddingQueueWorker.FieldRowsFromTextFields | web/modules/contrib/openai/modules/openai_embeddings/src/Plugin/QueueWorker/EmbeddingQueueWorker.php:130-131 | every row written comes from a field whose type is one of the text types |
| EmbeddingQueueWorker.MissingEntity | web/modules/contrib/openai/modules/openai_embeddings/src/Plugin/QueueWorker/EmbeddingQueueWorker.php:118-123 | a missing entity gives one item-level log line and nothing embedded, sent, written or paused |
| EmbeddingQueueWorker.Worker.constructor | web/modules/contrib/openai/modules/openai_embeddings/src/Plugin/QueueWorker/EmbeddingQueueWorker.php:84-93 | a fresh worker over a table has made no call, logged nothing and paused no time |
| EmbeddingQueueWorker.Worker.ProcessValue | web/modules/contrib/openai/modules/openai_embeddings/src/Plugin/QueueWorker/EmbeddingQueueWorker.php:134-143 | one value changes the worker state as its effect says |
| EmbeddingQueueWorker.Worker.SendText | web/modules/contrib/openai/modules/openai_embeddings/src/Plugin/QueueWorker/EmbeddingQueueWorker.php:146-203 | the embed, upsert and merge of one text change the state as its effect says; a failure is logged instead |
| EmbeddingQueueWorker.Worker.ProcessField | web/modules/contrib/openai/modules/openai_embeddings/src/Plugin/QueueWorker/EmbeddingQueueWorker.php:131-205 | the inner loop leaves the state its field step specifies |
| EmbeddingQueueWorker.Worker.ProcessItem | web/modules/contrib/openai/modules/openai_embeddings/src/Plugin/QueueWorker/EmbeddingQueueWorker.php:116-215 | processItem() leaves exactly the state its specification gives |
| EmbeddingsSettingsForm.Selected | web/modules/contrib/openai/modules/openai_embeddings/src/Form/SettingsForm.php:158 | array_filter() keeps exactly the ticked boxes |
| EmbeddingsSettingsForm.SavedTypesExactly | web/modules/contrib/openai/modules/openai_embeddings/src/Form/SettingsForm.php:155-163 | an entity type is saved exactly when one of its entries has a ticked box, and what is saved for it is non-empty and holds ticked boxes only |
| EmbeddingsSettingsForm.SavedTypesSelection | web/modules/contrib/openai/modules/openai_embeddings/src/Form/SettingsForm.php:157-162 | with distinct entity types each saved type keeps exactly its ticked boxes |
| EmbeddingsSettingsForm.ParseStopwords | web/modules/contrib/openai/modules/openai_embeddings/src/Form/SettingsForm.php:165-166 | the saved stopwords are non-empty, sorted, lower case and contain no ", " |
| EmbeddingsSettingsForm.ResubmitUnchanged | web/modules/contrib/openai/modules/openai_embeddings/src/Form/SettingsForm.php:67-69 | submitting the displayed stopwords unchanged saves the same sorted list (round trip with the display at lines 165-166) |
| EmbeddingsSettingsForm.StopwordsStable | web/modules/contrib/openai/modules/openai_embeddings/src/Form/SettingsForm.php:165-166 | once saved, the stopwords survive any number of display-and-submit rounds |
| EmbeddingsSettingsForm.SupportedExactly | web/modules/contrib/openai/modules/openai_embeddings/src/Form/SettingsForm.php:190-224 | a type is offered exactly when it is defined, in the supported list and a content entity type |
| EmbeddingsSettingsForm.GetSupportedEntityTypes | web/modules/contrib/openai/modules/openai_embeddings/src/Form/SettingsForm.php:190-224 | the loop returns that map, and only supported types |
| EmbeddingsSettingsForm.EmbeddingsSettings.constructor | web/modules/contrib/openai/modules/openai_embeddings/src/Form/SettingsForm.php:64-65 | nothing is saved before the first submit |
| EmbeddingsSettingsForm.EmbeddingsSettings.SubmitForm | web/modules/contrib/openai/modules/openai_embeddings/src/Form/SettingsForm.php:152-182 | submitForm() saves the selected bundles per type, the parsed stopwords, the model, the API key and the hostname |
| SearchForm.SearchText | web/modules/contrib/openai/modules/openai_embeddings/src/Form/SearchForm.php:140 | the text embedded has at most 1024 whitelisted characters |
| SearchForm.SearchRequest | web/modules/contrib/openai/modules/openai_embeddings/src/Form/SearchForm.php:149-158 | the store query reads back as 8 matches, metadata on, values off, filtered on the entity type, in the chosen namespace |
| SearchForm.Emitted | web/modules/contrib/openai/modules/openai_embeddings/src/Form/SearchForm.php:164-177 | the walk never emits more matches than it was given |
| SearchForm.Listing | web/modules/contrib/openai/modules/openai_embeddings/src/Form/SearchForm.php:161-177 | the output starts with the opening list tag |
| SearchForm.TrackedBy | web/modules/contrib/openai/modules/openai_embeddings/src/Form/SearchForm.php:162-176 | the tracked map is empty exactly when nothing was emitted |
| SearchForm.Track | web/modules/contrib/openai/modules/openai_embeddings/src/Form/SearchForm.php:176 | tracking a match adds exactly its entity type to the map's keys |
| SearchForm.SeenTrackedBy | web/modules/contrib/openai/modules/openai_embeddings/src/Form/SearchForm.php:165 | the tracked map knows exactly the entities already emitted |
| SearchForm.EmittedAbove | web/modules/contrib/openai/modules/openai_embeddings/src/Form/SearchForm.php:169-171 | every result reaches the relevancy threshold |
| SearchForm.EmittedDistinct | web/modules/contrib/openai/modules/openai_embeddings/src/Form/SearchForm.php:165-167 | no two results name the same entity |
| SearchForm.EmittedInOrder | web/modules/contrib/openai/modules/openai_embeddings/src/Form/SearchForm.php:164-177 | the results keep the store's order |
| SearchForm.EmittedCovers | web/modules/contrib/openai/modules/openai_embeddings/src/Form/SearchForm.php:164-177 | an entity is listed exactly when one of its matches reaches the threshold |
| SearchForm.EmittedAt | web/modules/contrib/openai/modules/openai_embeddings/src/Form/SearchForm.php:164-177 | match i is emitted exactly when it reaches the threshold and no earlier match of its entity did |
| SearchForm.EmittedNone | web/modules/contrib/openai/modules/openai_embeddings/src/Form/SearchForm.php:164-177 | nothing is emitted exactly when no match reaches the threshold |
| SearchForm.OutputNoResults | web/modules/contrib/openai/modules/openai_embeddings/src/Form/SearchForm.php:181-183 | the output is the no-results paragraph exactly when nothing was emitted |
| SearchForm.NoResultsExactly | web/modules/contrib/openai/modules/openai_embeddings/src/Form/SearchForm.php:164-183 | the response is the no-results paragraph exactly when every match is below the threshold |
| SearchForm.GetResponse | web/modules/contrib/openai/modules/openai_embeddings/src/Form/SearchForm.php:135-188 | the callback's output is the specified response, None when the embedding or the store query throws |
| SearchForm.Walk | web/modules/contrib/openai/modules/openai_embeddings/src/Form/SearchForm.php:161-183 | the loop builds the list of emitted matches, or the no-results paragraph |
| PineconeClient.Options | web/modules/contrib/openai/modules/openai_embeddings/src/Http/PineconeClient.php:29-39 | the client sends a JSON content type and the configured API key to the configured host |
| PineconeClient.Query | web/modules/contrib/openai/modules/openai_embeddings/src/Http/PineconeClient.php:58-77 | POST /query with vector, topK, both include flags and the namespace, and a filter exactly when one is given |
| PineconeClient.DefaultQuery | web/modules/contrib/openai/modules/openai_embeddings/src/Http/PineconeClient.php:58 | a query with only a vector reads back as topK 5, no metadata, no values, no filter, namespace '' |
| PineconeClient.QueryRoundTrip | web/modules/contrib/openai/modules/openai_embeddings/src/Http/PineconeClient.php:58-77 | every query argument can be read back from the request |
| PineconeClient.Upsert | web/modules/contrib/openai/modules/openai_embeddings/src/Http/PineconeClient.php:88-98 | POST /vectors/upsert with exactly the vectors and the namespace |
| PineconeClient.Fetch | web/modules/contrib/openai/modules/openai_embeddings/src/Http/PineconeClient.php:111-121 | GET /vectors/fetch with ids and namespace as query parameters |
| PineconeClient.Delete | web/modules/contrib/openai/modules/openai_embeddings/src/Http/PineconeClient.php:141-166 | deleteAll is sent exactly when there is no filter, a filter exactly when there is one, ids only when non-empty, the namespace always |
| PineconeClient.DeleteRoundTrip | web/modules/contrib/openai/modules/openai_embeddings/src/Http/PineconeClient.php:141-166 | a delete request conveys its arguments, except that a filter overrides deleteAll |
| PineconeClient.Stats | web/modules/contrib/openai/modules/openai_embeddings/src/Http/PineconeClient.php:171-175 | POST /describe_index_stats with no body |
| PineconePlugin.DefaultConfiguration | web/modules/contrib/openai/modules/openai_embeddings/src/Plugin/openai_embeddings/vector_client/Pinecone.php:151-156 | the defaults are an empty hostname and an empty API key |
| PineconePlugin.OverDefaults | web/modules/contrib/openai/modules/openai_embeddings/src/Plugin/openai_embeddings/vector_client/Pinecone.php:141 | merging over the defaults keeps every given key and fills hostname and api_key with '' where absent |
| PineconePlugin.Persisted | web/modules/contrib/openai/modules/openai_embeddings/src/Plugin/openai_embeddings/vector_client/Pinecone.php:142-145 | only hostname and api_key of the merged configuration are written to the stored config |
| PineconePlugin.ReloadedClient | web/modules/contrib/openai/modules/openai_embeddings/src/Plugin/openai_embeddings/vector_client/Pinecone.php:47-58 | a plugin built after setConfiguration(c) uses the host and key c supplied, or empty ones |
| PineconePlugin.Pinecone.constructor | web/modules/contrib/openai/modules/openai_embeddings/src/Plugin/openai_embeddings/vector_client/Pinecone.php:47-58 | the configuration is the given one over the defaults, and the client is built from the stored hostname and API key |
| PineconePlugin.Pinecone.SetConfiguration | web/modules/contrib/openai/modules/openai_embeddings/src/Plugin/openai_embeddings/vector_client/Pinecone.php:140-146 | the configuration becomes c over the defaults and the stored config is updated accordingly |
| PineconePlugin.Pinecone.SubmitConfigurationForm | web/modules/contrib/openai/modules/openai_embeddings/src/Plugin/openai_embeddings/vector_client/Pinecone.php:201-203 | submitting the form sets the configuration to the submitted values |
| PineconePlugin.Pinecone.Query | web/modules/contrib/openai/modules/openai_embeddings/src/Plugin/openai_embeddings/vector_client/Pinecone.php:88-107 | the plugin's query is the HTTP client's query payload: it reads back to its arguments |
| PineconePlugin.Pinecone.Upsert | web/modules/contrib/openai/modules/openai_embeddings/src/Plugin/openai_embeddings/vector_client/Pinecone.php:118-127 | the plugin's upsert sends the vectors and no namespace |
| PineconePlugin.Pinecone.Insert | web/modules/contrib/openai/modules/openai_embeddings/src/Plugin/openai_embeddings/vector_client/Pinecone.php:158-160 | not implemented: nothing changes |
| PineconePlugin.Pinecone.Update | web/modules/contrib/openai/modules/openai_embeddings/src/Plugin/openai_embeddings/vector_client/Pinecone.php:162-164 | not implemented: nothing changes |
| PineconePlugin.Pinecone.Delete | web/modules/contrib/openai/modules/openai_embeddings/src/Plugin/openai_embeddings/vector_client/Pinecone.php:166-168 | not implemented: nothing changes |
| DeleteConfirmForm.DeleteRequestFor | web/modules/contrib/openai/modules/openai_embeddings/src/Form/DeleteConfirmForm.php:76 | a row's request reads back as no ids, deleteAll, the row's namespace, no filter |
| DeleteConfirmForm.ApplyDeleteRow | web/modules/contrib/openai/modules/openai_embeddings/src/Form/DeleteConfirmForm.php:76 | that request drops exactly the row's namespace from the index |
| DeleteConfirmForm.DeletesRemoveNamespaces | web/modules/contrib/openai/modules/openai_embeddings/src/Form/DeleteConfirmForm.php:73-77 | once all requests are accepted every namespace a row names is gone and every other namespace is untouched |
| DeleteConfirmForm.DeletesIdempotent | web/modules/contrib/openai/modules/openai_embeddings/src/Form/DeleteConfirmForm.php:73-77 | deleting twice, or over repeated rows, changes nothing more |
| DeleteConfirmForm.DeleteTargetsUpsertNamespace | web/modules/contrib/openai/modules/openai_embeddings/src/Form/DeleteConfirmForm.php:76 | the namespace deleted for a row is the one the queue worker upserted its vectors into |
| DeleteConfirmForm.SubmitForm | web/modules/contrib/openai/modules/openai_embeddings/src/Form/DeleteConfirmForm.php:72-77 | one delete per row in row order; a rejected request ends the loop and is the last one sent |
| PineconeStats.Label | web/modules/contrib/openai/modules/openai_embeddings/src/Controller/PineconeStats.php:61-66 | the empty namespace is labelled "No namespace entered", any other by its key |
| PineconeStats.LabelsDistinct | web/modules/contrib/openai/modules/openai_embeddings/src/Controller/PineconeStats.php:61-66 | two different namespaces, neither named like the placeholder, get different, non-empty labels |
| PineconeStats.Index | web/modules/contrib/openai/modules/openai_embeddings/src/Controller/PineconeStats.php:44-85 | a two-column header, one row per namespace in response order, no rows when the stats call throws, and the empty text |
| BatchPlan.Count | web/modules/contrib/openai/modules/openai_api/src/Commands/ContentGenerationCommand.php:95 | the loop `$i_nbr < number_for_prompt` runs the least natural number of times that is not below the count |
| BatchPlan.CountPasses | web/modules/contrib/openai/modules/openai_api/src/Commands/ContentGenerationCommand.php:95 | pass k runs exactly when k is below the count |
| BatchPlan.SlotsLength | web/modules/contrib/openai/modules/openai_api/src/Commands/ContentGenerationCommand.php:94-121 | there are as many operations as the counts add up to |
| BatchPlan.SlotsLayout | web/modules/contrib/openai/modules/openai_api/src/Commands/ContentGenerationCommand.php:94-121 | prompt p's i-th operation sits right after the operations of the earlier prompts, with batch id its position plus one |
| BatchPlan.SlotsNumbered | web/modules/contrib/openai/modules/openai_api/src/Commands/ContentGenerationCommand.php:91-118 | batch ids run 1..N without gaps |
| BatchPlan.SlotsBounded | web/modules/contrib/openai/modules/openai_api/src/Commands/ContentGenerationCommand.php:94-97 | each operation belongs to a prompt and its iteration lies in 1..that prompt's count |
| BatchPlan.SlotsGrouped | web/modules/contrib/openai/modules/openai_api/src/Commands/ContentGenerationCommand.php:94-97 | operations come prompt by prompt: each continues its predecessor's prompt with the next iteration or starts a later one at 1 |
| ContentGenerationCommand.PlanCount | web/modules/contrib/openai/modules/openai_api/src/Commands/ContentGenerationCommand.php:111-128 | one operation per node asked for, a title reporting that number, every operation calling generate and finished() at the end |
| ContentGenerationCommand.PlanLayout | web/modules/contrib/openai/modules/openai_api/src/Commands/ContentGenerationCommand.php:94-117 | prompt p's i-th node carries iteration i, nbr_article_generated its position plus one, the prompt's fields and the type-and-subject message |
| ContentGenerationCommand.PlanNumbering | web/modules/contrib/openai/modules/openai_api/src/Commands/ContentGenerationCommand.php:96-118 | nbr_article_generated runs 1..N and iterations restart at 1 for each prompt |
| ContentGenerationCommand.InitOperations | web/modules/contrib/openai/modules/openai_api/src/Commands/ContentGenerationCommand.php:88-130 | the nested loops build exactly the planned batch |
| ContentGenerationCommand.GenerateContentDrushCommand | web/modules/contrib/openai/modules/openai_api/src/Commands/ContentGenerationCommand.php:56-68 | the batch is set only when confirmed; otherwise only the abort notice is written |
| DrushInput.Numeric | web/modules/contrib/openai/modules/openai_api/src/Commands/ContentGenerationCommand.php:142-147 | a typed answer has the value of its numeric string; the default is always numeric |
| DrushInput.CountValidator | web/modules/contrib/openai/modules/openai_api/src/Commands/ContentGenerationCommand.php:141-147 | a count prompt accepts an empty line (the default 1) and exactly the numeric typed lines; "three" is refused |
| ContentGenerationCommand.MaxTokenRange | web/modules/contrib/openai/modules/openai_api/src/Commands/ContentGenerationCommand.php:172-178 | the max_token prompt accepts the default and exactly the numeric lines in 1..2000 |
| ContentGenerationCommand.TemperatureTypedRejected | web/modules/contrib/openai/modules/openai_api/src/Commands/ContentGenerationCommand.php:179-185 | as written every typed temperature, "0.7" included, is refused and only the default 0.5 passes (finding 3) |
| ContentGenerationCommand.TemperatureRange | web/modules/contrib/openai/modules/openai_api/src/Commands/ContentGenerationCommand.php:179-185 | the corrected validator accepts the default and exactly the numeric lines in 0..0.9 |
| BatchMediaGenerationCommands.PlanCount | web/modules/contrib/openai/modules/openai_api/src/Commands/BatchMediaGenerationCommands.php:91-108 | one operation per media item asked for, a title reporting it, generate_media per operation and generate_medias_finished at the end |
| BatchMediaGenerationCommands.PlanLayout | web/modules/contrib/openai/modules/openai_api/src/Commands/BatchMediaGenerationCommands.php:83-97 | prompt p's i-th item carries iteration i, nbr_media_generated its position plus one and the prompt's image description and resolution |
| BatchMediaGenerationCommands.PlanNumbering | web/modules/contrib/openai/modules/openai_api/src/Commands/BatchMediaGenerationCommands.php:85-98 | nbr_media_generated runs 1..N, each iteration lies within its prompt's count, and iterations start at 1 and either go up by 1 or restart at 1 for the next prompt |
| BatchMediaGenerationCommands.InitOperations | web/modules/contrib/openai/modules/openai_api/src/Commands/BatchMediaGenerationCommands.php:77-110 | the nested loops build exactly the planned batch |
| BatchMediaGenerationCommands.GenerateMediaDrushCommand | web/modules/contrib/openai/modules/openai_api/src/Commands/BatchMediaGenerationCommands.php:43-57 | the batch is set only when confirmed; otherwise only the abort notice is written |
| GenerationService.GenerateImage | web/modules/contrib/openai/modules/openai_api/src/GenerationService.php:48-56 | no image exactly when the image prompt is empty; otherwise the image call's URL, or '' when it did not answer 200 |
| GenerationService.NoImageWithoutPrompt | web/modules/contrib/openai/modules/openai_api/src/GenerationService.php:49-50 | with an empty prompt the image service is never consulted |
| GenerationService.Generate | web/modules/contrib/openai/modules/openai_api/src/GenerationService.php:23-40 | the operation's number is recorded and the progress message set before any call; a node is of the prompt's content type, its body is the completion text shaped as stored and its title the subject (unless those fields coincide with the image field), and it gets an image only when a prompt was given |
| GenerationService.GenerateNode | web/modules/contrib/openai/modules/openai_api/src/GenerationService.php:34-39 | the text, image and node calls in order: a node only when the completion answered, with that completion text as its shaped body and the subject as its title, of the prompt's content type |
| GenerationService.GenerateMedia | web/modules/contrib/openai/modules/openai_api/src/GenerationService.php:88-102 | the number is recorded and the message set; the outcome fails exactly when the file could not be retrieved, and a media item bears the prompt's name |
| GenerationService.BatchContext.constructor | web/modules/contrib/openai/modules/openai_api/src/GenerationService.php:25 | a fresh batch context has no results and no message |
| GenerationService.ContentBatchReport | web/modules/contrib/openai/modules/openai_api/src/GenerationService.php:64-74 | after a whole node batch the results are 1..N and finished() reports the N of the batch title; on failure the error notice |
| GenerationService.MediaBatchReport | web/modules/contrib/openai/modules/openai_api/src/GenerationService.php:110-120 | after a whole media batch the results are 1..N and generate_medias_finished() reports N; on failure the error notice |
| GenerationController.GetModels | web/modules/contrib/openai/modules/openai_api/src/Controller/GenerationController.php:143-176 | no models unless the call answered 200; then exactly the listed ids among the four supported ones, each mapped to itself |
| GenerationController.CompletionPromptShape | web/modules/contrib/openai/modules/openai_api/src/Controller/GenerationController.php:91-97 | without save_html the prompt is the trimmed text; with it the text loses its leading blanks and the HTML instruction ends the prompt |
| GenerationController.HtmlSuffixEnds | web/modules/contrib/openai/modules/openai_api/src/Controller/GenerationController.php:92 | the appended instruction ends with a kept character, and left-trimmed it is the bare instruction |
| GenerationController.CompletionTemperature | web/modules/contrib/openai/modules/openai_api/src/Controller/GenerationController.php:98 | as written every temperature in [0, 1), the default 0.5 included, is sent as 0; the corrected request keeps it (finding 2) |
| OpenAiClient.IntValue | web/modules/contrib/openai/modules/openai_api/src/Controller/GenerationController.php:98-99 | (int) truncates a numeric value toward zero and gives 0 for anything else |
| OpenAiClient.IntValueBelowOne | web/modules/contrib/openai/modules/openai_api/src/Controller/GenerationController.php:98 | every value in [0, 1) casts to 0 |
| GenerationController.TextCompletionResponseBodyData | web/modules/contrib/openai/modules/openai_api/src/Controller/GenerationController.php:84-104 | None exactly when the completion call throws; otherwise a trimmed text no longer than the answer |
| GenerationController.BodyValueShape | web/modules/contrib/openai/modules/openai_api/src/Controller/GenerationController.php:196-203 | the stored body holds no line break; a body without breaks is stored as is, inside <p> unless save_html |
| GenerationController.Dashed | web/modules/contrib/openai/modules/openai_api/src/Controller/GenerationController.php:275 | str_replace(' ', '-') keeps the length and leaves no space |
| GenerationController.MediaNameShape | web/modules/contrib/openai/modules/openai_api/src/Controller/GenerationController.php:275-278 | the media name is the prompt with dashes for spaces, lower case, plus ".png"; "A cat with glasses" gives "a-cat-with-glasses.png" |
| GenerationController.GenerateMediaImage | web/modules/contrib/openai/modules/openai_api/src/Controller/GenerationController.php:233-242 | fails exactly when the file cannot be retrieved; a media item exists exactly when the file has an id, and it points at that file |
| GenerationController.GenerateContent | web/modules/contrib/openai/modules/openai_api/src/Controller/GenerationController.php:193-224 | None exactly when retrieving the image file throws; otherwise a node of the content type with its title and body set, the body shaped as stored, whether or not an image is attached (unless the image field shares their name); the image field and a media item named after the prompt exactly when there is an image URL whose file has a non-zero id |
| ChatGptForm.NextHistoryShape | web/modules/contrib/openai/modules/openai_chatgpt/src/Form/ChatGptForm.php:146-168 | the first submit stores system, user, assistant; a later one appends a user and an assistant message; the conversation stays well formed |
| ChatGptForm.ChatTemperature | web/modules/contrib/openai/modules/openai_chatgpt/src/Form/ChatGptForm.php:68-75 | as written "0.4" is sent as 0 and "1.5" as 1; the corrected request sends 0.4 and 1.5 (finding 2) |
| ChatGptForm.DisplayedReply | web/modules/contrib/openai/modules/openai_chatgpt/src/Form/ChatGptForm.php:127-132 | after a submit the response box shows the reply, trimmed |
| ChatGptForm.ChatForm.constructor | web/modules/contrib/openai/modules/openai_chatgpt/src/Form/ChatGptForm.php:144-146 | a new form has no stored messages |
| ChatGptForm.ChatForm.SubmitForm | web/modules/contrib/openai/modules/openai_chatgpt/src/Form/ChatGptForm.php:137-170 | the request carries the history plus the new message; on an answer the stored history gains the reply and the form rebuilds; a thrown call stores nothing; well-formedness is kept |
| ChatGptForm.ChatForm.GetResponse | web/modules/contrib/openai/modules/openai_chatgpt/src/Form/ChatGptForm.php:127-132 | the response shown is the last stored message, trimmed |
| OpenAiDbLogController.MessageOf | web/modules/contrib/openai/modules/openai_dblog/src/Controller/OpenAIDbLogController.php:48 | the message key is at most 256 characters long |
| OpenAiDbLogController.Lookup | web/modules/contrib/openai/modules/openai_dblog/src/Controller/OpenAIDbLogController.php:123-125 | None exactly when no stored row has the hash; otherwise the first row with it |
| OpenAiDbLogController.LookupAfterInsert | web/modules/contrib/openai/modules/openai_dblog/src/Controller/OpenAIDbLogController.php:137-145 | after an insert a lookup of the new hash finds the new row, and every other lookup is as before |
| OpenAiDbLogController.SecondViewHits | web/modules/contrib/openai/modules/openai_dblog/src/Controller/OpenAIDbLogController.php:50-78 | after a miss whose request was answered, viewing the same event again is a hit |
| OpenAiDbLogController.DbLogController.constructor | web/modules/contrib/openai/modules/openai_dblog/src/Controller/OpenAIDbLogController.php:26-33 | the controller starts over an empty explanation table |
| OpenAiDbLogController.DbLogController.EventDetails | web/modules/contrib/openai/modules/openai_dblog/src/Controller/OpenAIDbLogController.php:35-99 | no change unless the severity is enabled; otherwise one explanation row: cached on a hit, asked for and stored on a miss, the fallback text when the call throws |
| StringHelper.StripLineBreaksJoin | web/modules/contrib/openai/src/Utility/StringHelper.php:68 | a line break followed by indentation between two plain texts loses only the line break |
| StringHelper.CollapseSpacesJoin | web/modules/contrib/openai/src/Utility/StringHelper.php:70 | any run of spaces between two plain texts becomes one space |
| PhpStrings.TrimLeft | web/modules/contrib/openai/src/Utility/StringHelper.php:67 | ltrim(): a suffix of the input that starts with a kept character; everything dropped is blank |
| PhpStrings.TrimRight | web/modules/contrib/openai/src/Utility/StringHelper.php:67 | rtrim(): a prefix of the input that ends with a kept character; everything dropped is blank |
| PhpStrings.TrimLeftKeptStart | web/modules/contrib/openai/src/Utility/StringHelper.php:67 | a text starting with a kept character is unchanged by ltrim() |
| PhpStrings.TrimKeptEnd | web/modules/contrib/openai/modules/openai_api/src/Controller/GenerationController.php:97 | a text ending with a kept character is trimmed on the left only |
| PhpStrings.LastBoundary | web/modules/contrib/openai/src/Utility/StringHelper.php:73 | the last word boundary in 1..k, every later position in range being no boundary; None when there is none in range |
| PhpStrings.DinosaursFirstBoundary | web/modules/contrib/openai/tests/src/Unit/Utility/StringHelperTest.php:63-70 | for cuts of 9 to 12 characters the last boundary of the dinosaur sentence is the space after "Dinosaurs" |
| PhpStrings.Lower | web/modules/contrib/openai/modules/openai_embeddings/src/Form/SettingsForm.php:165 | mb_strtolower(): same length, lower case, character by character |
| PhpStrings.LowerOfLower | web/modules/contrib/openai/modules/openai_embeddings/src/Form/SettingsForm.php:165 | lower-casing lower-case text changes nothing |
| PhpStrings.LowerImplode | web/modules/contrib/openai/modules/openai_embeddings/src/Form/SettingsForm.php:165 | lower-casing a joined list is joining the lower-cased words, for a lower-case separator |
| PhpStrings.Explode | web/modules/contrib/openai/modules/openai_embeddings/src/Form/SettingsForm.php:165 | explode() always returns at least one piece |
| PhpStrings.ExplodeImplode | web/modules/contrib/openai/modules/openai_embeddings/src/Form/SettingsForm.php:67-69 | explode() undoes implode() for words that do not contain the separator (a two-character separator neither end of which can straddle a word) |
| PhpStrings.ExplodePiecesLackSeparator | web/modules/contrib/openai/modules/openai_embeddings/src/Form/SettingsForm.php:165 | no piece explode() returns contains the separator |
| PhpStrings.ExplodePiecesLower | web/modules/contrib/openai/modules/openai_embeddings/src/Form/SettingsForm.php:165 | exploding lower-case text gives lower-case pieces |
| PhpStrings.StrLeTotal | web/modules/contrib/openai/modules/openai_embeddings/src/Form/SettingsForm.php:166 | the string order used by sort() compares any two strings |
| PhpStrings.StrLeTransitive | web/modules/contrib/openai/modules/openai_embeddings/src/Form/SettingsForm.php:166 | that order is transitive |
| PhpStrings.StrLeAntisymmetric | web/modules/contrib/openai/modules/openai_embeddings/src/Form/SettingsForm.php:166 | that order is antisymmetric |
| PhpStrings.StrLeReflexive | web/modules/contrib/openai/modules/openai_embeddings/src/Form/SettingsForm.php:166 | that order is reflexive |
| PhpStrings.Insert | web/modules/contrib/openai/modules/openai_embeddings/src/Form/SettingsForm.php:166 | inserting adds exactly the one element |
| PhpStrings.InsertSorted | web/modules/contrib/openai/modules/openai_embeddings/src/Form/SettingsForm.php:166 | inserting into a sorted list keeps it sorted |
| PhpStrings.Sort | web/modules/contrib/openai/modules/openai_embeddings/src/Form/SettingsForm.php:166 | sort() returns a sorted permutation of its input |
| PhpStrings.SortOfSorted | web/modules/contrib/openai/modules/openai_embeddings/src/Form/SettingsForm.php:166 | sorting a sorted list changes nothing |
| PhpStrings.SortedPermutationUnique | web/modules/contrib/openai/modules/openai_embeddings/src/Form/SettingsForm.php:166 | two sorted permutations of the same words are equal, so the sorted result does not depend on the input order |
| PhpStrings.NatToString | web/modules/contrib/openai/modules/openai_api/src/GenerationService.php:26-32 | the decimal text of a number is non-empty and all digits |
| PhpStrings.ParseNatToString | web/modules/contrib/openai/modules/openai_api/src/GenerationService.php:26-32 | reading the decimal text back gives the number |
| PhpStrings.NatToStringInjective | web/modules/contrib/openai/modules/openai_api/src/GenerationService.php:64-74 | different numbers have different decimal texts |
| PhpStrings.NumericValueOfNat | web/modules/contrib/openai/modules/openai_api/src/Commands/ContentGenerationCommand.php:141-147 | the decimal text of a number is numeric, with that value |
| PhpStrings.DecimalValue | web/modules/contrib/openai/modules/openai_chatgpt/src/Form/ChatGptForm.php:68-75 | a numeric string d.d has the value its digits give |
| PhpStrings.IntCast | web/modules/contrib/openai/modules/openai_api/src/Controller/GenerationController.php:98-99 | (int) of a number truncates toward zero |
| OpenAiClient.RealValue | web/modules/contrib/openai/modules/openai_api/src/Controller/GenerationController.php:98 | the uncast number a numeric value stands for; 0 otherwise |
| EmbeddingQueueWorker.RemoveWordFrom | web/modules/contrib/openai/modules/openai_embeddings/src/Plugin/QueueWorker/EmbeddingQueueWorker.php:261 | the whole-word, case-insensitive removal scan never returns more than the rest of the text |
| EmbeddingQueueWorker.SentRequestsFor | web/modules/contrib/openai/modules/openai_embeddings/src/Plugin/QueueWorker/EmbeddingQueueWorker.php:154-168 | when every value's upsert goes to the field's namespace, so does every request sent |
| ContentGenerationCommand.Counts | web/modules/contrib/openai/modules/openai_api/src/Commands/ContentGenerationCommand.php:95 | one number_for_prompt per prompt |
| BatchMediaGenerationCommands.Counts | web/modules/contrib/openai/modules/openai_api/src/Commands/BatchMediaGenerationCommands.php:84 | one number_for_prompt per prompt |
| ChatGptForm.AppendTurnWellFormed | web/modules/contrib/openai/modules/openai_chatgpt/src/Form/ChatGptForm.php:146-168 | appending a user and an assistant turn to a started conversation keeps it well formed |
| DeleteConfirmForm.RowNamespacesSome | web/modules/contrib/openai/modules/openai_embeddings/src/Form/DeleteConfirmForm.php:73-77 | a namespace is targeted exactly when some row names it |
| PineconeClient.RealsJson | web/modules/contrib/openai/modules/openai_embeddings/src/Http/PineconeClient.php:88-98 | a vector becomes a JSON array of the same length |
| PineconeClient.StringsJson | web/modules/contrib/openai/modules/openai_embeddings/src/Http/PineconeClient.php:111-121 | an id list becomes a JSON array of the same length |
| SearchForm.TrackedSnoc | web/modules/contrib/openai/modules/openai_embeddings/src/Form/SearchForm.php:176 | emitting one more match tracks it on top of what was tracked |
| SearchForm.ListingSnoc | web/modules/contrib/openai/modules/openai_embeddings/src/Form/SearchForm.php:174 | emitting one more match appends its list item to the output |
| SearchForm.MentionsSome | web/modules/contrib/openai/modules/openai_embeddings/src/Form/SearchForm.php:165 | an entity is mentioned exactly when some emitted match names it |
| SearchForm.MentionsSame | web/modules/contrib/openai/modules/openai_embeddings/src/Form/SearchForm.php:165 | a mentioned entity stays mentioned whichever match of it is asked about |
| StringHelper.NestedScriptIgnored | web/modules/contrib/openai/src/Utility/StringHelper.php:38-63 | a script nested inside a paragraph is removed with all it holds, whatever list the caller passes |
| StringHelper.DinosaursPlain | web/modules/contrib/openai/tests/src/Unit/Utility/StringHelperTest.php:59 | the sentence of the length examples is plain whitelisted text with single spaces |
| StringHelper.ExampleDinosaurs | web/modules/contrib/openai/tests/src/Unit/Utility/StringHelperTest.php:58-71 | prepareText() of the dinosaur paragraph with limits 26, 10 and 12 returns "Dinosaurs roamed the earth", "Dinosaurs" and "Dinosaurs" |
| PhpStrings.TruncateAtDash | web/modules/contrib/openai/src/Utility/StringHelper.php:73 | an em dash counts as a word boundary for the cut, and a letter outside Latin-1 does not |

## Left out

- HTTP, database and queue I/O are not modelled. Each external call is a deterministic function parameter, so two identical calls within one operation give the same answer.
- `hash('sha256')` and, in the log explanation page, `strip_tags()` are function parameters. `\DOMDocument::loadHTML()` (StringHelper.php:48, on the text wrapped in a `<div>`) is replaced by the DOM tree it would produce: the model does not parse HTML.
- StringHelper.TextContent: the `saveHTML()`, `html_entity_decode()` and `strip_tags()` passes are modelled as the concatenation of the text nodes. A text node's `<` or `>` is escaped by `saveHTML()` and then decoded. The model keeps it, as if `strip_tags()` ignored it. PHP also keeps a `<` followed by whitespace ("a < b") and a lone `>`. But a decoded `<` followed by a non-space character opens a tag-like run, and PHP removes that run up to its `>` or to the end of the text. For example, take input HTML `&lt;b&gt;`. Its text node holds the characters `<b>`, which come back unescaped after the decode. PHP drops them, and the model keeps them.
- Floating-point values are exact reals. Relevancy scores, temperatures and embedding vectors carry no rounding.
- `mb_strtolower()` folds ASCII letters only. `is_numeric()` accepts optionally signed decimals without surrounding whitespace or exponents. `(int)` of a non-numeric string is 0, and leading-numeric strings such as "3 nodes" are treated as non-numeric.
- `t()` placeholders are plain concatenation. HTML escaping of `@` arguments is not modelled.
- EmbeddingQueueWorker.Worker.ProcessItem: the throttle `usleep()` is counted as a number of pauses, not as time.
- EmbeddingQueueWorker.Worker.ProcessItem: a database merge failure is not modelled, since the table merge always succeeds.
- EmbeddingQueueWorker.Worker.ProcessItem: in the item-level catch, `$data` has been reassigned inside the loop (EmbeddingQueueWorker.php line 134). The model logs the queue item's own type and id instead of that value.
- EmbeddingQueueWorker.RemoveStopWord: stopwords are matched as literal words. Regular-expression metacharacters inside a stopword are not interpreted.
- EmbeddingsSettingsForm.EmbeddingsSettings.SubmitForm: `sort()` uses plain string comparison. PHP 8 compares two numeric strings numerically, which this does not model.
- EmbeddingsSettingsForm: a missing configuration value is read as the empty string. The form's render arrays (`buildForm`) are not modelled beyond the stopword display.
- PineconePlugin: `getConfiguration()`, `buildConfigurationForm()` and `validateConfigurationForm()` are not modelled. They only return or render values.
- PineconeClient.Delete: the Pinecone server's handling of a filtered delete is not modelled. DeleteConfirmForm only sends unfiltered namespace deletes.
- DeleteConfirmForm.SubmitForm: the status message and the redirect after the loop are left out.
- SearchForm.GetResponse: entity loading for the result links is a link-rendering parameter. A missing entity is not modelled.
- ContentGenerationCommand: `getDrushArguments()` is modelled only through its validators and defaults. The interactive prompting is not modelled. The method never sets the `content_type`, `title`, `body`, `filter_format` or `save_html` keys that `GenerationService::generate()` reads. The model takes those keys as given fields of each prompt.
- ContentGenerationCommand, BatchMediaGenerationCommands: `batch_set()` and `drush_backend_batch_process()` are modelled as returning the batch. The taxonomy lookup `getSubjectsVocabularyTerms()` is not modelled.
- GenerationController: saving entities, `createDerivativesImageStyle()`, and the langcode, dates and uid of a created media item are not modelled.
- GenerationController.TextCompletionResponseBodyData: sends the corrected temperature (the number given), not the `(int)` cast of GenerationController.php line 98; the as-written request is `CompletionRequestAsWritten` (see Findings).
- GenerationService.Generate: its text call inherits that corrected temperature.
- GenerationService.GenerateNode: its text call inherits the same corrected temperature.
- ChatGptForm.ChatForm.SubmitForm: the request it sends carries the corrected temperature, not the `(int)` cast of ChatGptForm.php line 160; the as-written request is `ChatRequestAsWritten` (see Findings).
- GenerationService.GenerateImage: the image call is a total parameter that answers with a status; an exception thrown by `getImageUrl()` is not modelled.
- PhpStrings.Truncate: the word-boundary class is exact for code points up to U+00FF and for the U+2000-U+206F block; the punctuation ranges Drupal lists for other scripts (Greek, Armenian, Arabic, CJK and so on) are not included, so a message cut by the log explanation page at such a character is cut elsewhere in the model.
- ChatGptForm.ChatForm.GetResponse: `end()` on empty storage yields no message, modelled as `None`. The `?? 'No answer was provided.'` fallback is unreachable, because `trim()` never returns null.
- OpenAiDbLogController.DbLogController.EventDetails: a database failure while inserting the explanation is not modelled. `hashSearch()` with LIMIT 1 is modelled as the first stored row with the hash.

## Findings

| source | as written | input that shows it | evidently intended | confidence | as-written member | corrected member |
|---|---|---|---|---|---|---|
| web/modules/contrib/openai/src/Utility/StringHelper.php:39 | `$removeElements += ['pre', 'code', 'script', 'iframe']` is an array union by index. A caller's list of one element keeps only defaults 1..3, so `pre` is no longer removed. | `prepareText('<h1>a</h1><pre>b</pre>', ['h1'])` returns `b` | The defaults are always removed, so the result is the empty string | not executed | StringHelper.AsWrittenKeepsPreContent (with StringHelper.RemovalSetAsWritten, StringHelper.AsWrittenDropsPre) | StringHelper.IntendedDropsPreContent (with StringHelper.RemovalSet) |
| web/modules/contrib/openai/modules/openai_api/src/Controller/GenerationController.php:98 | `'temperature' => (int) $temperature` | Temperature 0.5 (the Drush default) is sent as 0. ChatGptForm.php:160 does the same, sending its default '0.4' as 0 and '1.5' as 1. | The temperature is sent as the number given | not executed | GenerationController.CompletionTemperature, ChatGptForm.ChatTemperature (over the as-written requests) | GenerationController.CompletionTemperature, ChatGptForm.ChatTemperature (over GenerationController.CompletionRequestFor and ChatGptForm.ChatRequestFor, which the rest of the model uses) |
| web/modules/contrib/openai/modules/openai_api/src/Commands/ContentGenerationCommand.php:181 | The validator checks `is_float($value)`, but a typed answer is a string | Typing `0.7` at the temperature prompt is refused, and only the untouched default 0.5 passes | Accept numeric answers in 0..0.9 | not executed | ContentGenerationCommand.TemperatureTypedRejected | ContentGenerationCommand.TemperatureRange |

=== FILE: batch_media_generation_commands.dfy ===
/**
 * The `openai:generate-media` Drush command: the confirm gate and the planner that turns
 * the image prompts into one batch operation per media item to generate.
 */
module BatchMediaGenerationCommands {
  import opened Wrappers
  import opened PhpStrings
  import opened BatchPlan

  const ImageResolutions: seq<string> := ["256x256", "512x512", "1024x1024"]

  /** One image prompt and its (numeric) number_for_prompt. */
  datatype MediaPrompt = MediaPrompt(imagePrompt: string, imageResolution: string, numberForPrompt: real)

  /** The data of one operation: iteration, nbr_media_generated, image_prompt, image_resolution. */
  datatype MediaData = MediaData(iteration: nat, nbrMediaGenerated: nat, imagePrompt: string, imageResolution: string)

  datatype Operation = Operation(callback: string, data: MediaData, message: string)

  datatype Batch = Batch(title: string, operations: seq<Operation>, finished: string, progressMessage: string)

  const GenerateMediaCallback: string := "\\Drupal\\openai_api\\GenerationService::generate_media"

  const FinishedCallback: string := "\\Drupal\\openai_api\\GenerationService::generate_medias_finished"

  const ProgressMessage: string := "Generating @current media out of @total."

  const Aborted: string := "<comment>Command aborted</comment>"

  function Counts(prompts: seq<MediaPrompt>): (r: seq<real>)
    ensures |r| == |prompts|
  {
    seq(|prompts|, i requires 0 <= i < |prompts| => prompts[i].numberForPrompt)
  }

  /** The operation planned for a slot: generate_media, with the slot's numbering and its prompt's image. */
  function OperationAt(prompts: seq<MediaPrompt>, s: Slot): Operation
    requires s.prompt < |prompts|
  {
    var m := prompts[s.prompt];
    Operation(GenerateMediaCallback, MediaData(s.iteration, s.batchId, m.imagePrompt, m.imageResolution),
              "Generating " + m.imagePrompt)
  }

  function Title(n: nat): string {
    "Generating " + NatToString(n) + " media(s)"
  }

  /** The batch initOperations() hands to batch_set(). */
  function Plan(prompts: seq<MediaPrompt>): Batch {
    var slots := Slots(Counts(prompts));
    SlotsBounded(Counts(prompts));
    SlotsLength(Counts(prompts));
    Batch(Title(|slots|),
          seq(|slots|, k requires 0 <= k < |slots| => OperationAt(prompts, slots[k])),
          FinishedCallback, ProgressMessage)
  }

  /**
   * The plan has one operation per media item asked for, and its title reports that
   * number; every operation calls generate_media and the batch ends with
   * generate_medias_finished.
   */
  lemma PlanCount(prompts: seq<MediaPrompt>)
    ensures |Plan(prompts).operations| == Total(Counts(prompts))
    ensures Plan(prompts).title == "Generating " + NatToString(Total(Counts(prompts))) + " media(s)"
    ensures Plan(prompts).finished == FinishedCallback
    ensures forall k :: 0 <= k < |Plan(prompts).operations| ==> Plan(prompts).operations[k].callback == GenerateMediaCallback
  {
    SlotsLength(Counts(prompts));
  }

  /**
   * Prompt p's i-th media item is the operation right after the items of the prompts
   * before it: iteration i, nbr_media_generated its position counted from 1, and only the
   * prompt's image description and resolution besides.
   */
  lemma PlanLayout(prompts: seq<MediaPrompt>, p: nat, i: nat)
    requires p < |prompts| && 1 <= i <= Count(prompts[p].numberForPrompt)
    ensures Total(Counts(prompts)[..p]) + i - 1 < |Plan(prompts).operations|
    ensures (var pos := Total(Counts(prompts)[..p]) + i - 1;
             Plan(prompts).operations[pos].data ==
               MediaData(i, pos + 1, prompts[p].imagePrompt, prompts[p].imageResolution) &&
             Plan(prompts).operations[pos].message == "Generating " + prompts[p].imagePrompt)
  {
    SlotsLayout(Counts(prompts), p, i);
  }

  /** nbr_media_generated runs 1..N without gaps; each iteration lies in 1..its prompt's count. */
  lemma PlanNumbering(prompts: seq<MediaPrompt>)
    ensures forall k :: 0 <= k < |Plan(prompts).operations| ==>
              Plan(prompts).operations[k].data.nbrMediaGenerated == k + 1
    ensures forall k :: 0 <= k < |Plan(prompts).operations| ==>
              1 <= Plan(prompts).operations[k].data.iteration &&
              exists p :: 0 <= p < |prompts| && prompts[p].imagePrompt == Plan(prompts).operations[k].data.imagePrompt &&
                          Plan(prompts).operations[k].data.iteration <= Count(prompts[p].numberForPrompt)
    ensures |Plan(prompts).operations| > 0 ==> Plan(prompts).operations[0].data.iteration == 1
    ensures forall k :: 0 < k < |Plan(prompts).operations| ==>
              Plan(prompts).operations[k].data.iteration == 1 ||
              Plan(prompts).operations[k].data.iteration == Plan(prompts).operations[k - 1].data.iteration + 1
  {
    var counts := Counts(prompts);
    SlotsNumbered(counts);
    SlotsBounded(counts);
    SlotsGrouped(counts);
    forall k | 0 <= k < |Plan(prompts).operations|
      ensures exists p :: 0 <= p < |prompts| && prompts[p].imagePrompt == Plan(prompts).operations[k].data.imagePrompt &&
                          Plan(prompts).operations[k].data.iteration <= Count(prompts[p].numberForPrompt)
    {
      var p := Slots(counts)[k].prompt;
      assert counts[p] == prompts[p].numberForPrompt;
    }
  }

  /** initOperations(): the nested loops over the prompts and their number_for_prompt. */
  method InitOperations(prompts: seq<MediaPrompt>) returns (batch: Batch)
    ensures batch == Plan(prompts)
  {
    ghost var counts := Counts(prompts);
    ghost var slots := Slots(counts);
    var operations: seq<Operation> := [];
    var numOperations := 0;
    var batchId := 1;
    var i := 0;
    while i < |prompts|
      invariant 0 <= i <= |prompts|
      invariant |operations| == numOperations == Total(counts[..i]) && batchId == numOperations + 1
      invariant |operations| <= |slots|
      invariant forall k :: 0 <= k < |operations| ==> slots[k].prompt < |prompts| && operations[k] == OperationAt(prompts, slots[k])
    {
      var iNbr := 0;
      while (iNbr as real) < prompts[i].numberForPrompt
        invariant iNbr <= Count(counts[i])
        invariant |operations| == numOperations == Total(counts[..i]) + iNbr && batchId == numOperations + 1
        invariant |operations| <= |slots|
        invariant forall k :: 0 <= k < |operations| ==> slots[k].prompt < |prompts| && operations[k] == OperationAt(prompts, slots[k])
        decreases Count(counts[i]) - iNbr
      {
        SlotsLayout(counts, i, iNbr + 1);
        var data := MediaData(iNbr + 1, batchId, prompts[i].imagePrompt, prompts[i].imageResolution);
        var operation := Operation(GenerateMediaCallback, data, "Generating " + prompts[i].imagePrompt);
        assert operation == OperationAt(prompts, slots[|operations|]);
        operations := operations + [operation];
        batchId := batchId + 1;
        numOperations := numOperations + 1;
        iNbr := iNbr + 1;
      }
      assert counts[..i + 1][..i] == counts[..i];
      i := i + 1;
    }
    assert counts[..i] == counts;
    SlotsLength(counts);
    batch := Batch(Title(numOperations), operations, FinishedCallback, ProgressMessage);
  }

  /** generateMediaDrushCommand(): the batch is set only when the operations were confirmed. */
  method GenerateMediaDrushCommand(prompts: seq<MediaPrompt>, confirm: bool)
    returns (batch: Option<Batch>, console: seq<string>)
    ensures confirm ==> batch == Some(Plan(prompts)) && console == []
    ensures !confirm ==> batch == None && console == [Aborted]
  {
    if confirm {
      var b := InitOperations(prompts);
      batch := Some(b);
      console := [];
    } else {
      batch := None;
      console := [Aborted];
    }
  }
}

=== FILE: batch_plan.dfy ===
/**
 * The numbering shared by the two Drush batch planners: for every prompt, in input
 * order, `number_for_prompt` operations whose iteration restarts at 1 per prompt and
 * whose batch id counts 1, 2, 3, ... across all prompts.
 */
module BatchPlan {

  /**
   * The number of passes of `for ($n = 0; $n < $v; $n++)` against a numeric value v:
   * the least natural number that is not below v.
   */
  function Count(v: real): (n: nat)
    ensures v <= n as real
    ensures n == 0 || (n - 1) as real < v
  {
    if v <= 0.0 then 0 else if v.Floor as real == v then v.Floor else v.Floor + 1
  }

  /** The loop runs its k-th pass (counting from 0) exactly when k is below v. */
  lemma CountPasses(v: real, k: nat)
    ensures k < Count(v) <==> (k as real) < v
  {
  }

  /** One planned operation: its prompt's index, its iteration in that prompt, its batch id. */
  datatype Slot = Slot(prompt: nat, iteration: nat, batchId: nat)

  /** The n operations of prompt p, iterations 1..n, the first of them with batch id `first`. */
  function PromptSlots(p: nat, n: nat, first: nat): seq<Slot> {
    seq(n, j requires 0 <= j < n => Slot(p, j + 1, first + j))
  }

  /** The operations planned for the first prompts, whose counts are given, in loop order. */
  function Slots(counts: seq<real>): seq<Slot>
    decreases |counts|
  {
    if counts == [] then []
    else
      var prev := Slots(counts[..|counts| - 1]);
      prev + PromptSlots(|counts| - 1, Count(counts[|counts| - 1]), |prev| + 1)
  }

  /** The sum of the loop counts. */
  function Total(counts: seq<real>): nat
    decreases |counts|
  {
    if counts == [] then 0 else Total(counts[..|counts| - 1]) + Count(counts[|counts| - 1])
  }

  /** There are as many operations as the counts add up to. */
  lemma {:induction false} SlotsLength(counts: seq<real>)
    ensures |Slots(counts)| == Total(counts)
    decreases |counts|
  {
    if counts != [] {
      SlotsLength(counts[..|counts| - 1]);
    }
  }

  /**
   * The layout: prompt p owns the block of Count(counts[p]) operations that starts after
   * the operations of the prompts before it, with iterations 1, 2, ... and batch ids
   * continuing the count.
   */
  lemma {:induction false} SlotsLayout(counts: seq<real>, p: nat, i: nat)
    requires p < |counts| && 1 <= i <= Count(counts[p])
    ensures Total(counts[..p]) + i - 1 < |Slots(counts)|
    ensures Slots(counts)[Total(counts[..p]) + i - 1] == Slot(p, i, Total(counts[..p]) + i)
    decreases |counts|
  {
    var n := |counts| - 1;
    var prefix := counts[..n];
    SlotsLength(prefix);
    SlotsLength(counts);
    if p < n {
      SlotsLayout(prefix, p, i);
      assert prefix[..p] == counts[..p];
      assert Total(counts) == Total(prefix) + Count(counts[n]);
    } else {
      assert counts[..p] == prefix;
    }
  }

  /** The batch id of the k-th operation is k + 1: the ids run 1..N without gaps. */
  lemma {:induction false} SlotsNumbered(counts: seq<real>)
    ensures forall k :: 0 <= k < |Slots(counts)| ==> Slots(counts)[k].batchId == k + 1
    decreases |counts|
  {
    if counts != [] {
      SlotsNumbered(counts[..|counts| - 1]);
    }
  }

  /** Every operation belongs to a prompt and its iteration lies in 1..that prompt's count. */
  lemma {:induction false} SlotsBounded(counts: seq<real>)
    ensures forall k :: 0 <= k < |Slots(counts)| ==>
              Slots(counts)[k].prompt < |counts| && 1 <= Slots(counts)[k].iteration <= Count(counts[Slots(counts)[k].prompt])
    decreases |counts|
  {
    if counts != [] {
      var prefix := counts[..|counts| - 1];
      SlotsBounded(prefix);
      forall k | 0 <= k < |Slots(prefix)|
        ensures counts[Slots(prefix)[k].prompt] == prefix[Slots(prefix)[k].prompt]
      {
      }
    }
  }

  /**
   * Operations come prompt by prompt: the first has iteration 1, and each next one either
   * continues its predecessor's prompt with the next iteration or starts a later prompt
   * at iteration 1.
   */
  lemma {:induction false} SlotsGrouped(counts: seq<real>)
    ensures |Slots(counts)| > 0 ==> Slots(counts)[0].iteration == 1
    ensures forall k :: 0 < k < |Slots(counts)| ==>
              (Slots(counts)[k].prompt == Slots(counts)[k - 1].prompt &&
               Slots(counts)[k].iteration == Slots(counts)[k - 1].iteration + 1) ||
              (Slots(counts)[k].prompt > Slots(counts)[k - 1].prompt && Slots(counts)[k].iteration == 1)
    decreases |counts|
  {
    if counts != [] {
      var prefix := counts[..|counts| - 1];
      SlotsGrouped(prefix);
      SlotsBounded(prefix);
    }
  }
}

=== FILE: chat_gpt_form.dfy ===
/**
 * The ChatGPT form: each submit sends the conversation so far plus the user's new
 * message to the chat endpoint and stores the conversation with the reply appended;
 * the response box shows the last stored message.
 */
module ChatGptForm {
  import opened Wrappers
  import opened PhpStrings
  import opened DrushInput
  import opened OpenAiClient

  const Models: seq<string> := ["gpt-3.5-turbo", "gpt-3.5-turbo-0301"]

  /** A stored conversation: empty, or a system message followed by user and assistant turns. */
  predicate WellFormed(h: seq<ChatMessage>) {
    h == [] ||
    (|h| % 2 == 1 && h[0].role == System &&
     forall i :: 1 <= i < |h| ==> h[i].role == if i % 2 == 1 then User else Assistant)
  }

  /** The messages sent: the stored ones plus the new user message, or a fresh system and user pair. */
  function Outgoing(stored: seq<ChatMessage>, system: string, text: string): seq<ChatMessage> {
    if stored != [] then stored + [ChatMessage(User, Trim(text))]
    else [ChatMessage(System, Trim(system)), ChatMessage(User, Trim(text))]
  }

  /** The conversation stored once the reply came back. */
  function NextHistory(stored: seq<ChatMessage>, system: string, text: string, reply: string): seq<ChatMessage> {
    Outgoing(stored, system, text) + [ChatMessage(Assistant, Trim(reply))]
  }

  /** A user turn and an assistant turn appended to a started conversation keep it well formed. */
  lemma AppendTurnWellFormed(stored: seq<ChatMessage>, user: ChatMessage, assistant: ChatMessage)
    requires WellFormed(stored) && stored != []
    requires user.role == User && assistant.role == Assistant
    ensures WellFormed(stored + [user, assistant])
  {
    var h := stored + [user, assistant];
    var n := |stored|;
    assert n % 2 == 1;
    assert (n + 2) % 2 == 1;
    assert (n + 1) % 2 == 0;
    forall i | 1 <= i < |h|
      ensures h[i].role == if i % 2 == 1 then User else Assistant
    {
      if i < n {
        assert h[i] == stored[i];
      } else if i == n {
        assert h[i] == user;
      } else {
        assert h[i] == assistant;
      }
    }
  }

  /**
   * The first submit stores [system, user, assistant]; a later one appends exactly a user
   * and an assistant message and keeps the original system message; either way the
   * conversation stays well formed.
   */
  lemma NextHistoryShape(stored: seq<ChatMessage>, system: string, text: string, reply: string)
    requires WellFormed(stored)
    ensures WellFormed(NextHistory(stored, system, text, reply))
    ensures stored == [] ==> (NextHistory(stored, system, text, reply) ==
              [ChatMessage(System, Trim(system)), ChatMessage(User, Trim(text)), ChatMessage(Assistant, Trim(reply))])
    ensures stored != [] ==> (NextHistory(stored, system, text, reply) ==
              stored + [ChatMessage(User, Trim(text)), ChatMessage(Assistant, Trim(reply))])
    ensures |NextHistory(stored, system, text, reply)| == |stored| + if stored == [] then 3 else 2
    ensures stored != [] ==> NextHistory(stored, system, text, reply)[0] == stored[0]
  {
    var h := NextHistory(stored, system, text, reply);
    if stored != [] {
      assert h == stored + [ChatMessage(User, Trim(text)), ChatMessage(Assistant, Trim(reply))];
      AppendTurnWellFormed(stored, ChatMessage(User, Trim(text)), ChatMessage(Assistant, Trim(reply)));
    } else {
      assert |h| == 3 && h[0].role == System && h[1].role == User && h[2].role == Assistant;
      forall i | 1 <= i < |h|
        ensures h[i].role == if i % 2 == 1 then User else Assistant
      {
        assert i == 1 || i == 2;
      }
    }
  }

  /** The chat request with the temperature passed on as the number it is. */
  function ChatRequestFor(model: string, messages: seq<ChatMessage>, temperature: PhpValue, maxTokens: PhpValue)
    : ChatRequest {
    ChatRequest(model, messages, RealValue(temperature), IntValue(maxTokens))
  }

  /** The chat request as written: temperature and max_tokens both cast with (int). */
  function ChatRequestAsWritten(model: string, messages: seq<ChatMessage>, temperature: PhpValue, maxTokens: PhpValue)
    : ChatRequest {
    ChatRequest(model, messages, IntValue(temperature) as real, IntValue(maxTokens))
  }

  /**
   * As written, the form's default temperature "0.4" reaches the API as 0 and "1.5" as 1,
   * so only 0, 1 and 2 of the 0..2 range are ever sent; the corrected request carries the
   * number given.
   */
  lemma ChatTemperature(model: string, messages: seq<ChatMessage>, maxTokens: PhpValue)
    ensures ChatRequestAsWritten(model, messages, PString("0.4"), maxTokens).temperature == 0.0
    ensures ChatRequestFor(model, messages, PString("0.4"), maxTokens).temperature == 0.4
    ensures ChatRequestAsWritten(model, messages, PString("1.5"), maxTokens).temperature == 1.0
    ensures ChatRequestFor(model, messages, PString("1.5"), maxTokens).temperature == 1.5
  {
    DecimalValue('0', '4');
    assert "0.4" == ['0', '.', '4'];
    DecimalValue('1', '5');
    assert "1.5" == ['1', '.', '5'];
  }

  /** What getResponse() shows: the trimmed content of the last stored message; None when nothing is stored. */
  function Displayed(h: seq<ChatMessage>): Option<string> {
    if h == [] then None else Some(Trim(h[|h| - 1].content))
  }

  /** After a submit, the response box shows the reply, trimmed once. */
  lemma DisplayedReply(stored: seq<ChatMessage>, system: string, text: string, reply: string)
    ensures Displayed(NextHistory(stored, system, text, reply)) == Some(Trim(reply))
  {
    TrimIdempotent(reply);
  }

  /** The form state: the stored conversation and the rebuild flag. */
  class ChatForm {
    var messages: seq<ChatMessage>
    var rebuild: bool

    constructor ()
      ensures messages == [] && !rebuild
    {
      messages := [];
      rebuild := false;
    }

    /**
     * submitForm(): the request sent, then the stored conversation replaced by the one
     * with the reply; when the call throws nothing is stored.
     */
    method SubmitForm(text: string, system: string, model: string, temperature: PhpValue, maxTokens: PhpValue,
                      chat: ChatRequest -> Option<string>)
      returns (request: ChatRequest)
      modifies this
      ensures request == ChatRequestFor(model, Outgoing(old(messages), system, text), temperature, maxTokens)
      ensures chat(request).Some? ==> messages == NextHistory(old(messages), system, text, chat(request).value) && rebuild
      ensures chat(request).None? ==> messages == old(messages) && rebuild == old(rebuild)
      ensures WellFormed(old(messages)) ==> WellFormed(messages)
    {
      if WellFormed(messages) && chat(ChatRequestFor(model, Outgoing(messages, system, text), temperature, maxTokens)).Some? {
        NextHistoryShape(messages, system, text,
                         chat(ChatRequestFor(model, Outgoing(messages, system, text), temperature, maxTokens)).value);
      }
      var outgoing: seq<ChatMessage>;
      if messages != [] {
        outgoing := messages + [ChatMessage(User, Trim(text))];
      } else {
        outgoing := [ChatMessage(System, Trim(system)), ChatMessage(User, Trim(text))];
      }
      request := ChatRequest(model, outgoing, RealValue(temperature), IntValue(maxTokens));
      var result := chat(request);
      if result.None? {
        return;
      }
      outgoing := outgoing + [ChatMessage(Assistant, Trim(result.value))];
      messages := outgoing;
      rebuild := true;
    }

    /** getResponse(): what the response box shows. */
    method GetResponse() returns (r: Option<string>)
      ensures r == Displayed(messages)
      ensures r.Some? ==> Trim(r.value) == r.value
    {
      if messages == [] {
        r := None;
      } else {
        TrimIdempotent(messages[|messages| - 1].content);
        r := Some(Trim(messages[|messages| - 1].content));
      }
    }
  }
}

=== FILE: content_generation_command.dfy ===
/**
 * The `openai:generate-content` Drush command: the confirm gate, the planner that turns
 * the article prompts into one batch operation per node to generate, and the validators
 * of the prompts that ask for numbers.
 */
module ContentGenerationCommand {
  import opened Wrappers
  import opened PhpStrings
  import opened BatchPlan
  import opened DrushInput

  const ImageResolutions: seq<string> := ["256x256", "512x512", "1024x1024"]

  const ModelsOptions: seq<string> := ["text-davinci-003", "text-curie-001", "text-babbage-001", "text-ada-001"]

  /**
   * What an operation copies unchanged from its article prompt; `title` and `body` name
   * the node fields the subject and the generated text go into.
   */
  datatype ArticleFields = ArticleFields(
    subject: string, model: string, contentType: string, title: string, body: string,
    filterFormat: string, saveHtml: bool, maxToken: PhpValue, temperature: PhpValue,
    imagePrompt: string, imageResolution: string)

  /** One article prompt: its fields and its (numeric) number_for_prompt. */
  datatype ArticlePrompt = ArticlePrompt(fields: ArticleFields, numberForPrompt: real)

  /** The data of one operation: its iteration, its nbr_article_generated and the copied fields. */
  datatype ArticleData = ArticleData(iteration: nat, nbrArticleGenerated: nat, fields: ArticleFields)

  datatype Operation = Operation(callback: string, data: ArticleData, message: string)

  datatype Batch = Batch(title: string, operations: seq<Operation>, finished: string, progressMessage: string)

  const GenerateCallback: string := "\\Drupal\\openai_api\\GenerationService::generate"

  const FinishedCallback: string := "\\Drupal\\openai_api\\GenerationService::finished"

  const ProgressMessage: string := "Generating @current node out of @total."

  const Aborted: string := "<comment>Command aborted</comment>"

  function Counts(prompts: seq<ArticlePrompt>): (r: seq<real>)
    ensures |r| == |prompts|
  {
    seq(|prompts|, i requires 0 <= i < |prompts| => prompts[i].numberForPrompt)
  }

  /** The operation planned for a slot: generate, with the slot's numbering and its prompt's fields. */
  function OperationAt(prompts: seq<ArticlePrompt>, s: Slot): Operation
    requires s.prompt < |prompts|
  {
    var f := prompts[s.prompt].fields;
    Operation(GenerateCallback, ArticleData(s.iteration, s.batchId, f),
              "Generating " + f.contentType + " with " + f.subject)
  }

  function Title(n: nat): string {
    "Generating " + NatToString(n) + " node(s)"
  }

  /** The batch initOperations() hands to batch_set(). */
  function Plan(prompts: seq<ArticlePrompt>): Batch {
    var slots := Slots(Counts(prompts));
    SlotsBounded(Counts(prompts));
    SlotsLength(Counts(prompts));
    Batch(Title(|slots|),
          seq(|slots|, k requires 0 <= k < |slots| => OperationAt(prompts, slots[k])),
          FinishedCallback, ProgressMessage)
  }

  /**
   * The plan has one operation per node asked for, and its title reports that number;
   * every operation calls generate and is finished by finished().
   */
  lemma PlanCount(prompts: seq<ArticlePrompt>)
    ensures |Plan(prompts).operations| == Total(Counts(prompts))
    ensures Plan(prompts).title == "Generating " + NatToString(Total(Counts(prompts))) + " node(s)"
    ensures Plan(prompts).finished == FinishedCallback
    ensures forall k :: 0 <= k < |Plan(prompts).operations| ==> Plan(prompts).operations[k].callback == GenerateCallback
  {
    SlotsLength(Counts(prompts));
  }

  /**
   * Prompt p's i-th node is the operation right after the nodes of the prompts before it:
   * iteration i, nbr_article_generated its position counted from 1, the prompt's fields
   * unchanged and a message naming the content type and subject.
   */
  lemma PlanLayout(prompts: seq<ArticlePrompt>, p: nat, i: nat)
    requires p < |prompts| && 1 <= i <= Count(prompts[p].numberForPrompt)
    ensures Total(Counts(prompts)[..p]) + i - 1 < |Plan(prompts).operations|
    ensures (var pos := Total(Counts(prompts)[..p]) + i - 1;
             Plan(prompts).operations[pos].data == ArticleData(i, pos + 1, prompts[p].fields) &&
             Plan(prompts).operations[pos].message ==
               "Generating " + prompts[p].fields.contentType + " with " + prompts[p].fields.subject)
  {
    SlotsLayout(Counts(prompts), p, i);
  }

  /**
   * nbr_article_generated runs 1..N without gaps, and iterations restart at 1 per prompt
   * and never exceed that prompt's count.
   */
  lemma PlanNumbering(prompts: seq<ArticlePrompt>)
    ensures forall k :: 0 <= k < |Plan(prompts).operations| ==>
              Plan(prompts).operations[k].data.nbrArticleGenerated == k + 1
    ensures |Plan(prompts).operations| > 0 ==> Plan(prompts).operations[0].data.iteration == 1
    ensures forall k :: 0 < k < |Plan(prompts).operations| ==>
              Plan(prompts).operations[k].data.iteration == 1 ||
              Plan(prompts).operations[k].data.iteration == Plan(prompts).operations[k - 1].data.iteration + 1
  {
    SlotsNumbered(Counts(prompts));
    SlotsGrouped(Counts(prompts));
  }

  /** initOperations(): the nested loops over the prompts and their number_for_prompt. */
  method InitOperations(prompts: seq<ArticlePrompt>) returns (batch: Batch)
    ensures batch == Plan(prompts)
  {
    ghost var counts := Counts(prompts);
    ghost var slots := Slots(counts);
    var operations: seq<Operation> := [];
    var numOperations := 0;
    var batchId := 1;
    var i := 0;
    while i < |prompts|
      invariant 0 <= i <= |prompts|
      invariant |operations| == numOperations == Total(counts[..i]) && batchId == numOperations + 1
      invariant |operations| <= |slots|
      invariant forall k :: 0 <= k < |operations| ==> slots[k].prompt < |prompts| && operations[k] == OperationAt(prompts, slots[k])
    {
      var iNbr := 0;
      while (iNbr as real) < prompts[i].numberForPrompt
        invariant iNbr <= Count(counts[i])
        invariant |operations| == numOperations == Total(counts[..i]) + iNbr && batchId == numOperations + 1
        invariant |operations| <= |slots|
        invariant forall k :: 0 <= k < |operations| ==> slots[k].prompt < |prompts| && operations[k] == OperationAt(prompts, slots[k])
        decreases Count(counts[i]) - iNbr
      {
        SlotsLayout(counts, i, iNbr + 1);
        var f := prompts[i].fields;
        var data := ArticleData(iNbr + 1, batchId, f);
        var operation := Operation(GenerateCallback, data, "Generating " + f.contentType + " with " + f.subject);
        assert operation == OperationAt(prompts, slots[|operations|]);
        operations := operations + [operation];
        batchId := batchId + 1;
        numOperations := numOperations + 1;
        iNbr := iNbr + 1;
      }
      assert counts[..i + 1][..i] == counts[..i];
      i := i + 1;
    }
    assert counts[..i] == counts;
    SlotsLength(counts);
    batch := Batch(Title(numOperations), operations, FinishedCallback, ProgressMessage);
  }

  /** generateContentDrushCommand(): the batch is set only when the operations were confirmed. */
  method GenerateContentDrushCommand(prompts: seq<ArticlePrompt>, confirm: bool)
    returns (batch: Option<Batch>, console: seq<string>)
    ensures confirm ==> batch == Some(Plan(prompts)) && console == []
    ensures !confirm ==> batch == None && console == [Aborted]
  {
    if confirm {
      var b := InitOperations(prompts);
      batch := Some(b);
      console := [];
    } else {
      batch := None;
      console := [Aborted];
    }
  }

  /** The max_token validator: numeric, and neither above 2000 nor below 1. */
  predicate MaxTokenAccepts(v: PhpValue) {
    match Numeric(v)
    case None => false
    case Some(x) => !(x > 2000.0) && !(x < 1.0)
  }

  /** The max_token prompt (default 200) accepts an empty line and the numeric lines in 1..2000. */
  lemma MaxTokenRange(typed: string)
    ensures MaxTokenAccepts(Answer(typed, PInt(200))) <==>
              typed == "" || (IsNumeric(typed) && 1.0 <= NumericValue(typed).value <= 2000.0)
  {
  }

  /** The temperature validator as written: is_float() and not above 0.9. */
  predicate TemperatureAcceptsAsWritten(v: PhpValue) {
    v.PFloat? && !(v.f > 0.9)
  }

  /**
   * A typed line reaches the validator as a string, which is_float() refuses: every typed
   * temperature, "0.7" included, is rejected, and only the default 0.5 gets through.
   */
  lemma TemperatureTypedRejected(typed: string)
    ensures typed != "" ==> !TemperatureAcceptsAsWritten(Answer(typed, PFloat(0.5)))
    ensures !TemperatureAcceptsAsWritten(Answer("0.7", PFloat(0.5)))
    ensures TemperatureAcceptsAsWritten(Answer("", PFloat(0.5)))
  {
  }

  /** The temperature validator as its message describes it: a number between 0 and 0.9. */
  predicate TemperatureAccepts(v: PhpValue) {
    match Numeric(v)
    case None => false
    case Some(x) => 0.0 <= x <= 0.9
  }

  /**
   * The corrected validator accepts the default and exactly the numeric lines in 0..0.9:
   * "0.7" is accepted, "1" and "-0.1" are not.
   */
  lemma TemperatureRange(typed: string)
    ensures TemperatureAccepts(Answer(typed, PFloat(0.5))) <==>
              typed == "" || (IsNumeric(typed) && 0.0 <= NumericValue(typed).value <= 0.9)
    ensures TemperatureAccepts(Answer("0.7", PFloat(0.5)))
    ensures !TemperatureAccepts(Answer("1", PFloat(0.5)))
    ensures !TemperatureAccepts(Answer("-0.1", PFloat(0.5)))
  {
    DecimalValue('0', '7');
    assert "0.7" == ['0', '.', '7'];
    assert NumericValue("1") == Some(1.0) by {
      assert "1" == NatToString(1);
      NumericValueOfNat(1);
    }
    DecimalValue('0', '1');
    assert "-0.1"[1..] == ['0', '.', '1'];
  }
}

=== FILE: delete_confirm_form.dfy ===
/**
 * The "delete all" confirmation form: for every row of the local embeddings table it
 * asks Pinecone to delete the whole namespace the row's vectors were upserted into.
 * The Pinecone index is modelled as namespaces holding vector ids.
 */
module DeleteConfirmForm {
  import opened Wrappers
  import opened PineconeClient
  import opened EmbeddingQueueWorker

  /** One row of `SELECT entity_type, field_name FROM {openai_embeddings}`. */
  datatype NamespaceRow = NamespaceRow(entityType: string, fieldName: string)

  /** The vectors stored in Pinecone: namespace to the ids of its vectors. */
  type Index = map<string, set<string>>

  /** The row's namespace, built as the queue worker builds it: entity type, ':', field name. */
  function RowNamespace(row: NamespaceRow): string {
    row.entityType + ":" + row.fieldName
  }

  /** The request sent for one row: no ids, deleteAll, the row's namespace, no filter. */
  function DeleteRequestFor(row: NamespaceRow): (r: Request)
    ensures DecodeDelete(r) == Some(DeleteArgs([], true, RowNamespace(row), map[]))
  {
    DeleteRoundTrip([], true, RowNamespace(row), map[]);
    Delete([], true, RowNamespace(row), map[])
  }

  /**
   * What the index does with a delete request: deleteAll drops the namespace, a list of
   * ids drops those vectors; a filtered delete is not modelled and leaves the index.
   */
  function ApplyDelete(ix: Index, r: Request): Index {
    match DecodeDelete(r)
    case None => ix
    case Some(a) =>
      if a.deleteAll then ix - {a.namespace}
      else if a.filter != map[] || a.namespace !in ix then ix
      else ix[a.namespace := ix[a.namespace] - set i | i in a.ids]
  }

  /** The index after the given requests were accepted, in order. */
  function ApplyRequests(ix: Index, requests: seq<Request>): Index
    decreases |requests|
  {
    if requests == [] then ix
    else ApplyDelete(ApplyRequests(ix, requests[..|requests| - 1]), requests[|requests| - 1])
  }

  /** The namespaces the first rows name. */
  function RowNamespaces(rows: seq<NamespaceRow>): set<string>
    decreases |rows|
  {
    if rows == [] then {} else RowNamespaces(rows[..|rows| - 1]) + {RowNamespace(rows[|rows| - 1])}
  }

  lemma {:induction false} RowNamespacesSome(rows: seq<NamespaceRow>, ns: string)
    ensures ns in RowNamespaces(rows) <==> exists j :: 0 <= j < |rows| && RowNamespace(rows[j]) == ns
    decreases |rows|
  {
    if rows != [] {
      var p := rows[..|rows| - 1];
      RowNamespacesSome(p, ns);
      assert forall j :: 0 <= j < |p| ==> p[j] == rows[j];
    }
  }

  /** The request for a row drops exactly that row's namespace. */
  lemma ApplyDeleteRow(ix: Index, row: NamespaceRow)
    ensures ApplyDelete(ix, DeleteRequestFor(row)) == ix - {RowNamespace(row)}
  {
  }

  /**
   * Once the requests for the rows are accepted, every namespace a row names is gone
   * and every other namespace is untouched.
   */
  lemma {:induction false} DeletesRemoveNamespaces(ix: Index, rows: seq<NamespaceRow>, requests: seq<Request>)
    requires |requests| == |rows|
    requires forall j :: 0 <= j < |rows| ==> requests[j] == DeleteRequestFor(rows[j])
    ensures ApplyRequests(ix, requests) == ix - RowNamespaces(rows)
    decreases |rows|
  {
    if rows != [] {
      var n := |rows| - 1;
      DeletesRemoveNamespaces(ix, rows[..n], requests[..n]);
      ApplyDeleteRow(ApplyRequests(ix, requests[..n]), rows[n]);
    }
  }

  /** Deleting twice, or over rows that repeat a namespace, changes nothing more. */
  lemma DeletesIdempotent(ix: Index, rows: seq<NamespaceRow>)
    ensures (ix - RowNamespaces(rows)) - RowNamespaces(rows) == ix - RowNamespaces(rows)
    ensures RowNamespaces(rows + rows) == RowNamespaces(rows)
  {
    forall ns | ns in RowNamespaces(rows + rows)
      ensures ns in RowNamespaces(rows)
    {
      RowNamespacesSome(rows + rows, ns);
      RowNamespacesSome(rows, ns);
      var j :| 0 <= j < |rows + rows| && RowNamespace((rows + rows)[j]) == ns;
      if j >= |rows| {
        assert (rows + rows)[j] == rows[j - |rows|];
      } else {
        assert (rows + rows)[j] == rows[j];
      }
    }
    forall ns | ns in RowNamespaces(rows)
      ensures ns in RowNamespaces(rows + rows)
    {
      RowNamespacesSome(rows + rows, ns);
      RowNamespacesSome(rows, ns);
      var j :| 0 <= j < |rows| && RowNamespace(rows[j]) == ns;
      assert (rows + rows)[j] == rows[j];
    }
  }

  /**
   * The namespace a row's delete targets is the one the queue worker upserted the
   * row's vectors into.
   */
  lemma DeleteTargetsUpsertNamespace(k: Key, vector: seq<real>)
    ensures DecodeDelete(DeleteRequestFor(NamespaceRow(k.entityType, k.fieldName))).value.namespace
         == VectorUpsert(k, vector).options.json["namespace"].s
  {
  }

  /**
   * submitForm(): one delete per row, in row order. A rejected request throws, which
   * ends the loop; the local table is only read.
   */
  method SubmitForm(rows: seq<NamespaceRow>, accepted: Request -> bool)
    returns (requests: seq<Request>, completed: bool)
    ensures |requests| <= |rows|
    ensures forall j :: 0 <= j < |requests| ==> requests[j] == DeleteRequestFor(rows[j])
    ensures completed ==> |requests| == |rows|
    ensures completed ==> forall j :: 0 <= j < |rows| ==> accepted(requests[j])
    ensures !completed ==> |requests| > 0 && !accepted(requests[|requests| - 1])
    ensures !completed ==> forall j :: 0 <= j < |requests| - 1 ==> accepted(requests[j])
  {
    requests := [];
    var i := 0;
    while i < |rows|
      invariant 0 <= i <= |rows| && |requests| == i
      invariant forall j :: 0 <= j < i ==> requests[j] == DeleteRequestFor(rows[j]) && accepted(requests[j])
    {
      var row := rows[i];
      var r := Delete([], true, row.entityType + ":" + row.fieldName, map[]);
      requests := requests + [r];
      if !accepted(r) {
        completed := false;
        return;
      }
      i := i + 1;
    }
    completed := true;
  }
}

=== FILE: drush_input.dfy ===
/**
 * The answers of Drush's interactive prompts, as the validators of the two generation
 * commands see them: a typed line arrives as a string, an empty line as the prompt's
 * default with the PHP type it was written with.
 */
module DrushInput {
  import opened Wrappers
  import opened PhpStrings

  /** The PHP value handed to a validator. */
  datatype PhpValue = PString(s: string) | PInt(i: int) | PFloat(f: real)

  /** io()->ask($question, $default, $validator): the typed line, or the default when nothing was typed. */
  function Answer(typed: string, default: PhpValue): PhpValue {
    if typed == "" then default else PString(typed)
  }

  /** The value PHP compares with in a numeric context; None when is_numeric() is false. */
  function Numeric(v: PhpValue): (r: Option<real>)
    ensures v.PString? ==> r == NumericValue(v.s)
    ensures !v.PString? ==> r.Some?
  {
    match v
    case PString(s) => NumericValue(s)
    case PInt(i) => Some(i as real)
    case PFloat(f) => Some(f)
  }

  /** The validator of every count prompt: it throws unless is_numeric() holds. */
  predicate CountAccepts(v: PhpValue) {
    Numeric(v).Some?
  }

  /**
   * A count prompt (default 1) accepts an empty line and exactly the numeric typed lines;
   * "3" is accepted as 3 and "three" is refused.
   */
  lemma CountValidator(typed: string)
    ensures CountAccepts(Answer(typed, PInt(1))) <==> typed == "" || IsNumeric(typed)
    ensures Numeric(Answer("", PInt(1))) == Some(1.0)
    ensures Numeric(Answer("3", PInt(1))) == Some(3.0)
    ensures !CountAccepts(Answer("three", PInt(1)))
  {
    assert "3" == NatToString(3);
    NumericValueOfNat(3);
    assert IndexOf("three", '.') == None by {
      assert IndexOf("three"[1..], '.') == None;
    }
  }
}

=== FILE: embedding_queue_worker.dfy ===
/**
 * The embeddings queue worker. For one queued entity it walks every text field and
 * every delta, normalises each non-empty value, strips the configured stopwords,
 * asks for an embedding, upserts the vector into Pinecone under the namespace
 * "<entity type>:<field name>" and merges a row into the openai_embeddings table.
 *
 * The outside world is an environment of oracles: entity loading, field
 * definitions, HTML parsing, the embeddings endpoint and Pinecone's acceptance of
 * an upsert. A failing oracle (None / false) stands for a thrown exception.
 */
module EmbeddingQueueWorker {
  import opened Wrappers
  import opened PhpStrings
  import opened StringHelper
  import opened PineconeClient

  // ---------------------------------------------------------------------------
  // Field types, ids and namespaces

  /** The field types whose values are embedded. */
  function GetFieldTypes(): (r: seq<string>)
    ensures |r| == 5
    ensures forall t :: t in r <==>
      t == "string" || t == "string_long" || t == "text" || t == "text_long" || t == "text_with_summary"
  {
    ["string", "string_long", "text", "text_long", "text_with_summary"]
  }

  /** The five columns that identify a row of openai_embeddings. */
  datatype Key = Key(entityId: string, entityType: string, bundle: string, fieldName: string, delta: nat)

  /** The Pinecone record id "entity:<id>:<type>:<bundle>:<field>:<delta>". */
  function UniqueId(k: Key): (id: string)
    ensures |id| > 7 && id[..7] == "entity:"
  {
    "entity:" + k.entityId + ":" + k.entityType + ":" + k.bundle + ":" + k.fieldName + ":" + NatToString(k.delta)
  }

  /** Two values of the same field of the same entity never share a record id. */
  lemma UniqueIdSeparatesDeltas(k: Key, d1: nat, d2: nat)
    requires d1 != d2
    ensures UniqueId(k.(delta := d1)) != UniqueId(k.(delta := d2))
  {
    var p := "entity:" + k.entityId + ":" + k.entityType + ":" + k.bundle + ":" + k.fieldName + ":";
    assert UniqueId(k.(delta := d1)) == p + NatToString(d1);
    assert UniqueId(k.(delta := d2)) == p + NatToString(d2);
    if UniqueId(k.(delta := d1)) == UniqueId(k.(delta := d2)) {
      assert (p + NatToString(d1))[|p|..] == NatToString(d1);
      assert (p + NatToString(d2))[|p|..] == NatToString(d2);
      NatToStringInjective(d1, d2);
    }
  }

  /** The Pinecone namespace of a field: "<entity type>:<field name>". */
  function Namespace(entityType: string, fieldName: string): (ns: string)
    ensures |ns| == |entityType| + 1 + |fieldName|
    ensures ns[..|entityType|] == entityType && ns[|entityType|] == ':' && ns[|entityType| + 1..] == fieldName
  {
    entityType + ":" + fieldName
  }

  /** The vector metadata: the same five values that key the table row. */
  function KeyMetadata(k: Key): (m: map<string, Json>)
    ensures m.Keys == {"entity_id", "entity_type", "bundle", "field_name", "field_delta"}
  {
    map["entity_id" := JString(k.entityId), "entity_type" := JString(k.entityType),
        "bundle" := JString(k.bundle), "field_name" := JString(k.fieldName),
        "field_delta" := JInt(k.delta)]
  }

  /** The vector object upserted for one value. */
  function VectorJson(k: Key, vector: seq<real>): (j: Json)
    ensures j.JObject? && j.fields.Keys == {"id", "values", "metadata"}
    ensures j.fields["id"] == JString(UniqueId(k))
  {
    JObject(map["id" := JString(UniqueId(k)), "values" := RealsJson(vector), "metadata" := JObject(KeyMetadata(k))])
  }

  /** The metadata of an upserted vector determines the table row it belongs to. */
  lemma MetadataIdentifiesRow(k1: Key, v1: seq<real>, k2: Key, v2: seq<real>)
    requires VectorJson(k1, v1).fields["metadata"] == VectorJson(k2, v2).fields["metadata"]
    ensures k1 == k2
  {
    var m1 := KeyMetadata(k1);
    var m2 := KeyMetadata(k2);
    assert m1 == m2;
    assert m1["entity_id"] == m2["entity_id"] && m1["entity_type"] == m2["entity_type"];
    assert m1["bundle"] == m2["bundle"] && m1["field_name"] == m2["field_name"];
    assert m1["field_delta"] == m2["field_delta"];
  }

  /** The request that upserts one value's vector. */
  function VectorUpsert(k: Key, vector: seq<real>): (r: Request)
    ensures r.verb == Post && r.path == "/vectors/upsert" && r.options.JsonBody?
    ensures r.options.json.Keys == {"vectors", "namespace"}
    ensures r.options.json["vectors"] == VectorJson(k, vector)
    ensures r.options.json["namespace"] == JString(Namespace(k.entityType, k.fieldName))
  {
    Upsert(VectorJson(k, vector), Namespace(k.entityType, k.fieldName))
  }

  // ---------------------------------------------------------------------------
  // Stopword removal: preg_replace("/\bWORD\b/i", '', trim($text))

  /** A PCRE word character. */
  predicate IsWordChar(c: char) {
    IsAsciiAlnum(c) || c == '_'
  }

  /** PCRE's \b at position i: a word character on exactly one side. */
  predicate BoundaryAt(s: string, i: nat)
    requires i <= |s|
  {
    (i > 0 && IsWordChar(s[i - 1])) != (i < |s| && IsWordChar(s[i]))
  }

  /** The literal word w, ignoring ASCII case, as a whole word at position i of s. */
  predicate WordAt(s: string, w: string, i: nat)
    requires i <= |s|
  {
    i + |w| <= |s| && BoundaryAt(s, i) && Lower(s[i..i + |w|]) == Lower(w) && BoundaryAt(s, i + |w|)
  }

  /** Deletes, left to right and without overlap, every whole-word match of w in s[i..]. */
  function RemoveWordFrom(s: string, w: string, i: nat): (r: string)
    requires |w| > 0 && i <= |s|
    ensures |r| <= |s| - i
    decreases |s| - i
  {
    if i == |s| then []
    else if WordAt(s, w, i) then RemoveWordFrom(s, w, i + |w|)
    else [s[i]] + RemoveWordFrom(s, w, i + 1)
  }

  /** removeStopWord(): trim, then delete the word's whole-word, case-insensitive matches. */
  function RemoveStopWord(w: string, text: string): (r: string)
    ensures |r| <= |text|
  {
    var t := Trim(text);
    if |w| == 0 then t else RemoveWordFrom(t, w, 0)
  }

  lemma {:induction false} RemoveWordFromWithin(s: string, w: string, i: nat)
    requires |w| > 0 && i <= |s|
    ensures forall c :: c in RemoveWordFrom(s, w, i) ==> c in s
    decreases |s| - i
  {
    if i < |s| {
      if WordAt(s, w, i) {
        RemoveWordFromWithin(s, w, i + |w|);
      } else {
        RemoveWordFromWithin(s, w, i + 1);
      }
    }
  }

  /** Removing a stopword only deletes characters: nothing new appears. */
  lemma RemoveStopWordWithin(w: string, text: string)
    ensures CharsWithin(RemoveStopWord(w, text), text)
  {
    if |w| > 0 {
      RemoveWordFromWithin(Trim(text), w, 0);
    }
  }

  /** Where the word has no whole-word match, only the trim happens. */
  lemma {:induction false} RemoveWordFromAbsent(s: string, w: string, i: nat)
    requires |w| > 0 && i <= |s|
    requires forall j :: i <= j <= |s| ==> !WordAt(s, w, j)
    ensures RemoveWordFrom(s, w, i) == s[i..]
    decreases |s| - i
  {
    if i < |s| {
      RemoveWordFromAbsent(s, w, i + 1);
      assert s[i..] == [s[i]] + s[i + 1..];
    }
  }

  lemma RemoveStopWordAbsent(w: string, text: string)
    requires |w| > 0
    requires forall j :: 0 <= j <= |Trim(text)| ==> !WordAt(Trim(text), w, j)
    ensures RemoveStopWord(w, text) == Trim(text)
  {
    RemoveWordFromAbsent(Trim(text), w, 0);
    assert Trim(text)[0..] == Trim(text);
  }

  lemma WordCharLower(c: char)
    ensures IsWordChar(LowerChar(c)) <==> IsWordChar(c)
  {
  }

  /** u spells the word w, ignoring ASCII letter case. */
  predicate SameWordIgnoringCase(u: string, w: string) {
    |u| == |w| && forall i :: 0 <= i < |u| ==> LowerChar(u[i]) == LowerChar(w[i])
  }

  lemma WholeWordMatch(w: string, u: string)
    requires |w| > 0 && forall i :: 0 <= i < |w| ==> IsWordChar(w[i])
    requires SameWordIgnoringCase(u, w)
    ensures WordAt(u, w, 0)
  {
    var n := |u|;
    WordCharLower(u[0]);
    WordCharLower(w[0]);
    WordCharLower(u[n - 1]);
    WordCharLower(w[n - 1]);
    assert u[0..n] == u;
    assert Lower(u) == Lower(w);
  }

  lemma RemoveWordFromAll(s: string, w: string)
    requires 0 < |w| == |s| && WordAt(s, w, 0)
    ensures RemoveWordFrom(s, w, 0) == []
  {
  }

  /** A text that is the stopword itself, in any letter case, is removed entirely. */
  lemma RemoveWordFromWhole(w: string, u: string)
    requires |w| > 0 && forall i :: 0 <= i < |w| ==> IsWordChar(w[i])
    requires SameWordIgnoringCase(u, w)
    ensures RemoveWordFrom(u, w, 0) == []
  {
    WholeWordMatch(w, u);
    RemoveWordFromAll(u, w);
  }

  /** ... and such a text is left alone by the trim that precedes the removal. */
  lemma WholeWordUntrimmed(w: string, u: string)
    requires |w| > 0 && forall i :: 0 <= i < |w| ==> IsWordChar(w[i])
    requires SameWordIgnoringCase(u, w)
    ensures Trim(u) == u
  {
    var n := |u|;
    WordCharLower(u[0]);
    WordCharLower(w[0]);
    WordCharLower(u[n - 1]);
    WordCharLower(w[n - 1]);
    TrimUntouched(u);
  }

  /** The stopword loop: each word removed in list order from the running text. */
  function RemoveStopWords(words: seq<string>, text: string): (r: string)
    ensures |r| <= |text|
    decreases |words|
  {
    if words == [] then text
    else RemoveStopWord(words[|words| - 1], RemoveStopWords(words[..|words| - 1], text))
  }

  lemma {:induction false} RemoveStopWordsWithin(words: seq<string>, text: string)
    ensures CharsWithin(RemoveStopWords(words, text), text)
    decreases |words|
  {
    if words != [] {
      RemoveStopWordsWithin(words[..|words| - 1], text);
      RemoveStopWordWithin(words[|words| - 1], RemoveStopWords(words[..|words| - 1], text));
    }
  }

  // ---------------------------------------------------------------------------
  // The environment and the worker's state

  datatype QueueItem = QueueItem(entityType: string, entityId: string, bundle: string)

  datatype FieldDefinition = FieldDefinition(name: string, fieldType: string)

  /** A loaded entity: id, type, bundle and the list of values of each field. */
  datatype Entity = Entity(id: string, typeId: string, bundle: string, values: string -> seq<string>)

  /** The part of an embeddings response that is stored: the vector and the usage block. */
  datatype Embedding = Embedding(vector: seq<real>, usage: Json)

  datatype Env = Env(
    load: QueueItem -> Option<Entity>,
    definitions: (string, string) -> seq<FieldDefinition>,
    parse: string -> seq<Node>,
    stopwords: seq<string>,
    model: string,
    embed: (string, string) -> Option<Embedding>,
    upsertAccepted: Request -> bool)

  datatype Row = Row(embedding: seq<real>, usage: Json)

  datatype LogEntry =
    | ValueFailed(key: Key)
    | ItemFailed(entityType: string, entityId: string)

  /**
   * The worker's observable state: the openai_embeddings table, the texts sent for
   * embedding, the requests sent to Pinecone, the error log and the number of
   * 1.2-second pauses taken.
   */
  datatype WorkerState = WorkerState(
    table: map<Key, Row>, embedded: seq<string>, requests: seq<Request>, log: seq<LogEntry>, pauses: nat)

  /** The text embedded for a field value: prepareText(value, [], 8000), then the stopwords. */
  function ValueText(env: Env, value: string): (t: string)
    ensures |t| <= 8000
    ensures forall c :: c in t ==> IsPromptChar(c)
  {
    var prepared := PrepareText(env.parse(value), [], 8000);
    var t := RemoveStopWords(env.stopwords, prepared);
    RemoveStopWordsWithin(env.stopwords, prepared);
    assert forall c :: c in prepared ==> IsPromptChar(c) by {
      forall c | c in prepared ensures IsPromptChar(c) {
        var i :| 0 <= i < |prepared| && prepared[i] == c;
      }
    }
    t
  }

  /** The row key of delta d of field `name` of entity e. */
  function KeyOf(e: Entity, name: string, d: nat): (k: Key)
    ensures k.entityId == e.id && k.entityType == e.typeId && k.bundle == e.bundle
    ensures k.fieldName == name && k.delta == d
  {
    Key(e.id, e.typeId, e.bundle, name, d)
  }

  /**
   * What happened to one value: skipped as empty, the embedding call failed, the
   * upsert failed, or both succeeded and the row was written.
   */
  datatype Effect =
    | Skipped
    | EmbedFailed(text: string)
    | UpsertFailed(text: string, request: Request)
    | Written(text: string, request: Request, row: Row)

  /** The calls made for one value and their results. */
  function ValueEffect(env: Env, k: Key, value: string): (eff: Effect)
    ensures eff.Skipped? <==> |value| == 0
    ensures eff.Written? ==> env.upsertAccepted(eff.request)
    ensures (eff.UpsertFailed? || eff.Written?) ==> UpsertFor(eff.request, k.entityType, k.fieldName)
  {
    if |value| == 0 then Skipped else TextEffect(env, k, ValueText(env, value))
  }

  /** The embedding call for a prepared text, then the upsert of its vector. */
  function TextEffect(env: Env, k: Key, text: string): (eff: Effect)
    ensures !eff.Skipped?
    ensures eff.Written? ==> env.upsertAccepted(eff.request)
    ensures (eff.UpsertFailed? || eff.Written?) ==> UpsertFor(eff.request, k.entityType, k.fieldName)
  {
    match env.embed(env.model, text)
    case None => EmbedFailed(text)
    case Some(emb) =>
      var request := VectorUpsert(k, emb.vector);
      if env.upsertAccepted(request) then Written(text, request, Row(emb.vector, emb.usage))
      else UpsertFailed(text, request)
  }

  /** An upsert request of field `name` of an entity of type entityType. */
  predicate UpsertFor(r: Request, entityType: string, name: string) {
    && r.verb == Post && r.path == "/vectors/upsert" && r.options.JsonBody?
    && "namespace" in r.options.json && r.options.json["namespace"] == JString(Namespace(entityType, name))
  }

  /** The effects of a field's values, delta by delta. */
  function Effects(env: Env, e: Entity, name: string, values: seq<string>): (r: seq<Effect>)
    ensures |r| == |values|
    ensures forall d :: 0 <= d < |values| ==> r[d] == ValueEffect(env, KeyOf(e, name, d), values[d])
  {
    seq(|values|, d requires 0 <= d < |values| => ValueEffect(env, KeyOf(e, name, d), values[d]))
  }

  /** The body of the inner loop: the state after one value. */
  function ApplyEffect(st: WorkerState, k: Key, eff: Effect): WorkerState {
    match eff
    case Skipped => st
    case EmbedFailed(text) =>
      st.(embedded := st.embedded + [text], log := st.log + [ValueFailed(k)])
    case UpsertFailed(text, request) =>
      st.(embedded := st.embedded + [text], requests := st.requests + [request], log := st.log + [ValueFailed(k)])
    case Written(text, request, row) =>
      st.(embedded := st.embedded + [text], requests := st.requests + [request],
          table := st.table[k := row], pauses := st.pauses + 1)
  }

  /** The inner loop over a field's values, delta by delta. */
  function ApplyAll(st: WorkerState, e: Entity, name: string, effects: seq<Effect>): WorkerState
    decreases |effects|
  {
    if effects == [] then st
    else
      var n := |effects| - 1;
      ApplyEffect(ApplyAll(st, e, name, effects[..n]), KeyOf(e, name, n), effects[n])
  }

  /** One field definition: text fields walk their values, other fields are skipped. */
  function FieldStep(st: WorkerState, env: Env, e: Entity, f: FieldDefinition): WorkerState {
    if f.fieldType in GetFieldTypes() then ApplyAll(st, e, f.name, Effects(env, e, f.name, e.values(f.name))) else st
  }

  /** The outer loop over the field definitions. */
  function FieldsSpec(st: WorkerState, env: Env, e: Entity, fields: seq<FieldDefinition>): WorkerState
    decreases |fields|
  {
    if fields == [] then st
    else FieldStep(FieldsSpec(st, env, e, fields[..|fields| - 1]), env, e, fields[|fields| - 1])
  }

  /** processItem(): a missing entity is logged and nothing else happens. */
  function ProcessItemSpec(st: WorkerState, item: QueueItem, env: Env): WorkerState {
    match env.load(item)
    case None => st.(log := st.log + [ItemFailed(item.entityType, item.entityId)])
    case Some(e) => FieldsSpec(st, env, e, env.definitions(item.entityType, item.bundle))
  }

  // ---------------------------------------------------------------------------
  // What a run writes, sends and logs, defined value by value

  /** The rows written by a field's effects. */
  function WrittenRows(e: Entity, name: string, effects: seq<Effect>): map<Key, Row>
    decreases |effects|
  {
    if effects == [] then map[]
    else
      var n := |effects| - 1;
      var earlier := WrittenRows(e, name, effects[..n]);
      if effects[n].Written? then earlier[KeyOf(e, name, n) := effects[n].row] else earlier
  }

  /** The texts sent for embedding, in order. */
  function SentTexts(effects: seq<Effect>): seq<string>
    decreases |effects|
  {
    if effects == [] then []
    else
      var n := |effects| - 1;
      SentTexts(effects[..n]) + (if effects[n].Skipped? then [] else [effects[n].text])
  }

  /** The upsert requests sent, in order. */
  function SentRequests(effects: seq<Effect>): seq<Request>
    decreases |effects|
  {
    if effects == [] then []
    else
      var n := |effects| - 1;
      SentRequests(effects[..n]) + (if effects[n].UpsertFailed? || effects[n].Written? then [effects[n].request] else [])
  }

  /** The failures logged, in order. */
  function Failures(e: Entity, name: string, effects: seq<Effect>): seq<LogEntry>
    decreases |effects|
  {
    if effects == [] then []
    else
      var n := |effects| - 1;
      Failures(e, name, effects[..n])
        + (if effects[n].EmbedFailed? || effects[n].UpsertFailed? then [ValueFailed(KeyOf(e, name, n))] else [])
  }

  /**
   * The inner loop adds exactly the rows of its successful values to the table and
   * appends the sent texts, the sent requests and the failures.
   */
  lemma {:induction false} ApplyAllEffects(st: WorkerState, e: Entity, name: string, effects: seq<Effect>)
    ensures var r := ApplyAll(st, e, name, effects);
      && r.table == st.table + WrittenRows(e, name, effects)
      && r.embedded == st.embedded + SentTexts(effects)
      && r.requests == st.requests + SentRequests(effects)
      && r.log == st.log + Failures(e, name, effects)
    decreases |effects|
  {
    if effects != [] {
      var n := |effects| - 1;
      var k := KeyOf(e, name, n);
      var before := ApplyAll(st, e, name, effects[..n]);
      var rows := WrittenRows(e, name, effects[..n]);
      ApplyAllEffects(st, e, name, effects[..n]);
      assert ApplyAll(st, e, name, effects) == ApplyEffect(before, k, effects[n]);
      match effects[n]
      case Skipped =>
      case EmbedFailed(text) =>
        assert before.embedded + [text] == st.embedded + (SentTexts(effects[..n]) + [text]);
        assert before.log + [ValueFailed(k)] == st.log + (Failures(e, name, effects[..n]) + [ValueFailed(k)]);
      case UpsertFailed(text, request) =>
        assert before.embedded + [text] == st.embedded + (SentTexts(effects[..n]) + [text]);
        assert before.requests + [request] == st.requests + (SentRequests(effects[..n]) + [request]);
        assert before.log + [ValueFailed(k)] == st.log + (Failures(e, name, effects[..n]) + [ValueFailed(k)]);
      case Written(text, request, row) =>
        assert before.embedded + [text] == st.embedded + (SentTexts(effects[..n]) + [text]);
        assert before.requests + [request] == st.requests + (SentRequests(effects[..n]) + [request]);
        assert (st.table + rows)[k := row] == st.table + rows[k := row];
    }
  }

  /**
   * Failure isolation: the row of delta d is written exactly when d's own effect is a
   * success, whatever happened to the other values.
   */
  lemma {:induction false} WrittenRowsExactly(e: Entity, name: string, effects: seq<Effect>, k: Key)
    ensures k in WrittenRows(e, name, effects) <==>
      && k.entityId == e.id && k.entityType == e.typeId && k.bundle == e.bundle && k.fieldName == name
      && k.delta < |effects| && effects[k.delta].Written?
    ensures k in WrittenRows(e, name, effects) ==> WrittenRows(e, name, effects)[k] == effects[k.delta].row
    decreases |effects|
  {
    if effects != [] {
      var n := |effects| - 1;
      WrittenRowsExactly(e, name, effects[..n], k);
    }
  }

  /** Every request in a run of effects satisfies what each effect's request satisfies. */
  lemma {:induction false} SentRequestsFor(effects: seq<Effect>, entityType: string, name: string)
    requires forall d :: 0 <= d < |effects| && (effects[d].UpsertFailed? || effects[d].Written?) ==>
      UpsertFor(effects[d].request, entityType, name)
    ensures forall j :: 0 <= j < |SentRequests(effects)| ==> UpsertFor(SentRequests(effects)[j], entityType, name)
    decreases |effects|
  {
    if effects != [] {
      var n := |effects| - 1;
      SentRequestsFor(effects[..n], entityType, name);
    }
  }

  /** Every upsert sent while walking a field goes to the namespace "<entity type>:<field>". */
  lemma FieldUpsertsNamespace(env: Env, e: Entity, name: string, values: seq<string>)
    ensures var sent := SentRequests(Effects(env, e, name, values));
      forall j :: 0 <= j < |sent| ==> UpsertFor(sent[j], e.typeId, name)
  {
    SentRequestsFor(Effects(env, e, name, values), e.typeId, name);
  }

  /** The row of a value is written exactly when it is non-empty and both its calls succeed. */
  lemma FieldRowExactly(env: Env, e: Entity, name: string, values: seq<string>, d: nat)
    requires d < |values|
    ensures var k := KeyOf(e, name, d);
      k in WrittenRows(e, name, Effects(env, e, name, values)) <==>
        && |values[d]| != 0
        && env.embed(env.model, ValueText(env, values[d])).Some?
        && env.upsertAccepted(VectorUpsert(k, env.embed(env.model, ValueText(env, values[d])).value.vector))
  {
    WrittenRowsExactly(e, name, Effects(env, e, name, values), KeyOf(e, name, d));
  }

  /** An empty value causes no embedding call, no upsert and no row. */
  lemma {:induction false} EmptyValuesSkipped(env: Env, e: Entity, name: string, values: seq<string>)
    requires forall d :: 0 <= d < |values| ==> |values[d]| == 0
    ensures SentTexts(Effects(env, e, name, values)) == []
    ensures SentRequests(Effects(env, e, name, values)) == []
    ensures WrittenRows(e, name, Effects(env, e, name, values)) == map[]
    decreases |values|
  {
    if values != [] {
      var n := |values| - 1;
      var effects := Effects(env, e, name, values);
      EmptyValuesSkipped(env, e, name, values[..n]);
      assert effects[..n] == Effects(env, e, name, values[..n]);
      assert effects[n] == Skipped;
    }
  }

  /** The rows written by the fields loop. */
  function FieldRows(env: Env, e: Entity, fields: seq<FieldDefinition>): map<Key, Row>
    decreases |fields|
  {
    if fields == [] then map[]
    else
      var f := fields[|fields| - 1];
      FieldRows(env, e, fields[..|fields| - 1])
        + (if f.fieldType in GetFieldTypes() then WrittenRows(e, f.name, Effects(env, e, f.name, e.values(f.name))) else map[])
  }

  /** The rows processItem() writes for a queue item. */
  function ItemRows(env: Env, item: QueueItem): map<Key, Row> {
    match env.load(item)
    case None => map[]
    case Some(e) => FieldRows(env, e, env.definitions(item.entityType, item.bundle))
  }

  /** Merging rows in two steps is merging them at once. */
  lemma MergeAssociative(a: map<Key, Row>, b: map<Key, Row>, c: map<Key, Row>)
    ensures (a + b) + c == a + (b + c)
  {
  }

  lemma {:induction false} FieldsTable(st: WorkerState, env: Env, e: Entity, fields: seq<FieldDefinition>)
    ensures FieldsSpec(st, env, e, fields).table == st.table + FieldRows(env, e, fields)
    decreases |fields|
  {
    if fields != [] {
      var n := |fields| - 1;
      var f := fields[n];
      var before := FieldsSpec(st, env, e, fields[..n]);
      var earlier := FieldRows(env, e, fields[..n]);
      FieldsTable(st, env, e, fields[..n]);
      assert FieldsSpec(st, env, e, fields) == FieldStep(before, env, e, f);
      if f.fieldType in GetFieldTypes() {
        var effects := Effects(env, e, f.name, e.values(f.name));
        var rows := WrittenRows(e, f.name, effects);
        ApplyAllEffects(before, e, f.name, effects);
        assert FieldRows(env, e, fields) == earlier + rows;
        MergeAssociative(st.table, earlier, rows);
      } else {
        assert FieldRows(env, e, fields) == earlier + map[];
        assert earlier + map[] == earlier;
      }
    }
  }

  /** processItem() merges the item's rows into the table and touches no other row. */
  lemma ProcessItemTable(st: WorkerState, item: QueueItem, env: Env)
    ensures ProcessItemSpec(st, item, env).table == st.table + ItemRows(env, item)
  {
    if env.load(item).Some? {
      FieldsTable(st, env, env.load(item).value, env.definitions(item.entityType, item.bundle));
    }
  }

  /** Reprocessing an item with the same answers overwrites its rows rather than adding any. */
  lemma ReprocessOverwrites(st: WorkerState, item: QueueItem, env: Env)
    ensures ProcessItemSpec(ProcessItemSpec(st, item, env), item, env).table == ProcessItemSpec(st, item, env).table
  {
    var once := ProcessItemSpec(st, item, env);
    ProcessItemTable(st, item, env);
    ProcessItemTable(once, item, env);
    var rows := ItemRows(env, item);
    assert (st.table + rows) + rows == st.table + rows;
  }

  /** Only the text fields among the definitions contribute rows, under their own names. */
  lemma {:induction false} FieldRowsFromTextFields(env: Env, e: Entity, fields: seq<FieldDefinition>, k: Key)
    requires k in FieldRows(env, e, fields)
    ensures exists j :: 0 <= j < |fields| && fields[j].name == k.fieldName && fields[j].fieldType in GetFieldTypes()
    decreases |fields|
  {
    var n := |fields| - 1;
    var f := fields[n];
    if f.fieldType in GetFieldTypes() && k in WrittenRows(e, f.name, Effects(env, e, f.name, e.values(f.name))) {
      WrittenRowsExactly(e, f.name, Effects(env, e, f.name, e.values(f.name)), k);
    } else {
      FieldRowsFromTextFields(env, e, fields[..n], k);
      var j :| 0 <= j < n && fields[..n][j].name == k.fieldName && fields[..n][j].fieldType in GetFieldTypes();
      assert fields[j] == fields[..n][j];
    }
  }

  /** A missing entity: one item-level log line, and nothing embedded, sent or written. */
  lemma MissingEntity(st: WorkerState, item: QueueItem, env: Env)
    requires env.load(item).None?
    ensures var r := ProcessItemSpec(st, item, env);
      r.table == st.table && r.embedded == st.embedded && r.requests == st.requests && r.pauses == st.pauses
      && r.log == st.log + [ItemFailed(item.entityType, item.entityId)]
  {
  }

  // ---------------------------------------------------------------------------
  // The worker

  class Worker {
    var table: map<Key, Row>
    var embedded: seq<string>
    var requests: seq<Request>
    var log: seq<LogEntry>
    var pauses: nat

    function State(): WorkerState
      reads this
    {
      WorkerState(table, embedded, requests, log, pauses)
    }

    constructor (table: map<Key, Row>)
      ensures State() == WorkerState(table, [], [], [], 0)
    {
      this.table := table;
      embedded := [];
      requests := [];
      log := [];
      pauses := 0;
    }

    /** The text to embed: the prepared value with each stopword removed in turn. */
    static method StripStopwords(stopwords: seq<string>, prepared: string) returns (text: string)
      ensures text == RemoveStopWords(stopwords, prepared)
    {
      text := prepared;
      var k := 0;
      while k < |stopwords|
        invariant 0 <= k <= |stopwords|
        invariant text == RemoveStopWords(stopwords[..k], prepared)
      {
        assert stopwords[..k + 1][..k] == stopwords[..k];
        text := RemoveStopWord(stopwords[k], text);
        k := k + 1;
      }
      assert stopwords[..|stopwords|] == stopwords;
    }

    /** One value: an empty one is skipped, any other is prepared and sent. */
    method ProcessValue(env: Env, key: Key, value: string)
      modifies this
      ensures State() == ApplyEffect(old(State()), key, ValueEffect(env, key, value))
    {
      if |value| == 0 {
        return;
      }
      var text := StripStopwords(env.stopwords, PrepareText(env.parse(value), [], 8000));
      SendText(env, key, text);
    }

    /** Embed the text, upsert the vector, then merge the row; a failure is logged instead. */
    method SendText(env: Env, key: Key, text: string)
      modifies this
      ensures State() == ApplyEffect(old(State()), key, TextEffect(env, key, text))
    {
      embedded := embedded + [text];
      var response := env.embed(env.model, text);
      if response.None? {
        log := log + [ValueFailed(key)];
        return;
      }
      var request := Upsert(VectorJson(key, response.value.vector), Namespace(key.entityType, key.fieldName));
      assert request == VectorUpsert(key, response.value.vector);
      requests := requests + [request];
      if env.upsertAccepted(request) {
        table := table[key := Row(response.value.vector, response.value.usage)];
        pauses := pauses + 1;
      } else {
        log := log + [ValueFailed(key)];
      }
    }

    /** The inner loop: every value of one text field, delta by delta. */
    method ProcessField(env: Env, e: Entity, field: FieldDefinition)
      requires field.fieldType in GetFieldTypes()
      modifies this
      ensures State() == FieldStep(old(State()), env, e, field)
    {
      var values := e.values(field.name);
      ghost var effects := Effects(env, e, field.name, values);
      var delta := 0;
      while delta < |values|
        invariant 0 <= delta <= |values|
        invariant State() == ApplyAll(old(State()), e, field.name, effects[..delta])
      {
        assert effects[..delta + 1][..delta] == effects[..delta];
        ProcessValue(env, KeyOf(e, field.name, delta), values[delta]);
        delta := delta + 1;
      }
      assert effects[..|values|] == effects;
    }

    method ProcessItem(item: QueueItem, env: Env)
      modifies this
      ensures State() == ProcessItemSpec(old(State()), item, env)
    {
      var loaded := env.load(item);
      if loaded.None? {
        log := log + [ItemFailed(item.entityType, item.entityId)];
        return;
      }
      var e := loaded.value;
      var fields := env.definitions(item.entityType, item.bundle);
      var fieldTypes := GetFieldTypes();
      var i := 0;
      while i < |fields|
        invariant 0 <= i <= |fields|
        invariant State() == FieldsSpec(old(State()), env, e, fields[..i])
      {
        assert fields[..i + 1][..i] == fields[..i];
        if fields[i].fieldType in fieldTypes {
          ProcessField(env, e, fields[i]);
        }
        i := i + 1;
      }
      assert fields[..|fields|] == fields;
    }
  }
}

=== FILE: embeddings_settings_form.dfy ===
/**
 * The embeddings settings form: which bundles of which entity types are analysed,
 * the stopword list (lower-cased, split on ", " and sorted), the embedding model and
 * the Pinecone credentials, and the entity types the form offers.
 */
module EmbeddingsSettingsForm {
  import opened PhpStrings

  /** A checkbox value: 0 when unticked, the bundle id when ticked. */
  datatype Checkbox = Unchecked | Checked(value: string)

  /** PHP truthiness of a checkbox value: 0, "" and "0" are falsy. */
  predicate Truthy(c: Checkbox) {
    c.Checked? && c.value != "" && c.value != "0"
  }

  datatype Box = Box(bundle: string, value: Checkbox)

  /** The submitted checkboxes of one entity type. */
  datatype EntityTypeValue = EntityTypeValue(entityType: string, boxes: seq<Box>)

  /** array_filter($values[0]): the ticked boxes, in their order. */
  function Selected(boxes: seq<Box>): (r: seq<Box>)
    ensures forall b :: b in r <==> b in boxes && Truthy(b.value)
    decreases |boxes|
  {
    if boxes == [] then []
    else
      var prev := Selected(boxes[..|boxes| - 1]);
      var b := boxes[|boxes| - 1];
      assert boxes == boxes[..|boxes| - 1] + [b];
      if Truthy(b.value) then prev + [b] else prev
  }

  /** The saved entity_types setting after the loop over the first entries of the form. */
  function SavedTypes(values: seq<EntityTypeValue>): map<string, seq<Box>>
    decreases |values|
  {
    if values == [] then map[]
    else
      var prev := SavedTypes(values[..|values| - 1]);
      var v := values[|values| - 1];
      var selected := Selected(v.boxes);
      if |selected| > 0 then prev[v.entityType := selected] else prev
  }

  /**
   * An entity type is saved exactly when one of its entries has a ticked box, and what
   * is saved for it is never empty and holds ticked boxes only.
   */
  lemma {:induction false} SavedTypesExactly(values: seq<EntityTypeValue>, t: string)
    ensures t in SavedTypes(values)
        <==> exists i :: 0 <= i < |values| && values[i].entityType == t && Selected(values[i].boxes) != []
    ensures t in SavedTypes(values) ==>
              SavedTypes(values)[t] != [] && forall b :: b in SavedTypes(values)[t] ==> Truthy(b.value)
    decreases |values|
  {
    if values != [] {
      var p := values[..|values| - 1];
      SavedTypesExactly(p, t);
      assert forall i :: 0 <= i < |p| ==> p[i] == values[i];
    }
  }

  /** With distinct entity types, each type with a ticked box keeps exactly its ticked boxes. */
  lemma {:induction false} SavedTypesSelection(values: seq<EntityTypeValue>, i: nat)
    requires i < |values|
    requires forall a, b :: 0 <= a < b < |values| ==> values[a].entityType != values[b].entityType
    requires Selected(values[i].boxes) != []
    ensures values[i].entityType in SavedTypes(values)
    ensures SavedTypes(values)[values[i].entityType] == Selected(values[i].boxes)
    decreases |values|
  {
    var n := |values| - 1;
    if i < n {
      var p := values[..n];
      SavedTypesSelection(p, i);
    }
  }

  /** The saved stopwords: the input lower-cased, exploded on ", " and sorted. */
  function ParseStopwords(input: string): (r: seq<string>)
    ensures |r| > 0 && Sorted(r)
    ensures forall w :: w in r ==> IsLower(w) && NoOccurrence(w, ", ")
  {
    var pieces := Explode(", ", Lower(input));
    ExplodePiecesLower(Lower(input), ", ", []);
    ExplodePiecesLackSeparator(Lower(input), ", ", []);
    var r := Sort(pieces);
    assert forall w :: w in r ==> w in multiset(pieces);
    r
  }

  /** The stopwords field's default: the saved list joined with ", ", or nothing. */
  function DisplayStopwords(saved: seq<string>): string {
    if saved == [] then "" else Implode(", ", saved)
  }

  /**
   * Submitting the displayed stopwords unchanged saves the same list, for any sorted
   * non-empty list of lower-case words none of which contains ", ".
   */
  lemma ResubmitUnchanged(saved: seq<string>)
    requires |saved| > 0 && Sorted(saved)
    requires forall w :: w in saved ==> IsLower(w) && NoOccurrence(w, ", ")
    ensures ParseStopwords(DisplayStopwords(saved)) == saved
  {
    LowerImplode(", ", saved);
    var lowered := seq(|saved|, k requires 0 <= k < |saved| => Lower(saved[k]));
    forall k | 0 <= k < |saved|
      ensures lowered[k] == saved[k]
    {
      assert saved[k] in saved;
      LowerOfLower(saved[k]);
    }
    assert lowered == saved;
    ExplodeImplode(", ", saved);
    SortOfSorted(saved);
  }

  /** Once saved, the stopwords survive any number of display-and-submit rounds unchanged. */
  lemma StopwordsStable(input: string)
    ensures ParseStopwords(DisplayStopwords(ParseStopwords(input))) == ParseStopwords(input)
  {
    ResubmitUnchanged(ParseStopwords(input));
  }

  /** The entity types embeddings may be generated for. */
  const SupportedTypes: seq<string> := ["node", "media", "taxonomy_term", "paragraph", "block_content"]

  /** An entity type definition: its machine name, whether it is a content entity type, its label. */
  datatype Definition = Definition(name: string, isContent: bool, caption: string)

  /** The supported entity types among the first definitions, machine name to caption. */
  function SupportedSpec(defs: seq<Definition>): map<string, string>
    decreases |defs|
  {
    if defs == [] then map[]
    else
      var prev := SupportedSpec(defs[..|defs| - 1]);
      var d := defs[|defs| - 1];
      if d.name in SupportedTypes && d.isContent then prev[d.name := d.caption] else prev
  }

  /** Only supported content entity types are offered, and every one of them is. */
  lemma {:induction false} SupportedExactly(defs: seq<Definition>, t: string)
    ensures t in SupportedSpec(defs)
        <==> exists i :: 0 <= i < |defs| && defs[i].name == t && t in SupportedTypes && defs[i].isContent
    ensures t in SupportedSpec(defs) ==> t in SupportedTypes
    decreases |defs|
  {
    if defs != [] {
      var p := defs[..|defs| - 1];
      SupportedExactly(p, t);
      assert forall i :: 0 <= i < |p| ==> p[i] == defs[i];
    }
  }

  /** getSupportedEntityTypes(): the loop over the entity type definitions. */
  method GetSupportedEntityTypes(defs: seq<Definition>) returns (types: map<string, string>)
    ensures types == SupportedSpec(defs)
    ensures forall t :: t in types ==> t in SupportedTypes
  {
    types := map[];
    var i := 0;
    while i < |defs|
      invariant 0 <= i <= |defs|
      invariant types == SupportedSpec(defs[..i])
    {
      assert defs[..i + 1][..i] == defs[..i];
      var d := defs[i];
      if d.name in SupportedTypes && d.isContent {
        types := types[d.name := d.caption];
      }
      i := i + 1;
    }
    assert defs[..i] == defs;
    forall t | t in types
      ensures t in SupportedTypes
    {
      SupportedExactly(defs, t);
    }
  }

  /** The two config objects the form edits. */
  class EmbeddingsSettings {
    /** openai_embeddings.settings: entity_types, stopwords, model. */
    var entityTypes: map<string, seq<Box>>
    var stopwords: seq<string>
    var model: string
    /** openai_embeddings.pinecone_client: api_key, hostname. */
    var apiKey: string
    var hostname: string

    constructor ()
      ensures entityTypes == map[] && stopwords == [] && model == "" && apiKey == "" && hostname == ""
    {
      entityTypes := map[];
      stopwords := [];
      model := "";
      apiKey := "";
      hostname := "";
    }

    /** submitForm(): the selected bundles per entity type, the parsed stopwords and the rest as submitted. */
    method SubmitForm(values: seq<EntityTypeValue>, stopwordsInput: string, model: string,
                      apiKey: string, hostname: string)
      modifies this
      ensures entityTypes == SavedTypes(values)
      ensures stopwords == ParseStopwords(stopwordsInput)
      ensures this.model == model && this.apiKey == apiKey && this.hostname == hostname
    {
      var types: map<string, seq<Box>> := map[];
      var i := 0;
      while i < |values|
        invariant 0 <= i <= |values|
        invariant types == SavedTypes(values[..i])
      {
        assert values[..i + 1][..i] == values[..i];
        var selected := Selected(values[i].boxes);
        if |selected| > 0 {
          types := types[values[i].entityType := selected];
        }
        i := i + 1;
      }
      assert values[..i] == values;
      var words := Explode(", ", Lower(stopwordsInput));
      words := Sort(words);
      entityTypes := types;
      stopwords := words;
      this.model := model;
      this.apiKey := apiKey;
      this.hostname := hostname;
    }
  }
}

=== FILE: generation_controller.dfy ===
/**
 * The generation controller of the OpenAI API module: the model list filter, the
 * completion request and its prompt, the image URL, and the node and media item built
 * from a generated text and image. Entity storage, file retrieval and the OpenAI client
 * are oracles; a node or media item is modelled by the values set on it.
 */
module GenerationController {
  import opened Wrappers
  import opened PhpStrings
  import opened DrushInput
  import opened OpenAiClient
  import StringHelper

  const ModelsOptions: seq<string> := ["text-davinci-003", "text-curie-001", "text-babbage-001", "text-ada-001"]

  /** The instruction appended with save_html, after a blank. */
  const HtmlInstruction: string := "Return the response in HTML markup."

  const HtmlSuffix: string := " " + HtmlInstruction

  // ---------------------------------------------------------------------------
  // getModels()

  datatype ModelItem = ModelItem(id: string)

  /** The models call: its status code and the `data` list of its body. */
  datatype ModelsCall = ModelsCall(status: int, data: seq<ModelItem>)

  /** getModelsResponseBodyData(): the listed models, or none on any status but 200. */
  function ModelsResponseBodyData(call: ModelsCall): seq<ModelItem> {
    if call.status == 200 then call.data else []
  }

  /** getModels(): the listed model ids that are among the supported ones, each mapped to itself. */
  method GetModels(call: ModelsCall) returns (models: map<string, string>)
    ensures call.status != 200 ==> models == map[]
    ensures forall id :: id in models ==> models[id] == id && id in ModelsOptions
    ensures forall id :: id in models <==>
              call.status == 200 && id in ModelsOptions && exists j :: 0 <= j < |call.data| && call.data[j].id == id
  {
    var list := ModelsResponseBodyData(call);
    models := map[];
    var i := 0;
    while i < |list|
      invariant 0 <= i <= |list|
      invariant forall id :: id in models ==> models[id] == id
      invariant forall id :: id in models <==> id in ModelsOptions && exists j :: 0 <= j < i && list[j].id == id
    {
      if list[i].id in ModelsOptions {
        models := models[list[i].id := list[i].id];
      }
      i := i + 1;
    }
  }

  // ---------------------------------------------------------------------------
  // getTextCompletionResponseBodyData()

  /** The prompt sent: the text, with the HTML instruction appended when asked for, trimmed. */
  function CompletionPrompt(text: string, saveHtml: bool): string {
    Trim(if saveHtml then text + HtmlSuffix else text)
  }

  /**
   * Without save_html the prompt is the trimmed text; with it, the text's leading blanks
   * go and the instruction ends the prompt (the text's trailing blanks stay before it).
   */
  lemma CompletionPromptShape(text: string)
    ensures CompletionPrompt(text, false) == Trim(text)
    ensures TrimLeft(text) != [] ==> CompletionPrompt(text, true) == TrimLeft(text) + HtmlSuffix
    ensures TrimLeft(text) == [] ==> CompletionPrompt(text, true) == HtmlInstruction
  {
    HtmlSuffixEnds();
    TrimAppendKept(text, HtmlSuffix);
  }

  /** The instruction starts after a blank and ends with a full stop. */
  lemma HtmlSuffixEnds()
    ensures HtmlSuffix != [] && !IsTrimChar(HtmlSuffix[|HtmlSuffix| - 1])
    ensures TrimLeft(HtmlSuffix) == HtmlInstruction
  {
    var t := HtmlInstruction;
    assert t[0] == 'R' && t[|t| - 1] == '.';
    assert HtmlSuffix[|HtmlSuffix| - 1] == t[|t| - 1];
    assert HtmlSuffix[0] == ' ' && HtmlSuffix[1..] == t;
    TrimLeftKeptStart(t);
  }

  /** The completion request as written: temperature and max_token both cast with (int). */
  function CompletionRequestAsWritten(model: string, text: string, maxToken: PhpValue, temperature: PhpValue,
                                     saveHtml: bool): CompletionRequest {
    CompletionRequest(model, CompletionPrompt(text, saveHtml), IntValue(temperature) as real, IntValue(maxToken))
  }

  /** The completion request with the temperature passed on as the number it is. */
  function CompletionRequestFor(model: string, text: string, maxToken: PhpValue, temperature: PhpValue,
                                saveHtml: bool): CompletionRequest {
    CompletionRequest(model, CompletionPrompt(text, saveHtml), RealValue(temperature), IntValue(maxToken))
  }

  /**
   * As written, every temperature below 1 (all the prompt lets through, the default 0.5
   * included) reaches the API as 0; the corrected request carries it unchanged.
   */
  lemma CompletionTemperature(model: string, text: string, maxToken: PhpValue, temperature: PhpValue, saveHtml: bool)
    requires Numeric(temperature).Some? && 0.0 <= Numeric(temperature).value < 1.0
    ensures CompletionRequestAsWritten(model, text, maxToken, temperature, saveHtml).temperature == 0.0
    ensures CompletionRequestFor(model, text, maxToken, temperature, saveHtml).temperature == Numeric(temperature).value
    ensures CompletionRequestAsWritten(model, text, maxToken, PFloat(0.5), saveHtml).temperature == 0.0
    ensures CompletionRequestFor(model, text, maxToken, PFloat(0.5), saveHtml).temperature == 0.5
  {
    IntValueBelowOne(temperature);
  }

  /** getTextCompletionResponseBodyData(): the completion's text trimmed; None when the call throws. */
  function TextCompletionResponseBodyData(complete: CompletionRequest -> Option<string>, model: string,
                                          text: string, maxToken: PhpValue, temperature: PhpValue,
                                          saveHtml: bool): (r: Option<string>)
    ensures r.None? <==> complete(CompletionRequestFor(model, text, maxToken, temperature, saveHtml)).None?
    ensures r.Some? ==> Trim(r.value) == r.value && |r.value| <= |complete(CompletionRequestFor(model, text, maxToken, temperature, saveHtml)).value|
  {
    match complete(CompletionRequestFor(model, text, maxToken, temperature, saveHtml))
    case None => None
    case Some(t) => TrimIdempotent(t); Some(Trim(t))
  }

  // ---------------------------------------------------------------------------
  // getImageUrlResponseBodyData()

  /** The image call: its status code and the URL of the first generated image. */
  datatype ImageCall = ImageCall(status: int, url: string)

  /** The generated image's URL, or '' on any status but 200. */
  function ImageUrlResponseBodyData(call: ImageCall): string {
    if call.status == 200 then call.url else ""
  }

  // ---------------------------------------------------------------------------
  // generateContent(), generate_media_image(), createMediaImage()

  datatype FieldValue =
    | PlainValue(text: string)
    | FormattedValue(value: string, format: string)
    | ImageValue(targetId: nat, alt: string, title: string)

  /** A new node: its bundle and the values set on its fields, later sets replacing earlier ones. */
  datatype NodeValues = NodeValues(bundle: string, fields: map<string, FieldValue>)

  datatype MediaImage = MediaImage(name: string, bundle: string, targetId: nat, alt: string, title: string, author: string)

  /** What generate_media_image() did: the retrieved file's id (0 when it has none) and the media item made. */
  datatype MediaOutcome = MediaOutcome(fileId: nat, media: Option<MediaImage>)

  /** The body value stored: wrapped in a paragraph unless it is HTML already, line breaks deleted. */
  function BodyValue(body: string, saveHtml: bool): string {
    StringHelper.StripLineBreaks(if saveHtml then body else "<p>" + body + "</p>")
  }

  /**
   * The stored body holds no line break; a body without line breaks or backslashes is
   * stored as it is, wrapped in <p> and </p> unless save_html is set.
   */
  lemma BodyValueShape(body: string, saveHtml: bool)
    ensures '\r' !in BodyValue(body, saveHtml) && '\n' !in BodyValue(body, saveHtml)
    ensures '\r' !in body && '\n' !in body && '\\' !in body ==>
              BodyValue(body, saveHtml) == if saveHtml then body else "<p>" + body + "</p>"
  {
    if '\r' !in body && '\n' !in body && '\\' !in body {
      var v := if saveHtml then body else "<p>" + body + "</p>";
      assert forall c :: c in v ==> c in body || c in "<p>" || c in "</p>";
      StringHelper.StripLineBreaksAbsent(v);
    }
  }

  /** str_replace(' ', '-', $s). */
  function Dashed(s: string): (r: string)
    ensures |r| == |s| && ' ' !in r
    ensures forall i :: 0 <= i < |s| ==> r[i] == if s[i] == ' ' then '-' else s[i]
  {
    seq(|s|, i requires 0 <= i < |s| => if s[i] == ' ' then '-' else s[i])
  }

  /** The media name: the image prompt with dashes for spaces, lower-cased, plus ".png". */
  function MediaName(imagePrompt: string): string {
    Lower(Dashed(imagePrompt)) + ".png"
  }

  /**
   * A media name has no spaces, is lower case and ends with ".png", and keeps the
   * prompt's characters one for one: "A cat with glasses" names "a-cat-with-glasses.png".
   */
  lemma MediaNameShape(imagePrompt: string)
    ensures |MediaName(imagePrompt)| == |imagePrompt| + 4
    ensures MediaName(imagePrompt)[|imagePrompt|..] == ".png"
    ensures ' ' !in MediaName(imagePrompt) && IsLower(MediaName(imagePrompt))
    ensures forall i :: 0 <= i < |imagePrompt| ==>
              MediaName(imagePrompt)[i] == LowerChar(if imagePrompt[i] == ' ' then '-' else imagePrompt[i])
    ensures MediaName("A cat with glasses") == "a-cat-with-glasses.png"
  {
    var n := MediaName(imagePrompt);
    forall i | 0 <= i < |n|
      ensures n[i] != ' ' && LowerChar(n[i]) == n[i]
    {
      if i >= |imagePrompt| {
        assert n[i] == ".png"[i - |imagePrompt|];
      }
    }
    assert Lower(Dashed("A cat with glasses")) == "a-cat-with-glasses";
  }

  /**
   * generate_media_image(): the file the oracle retrieves for the URL (None: it returned
   * FALSE, and the declared File return type throws); a media item is made only when the
   * file has an id.
   */
  function GenerateMediaImage(imagePrompt: string, img: Option<string>, retrieve: Option<string> -> Option<nat>,
                              username: string): (r: Option<MediaOutcome>)
    ensures r.None? <==> retrieve(img).None?
    ensures r.Some? ==> r.value.fileId == retrieve(img).value && (r.value.media.Some? <==> r.value.fileId != 0)
    ensures r.Some? && r.value.media.Some? ==>
              r.value.media.value.name == MediaName(imagePrompt) && r.value.media.value.targetId == r.value.fileId
  {
    match retrieve(img)
    case None => None
    case Some(id) =>
      if id == 0 then Some(MediaOutcome(0, None))
      else Some(MediaOutcome(id, Some(MediaImage(MediaName(imagePrompt), "image", id, imagePrompt, imagePrompt,
                                                Lower(Dashed(username))))))
  }

  /** The image field is set on the node, holding an image. */
  predicate ImageSet(node: NodeValues, imageField: string) {
    imageField in node.fields && node.fields[imageField].ImageValue?
  }

  /**
   * generateContent(): a node of the content type with the subject as title and the
   * shaped body; the image field is set only when there is an image URL and the file
   * retrieved for it has an id. None when generate_media_image() throws.
   */
  method GenerateContent(subject: string, imagePrompt: string, body: string, contentType: string,
                         titleField: string, bodyField: string, filterFormat: string, saveHtml: bool,
                         img: Option<string>, imageField: string, retrieve: Option<string> -> Option<nat>,
                         username: string)
    returns (node: Option<NodeValues>, media: Option<MediaImage>)
    ensures node.None? <==> img.Some? && retrieve(img).None?
    ensures node.Some? ==> node.value.bundle == contentType
    ensures node.Some? ==> node.value.fields.Keys <= {titleField, bodyField, imageField}
    ensures node.Some? ==> titleField in node.value.fields && bodyField in node.value.fields
    ensures node.Some? ==> (ImageSet(node.value, imageField) <==> img.Some? && retrieve(img).value != 0)
    ensures node.Some? && (bodyField != imageField || !ImageSet(node.value, imageField)) ==>
              node.value.fields[bodyField] == FormattedValue(BodyValue(body, saveHtml), filterFormat)
    ensures node.Some? && titleField != bodyField && (titleField != imageField || !ImageSet(node.value, imageField)) ==>
              node.value.fields[titleField] == PlainValue(subject)
    ensures node.Some? && ImageSet(node.value, imageField) ==>
              node.value.fields[imageField] == ImageValue(retrieve(img).value, "article-illustration", "illustration")
    ensures media.Some? <==> node.Some? && ImageSet(node.value, imageField)
    ensures media.Some? ==> media.value.name == MediaName(imagePrompt)
  {
    var value := if saveHtml then body else "<p>" + body + "</p>";
    var fields: map<string, FieldValue> := map[];
    fields := fields[titleField := PlainValue(subject)];
    fields := fields[bodyField := FormattedValue(StringHelper.StripLineBreaks(value), filterFormat)];
    media := None;
    if img.Some? {
      var outcome := GenerateMediaImage(imagePrompt, img, retrieve, username);
      if outcome.None? {
        node := None;
        return;
      }
      media := outcome.value.media;
      if outcome.value.fileId != 0 {
        fields := fields[imageField := ImageValue(outcome.value.fileId, "article-illustration", "illustration")];
      }
    }
    node := Some(NodeValues(contentType, fields));
  }
}

=== FILE: generation_service.dfy ===
/**
 * The batch callbacks of the OpenAI API module: one operation generates a node (text,
 * optional image, node) or a media item, recording its number in the batch context;
 * the finished callbacks report how many were generated.
 */
module GenerationService {
  import opened Wrappers
  import opened PhpStrings
  import opened GenerationController
  import opened OpenAiClient
  import BatchPlan
  import ContentGenerationCommand
  import BatchMediaGenerationCommands

  /**
   * What an operation reaches outside the model: the completion and image calls, file
   * retrieval, the configured image field and the current user's name.
   */
  datatype Services = Services(
    complete: CompletionRequest -> Option<string>,
    imageCall: (string, string) -> ImageCall,
    retrieve: Option<string> -> Option<nat>,
    imageField: string,
    username: string)

  /** A batch's $context: the results recorded so far and the progress message. */
  class BatchContext {
    var results: seq<nat>
    var message: string

    constructor ()
      ensures results == [] && message == ""
    {
      results := [];
      message := "";
    }
  }

  /**
   * generate_image(): no image (NULL) exactly when the image prompt is empty, the image
   * call's URL otherwise, '' when that call did not answer 200.
   */
  function GenerateImage(imagePrompt: string, imageResolution: string, imageCall: (string, string) -> ImageCall)
    : (img: Option<string>)
    ensures img.None? <==> imagePrompt == ""
    ensures img.Some? && imageCall(imagePrompt, imageResolution).status != 200 ==> img.value == ""
    ensures img.Some? && imageCall(imagePrompt, imageResolution).status == 200 ==>
              img.value == imageCall(imagePrompt, imageResolution).url
  {
    if imagePrompt != "" then Some(ImageUrlResponseBodyData(imageCall(imagePrompt, imageResolution))) else None
  }

  /** An empty image prompt never reaches the image call: the result is the same whatever it answers. */
  lemma NoImageWithoutPrompt(imageResolution: string, a: (string, string) -> ImageCall, b: (string, string) -> ImageCall)
    ensures GenerateImage("", imageResolution, a) == GenerateImage("", imageResolution, b) == None
  {
  }

  /**
   * generate(): records the operation's number in the context, sets the progress message,
   * then asks for the text, the image and the node. None when a call on the way throws;
   * the number is recorded before any of them.
   */
  method Generate(data: ContentGenerationCommand.ArticleData, ctx: BatchContext, services: Services)
    returns (node: Option<NodeValues>, media: Option<MediaImage>)
    modifies ctx
    ensures ctx.results == old(ctx.results) + [data.nbrArticleGenerated]
    ensures ctx.message == "Generating " + data.fields.contentType + " node " + data.fields.subject + " #" +
                           NatToString(data.iteration) + "."
    ensures node.Some? ==> CompletionText(data.fields, services).Some?
    ensures node.Some? ==> node.value.bundle == data.fields.contentType
    ensures node.Some? ==> data.fields.title in node.value.fields && data.fields.body in node.value.fields
    ensures node.Some? && data.fields.body != services.imageField ==>
              node.value.fields[data.fields.body] ==
                FormattedValue(BodyValue(CompletionText(data.fields, services).value, data.fields.saveHtml),
                               data.fields.filterFormat)
    ensures node.Some? && data.fields.title != data.fields.body && data.fields.title != services.imageField ==>
              node.value.fields[data.fields.title] == PlainValue(data.fields.subject)
    ensures node.Some? ==> (ImageSet(node.value, services.imageField) ==> data.fields.imagePrompt != "")
    ensures media.Some? ==> node.Some? && media.value.name == MediaName(data.fields.imagePrompt)
  {
    ctx.results := ctx.results + [data.nbrArticleGenerated];
    ctx.message := "Generating " + data.fields.contentType + " node " + data.fields.subject + " #" +
                   NatToString(data.iteration) + ".";
    node, media := GenerateNode(data.fields, services);
  }

  /** The text generate() asks for: the completion of the subject with the prompt's settings. */
  function CompletionText(f: ContentGenerationCommand.ArticleFields, services: Services): Option<string> {
    TextCompletionResponseBodyData(services.complete, f.model, f.subject, f.maxToken, f.temperature, f.saveHtml)
  }

  /**
   * The calls of generate() after the bookkeeping: the text, then the image, then the
   * node, whose body is the completion text shaped as stored.
   */
  method GenerateNode(f: ContentGenerationCommand.ArticleFields, services: Services)
    returns (node: Option<NodeValues>, media: Option<MediaImage>)
    ensures node.Some? ==> CompletionText(f, services).Some?
    ensures node.Some? ==> node.value.bundle == f.contentType
    ensures node.Some? ==> f.title in node.value.fields && f.body in node.value.fields
    ensures node.Some? && f.body != services.imageField ==>
              node.value.fields[f.body] == FormattedValue(BodyValue(CompletionText(f, services).value, f.saveHtml),
                                                          f.filterFormat)
    ensures node.Some? && f.title != f.body && f.title != services.imageField ==>
              node.value.fields[f.title] == PlainValue(f.subject)
    ensures node.Some? ==> (ImageSet(node.value, services.imageField) ==> f.imagePrompt != "")
    ensures media.Some? ==> node.Some? && media.value.name == MediaName(f.imagePrompt)
  {
    var body := CompletionText(f, services);
    if body.None? {
      node, media := None, None;
      return;
    }
    var img := GenerateImage(f.imagePrompt, f.imageResolution, services.imageCall);
    node, media := GenerateContent(f.subject, f.imagePrompt, body.value, f.contentType, f.title, f.body,
                                   f.filterFormat, f.saveHtml, img, services.imageField, services.retrieve,
                                   services.username);
  }

  /**
   * generate_media(): records the operation's number in the context, sets the progress
   * message, then asks for the image and makes the media item. None when retrieving the
   * file fails.
   */
  method GenerateMedia(data: BatchMediaGenerationCommands.MediaData, ctx: BatchContext, services: Services)
    returns (outcome: Option<MediaOutcome>)
    modifies ctx
    ensures ctx.results == old(ctx.results) + [data.nbrMediaGenerated]
    ensures ctx.message == "Generating " + data.imagePrompt + " n°" + NatToString(data.iteration) + "."
    ensures outcome.None? <==> services.retrieve(GenerateImage(data.imagePrompt, data.imageResolution, services.imageCall)).None?
    ensures outcome.Some? && outcome.value.media.Some? ==> outcome.value.media.value.name == MediaName(data.imagePrompt)
  {
    ctx.results := ctx.results + [data.nbrMediaGenerated];
    ctx.message := "Generating " + data.imagePrompt + " n°" + NatToString(data.iteration) + ".";
    var img := GenerateImage(data.imagePrompt, data.imageResolution, services.imageCall);
    outcome := GenerateMediaImage(data.imagePrompt, img, services.retrieve, services.username);
  }

  /** finished(): the number of results on success, an error notice otherwise. */
  function Finished(success: bool, results: seq<nat>): string {
    if success then NatToString(|results|) + " node(s) generated." else "Finished with an error."
  }

  /** generate_medias_finished(): the same rule for media items. */
  function MediasFinished(success: bool, results: seq<nat>): string {
    if success then NatToString(|results|) + " Media(s) generated." else "Finished with an error."
  }

  /** The numbers the operations of a node batch record, in order. */
  function ArticleResults(ops: seq<ContentGenerationCommand.Operation>): seq<nat> {
    seq(|ops|, k requires 0 <= k < |ops| => ops[k].data.nbrArticleGenerated)
  }

  /** The numbers the operations of a media batch record, in order. */
  function MediaResults(ops: seq<BatchMediaGenerationCommands.Operation>): seq<nat> {
    seq(|ops|, k requires 0 <= k < |ops| => ops[k].data.nbrMediaGenerated)
  }

  /**
   * Once every planned node operation has run, the results are 1..N, and finished()
   * reports the same N as the batch title: the number of nodes asked for.
   */
  lemma ContentBatchReport(prompts: seq<ContentGenerationCommand.ArticlePrompt>)
    ensures (var ops := ContentGenerationCommand.Plan(prompts).operations;
             var n := BatchPlan.Total(ContentGenerationCommand.Counts(prompts));
             ArticleResults(ops) == seq(n, k requires 0 <= k < n => k + 1) &&
             Finished(true, ArticleResults(ops)) == NatToString(n) + " node(s) generated.")
    ensures Finished(false, ArticleResults(ContentGenerationCommand.Plan(prompts).operations)) == "Finished with an error."
  {
    ContentGenerationCommand.PlanCount(prompts);
    ContentGenerationCommand.PlanNumbering(prompts);
  }

  /**
   * Once every planned media operation has run, the results are 1..N and
   * generate_medias_finished() reports N, the number of media items asked for.
   */
  lemma MediaBatchReport(prompts: seq<BatchMediaGenerationCommands.MediaPrompt>)
    ensures (var ops := BatchMediaGenerationCommands.Plan(prompts).operations;
             var n := BatchPlan.Total(BatchMediaGenerationCommands.Counts(prompts));
             MediaResults(ops) == seq(n, k requires 0 <= k < n => k + 1) &&
             MediasFinished(true, MediaResults(ops)) == NatToString(n) + " Media(s) generated.")
    ensures MediasFinished(false, MediaResults(BatchMediaGenerationCommands.Plan(prompts).operations)) == "Finished with an error."
  {
    BatchMediaGenerationCommands.PlanCount(prompts);
    BatchMediaGenerationCommands.PlanNumbering(prompts);
  }
}

=== FILE: openai_client.dfy ===
/**
 * The request bodies the modelled code hands to the OpenAI client, and the integer cast
 * it applies to the numbers it sends. The client itself is not modelled: every call is
 * an oracle returning the response text, or None when it throws.
 */
module OpenAiClient {
  import opened Wrappers
  import opened PhpStrings
  import opened DrushInput

  /** The body of completions()->create(). */
  datatype CompletionRequest = CompletionRequest(model: string, prompt: string, temperature: real, maxTokens: int)

  datatype Role = System | User | Assistant

  datatype ChatMessage = ChatMessage(role: Role, content: string)

  /** The body of chat()->create(). */
  datatype ChatRequest = ChatRequest(model: string, messages: seq<ChatMessage>, temperature: real, maxTokens: int)

  /**
   * (int) $value for the values a form or prompt delivers: a numeric value truncated
   * toward zero; anything else 0.
   */
  function IntValue(v: PhpValue): (i: int)
    ensures Numeric(v).Some? && 0.0 <= Numeric(v).value ==> 0 <= i && i as real <= Numeric(v).value < i as real + 1.0
    ensures Numeric(v).Some? && Numeric(v).value < 0.0 ==> i <= 0 && i as real - 1.0 < Numeric(v).value <= i as real
    ensures Numeric(v).None? ==> i == 0
  {
    match Numeric(v)
    case None => 0
    case Some(x) => IntCast(x)
  }

  /** The number a form or prompt value stands for, uncast; 0 for a non-numeric value. */
  function RealValue(v: PhpValue): (x: real)
    ensures Numeric(v).Some? ==> x == Numeric(v).value
    ensures Numeric(v).None? ==> x == 0.0
  {
    match Numeric(v)
    case None => 0.0
    case Some(x) => x
  }

  /** Every temperature in [0, 1) is sent as 0 once cast, so the setting makes no difference. */
  lemma IntValueBelowOne(v: PhpValue)
    requires Numeric(v).Some? && 0.0 <= Numeric(v).value < 1.0
    ensures IntValue(v) == 0
  {
  }
}

=== FILE: openai_dblog_controller.dfy ===
/**
 * The log event details page with an OpenAI explanation: for an event whose severity is
 * enabled, one explanation row is appended, taken from the `openai_dblog` table when the
 * message's hash is there and asked of OpenAI (and stored) otherwise.
 */
module OpenAiDbLogController {
  import opened Wrappers
  import opened PhpStrings
  import opened OpenAiClient

  /** A row of the details table: a caption and its rendered value, or an appended explanation. */
  datatype TableRow = DetailRow(caption: string, value: string) | ExplanationRow(header: string, markup: string)

  /** A row of the `openai_dblog` table. */
  datatype Explanation = Explanation(hash: string, message: string, explanation: string)

  const Header: string := "Explanation (powered by <a href=\"https://openai.com\">OpenAI</a>)"

  const Fallback: string := "No possible explanations were found, or the API service is not responding."

  const MessageLength: int := 256

  /** The completion request for a message: the fixed question, temperature 0.4, 1024 tokens. */
  function ExplanationRequest(model: string, message: string): CompletionRequest {
    CompletionRequest(model, "What does this error mean and how can I fix it? The error is: \"" + message + "\"", 0.4, 1024)
  }

  /** array_key_exists($severity, array_filter($levels)): a key whose value is not falsy. */
  predicate Enabled(levels: map<string, string>, severity: string) {
    severity in levels && levels[severity] != "" && levels[severity] != "0"
  }

  /** The severity shown in the seventh row, tags stripped and trimmed. */
  function Severity(rows: seq<TableRow>, stripTags: string -> string): string
    requires |rows| > 6 && rows[6].DetailRow?
  {
    Trim(stripTags(rows[6].value))
  }

  /** The message of the sixth row, tags stripped, trimmed and cut word-safe at 256 characters. */
  function MessageOf(rows: seq<TableRow>, stripTags: string -> string): (m: string)
    requires |rows| > 5 && rows[5].DetailRow?
    ensures |m| <= MessageLength
  {
    Truncate(Trim(stripTags(rows[5].value)), MessageLength)
  }

  /** hashSearch(): the first stored explanation with the hash, None when there is none. */
  function Lookup(table: seq<Explanation>, hash: string): (r: Option<Explanation>)
    ensures r.None? <==> forall i :: 0 <= i < |table| ==> table[i].hash != hash
    ensures r.Some? ==> exists i :: 0 <= i < |table| && table[i] == r.value && r.value.hash == hash &&
                                    forall j :: 0 <= j < i ==> table[j].hash != hash
    decreases |table|
  {
    if table == [] then None
    else if table[0].hash == hash then Some(table[0])
    else
      var r := Lookup(table[1..], hash);
      assert forall i :: 1 <= i < |table| ==> table[i] == table[1..][i - 1];
      r
  }

  /**
   * Storing an explanation for a hash not yet in the table makes the next lookup of that
   * hash find it, and leaves every other lookup as it was.
   */
  lemma {:induction false} LookupAfterInsert(table: seq<Explanation>, e: Explanation, hash: string)
    ensures Lookup(table, hash).Some? ==> Lookup(table + [e], hash) == Lookup(table, hash)
    ensures Lookup(table, hash).None? && e.hash == hash ==> Lookup(table + [e], hash) == Some(e)
    ensures e.hash != hash ==> Lookup(table + [e], hash) == Lookup(table, hash)
    decreases |table|
  {
    if table != [] {
      assert (table + [e])[1..] == table[1..] + [e];
      LookupAfterInsert(table[1..], e, hash);
    }
  }

  /** The explanation cache: the `openai_dblog` table. */
  class DbLogController {
    var table: seq<Explanation>

    constructor ()
      ensures table == []
    {
      table := [];
    }

    /**
     * eventDetails(): nothing changes for a severity that is not enabled; otherwise one
     * explanation row is appended, from the table on a hit (no request, no insert), from
     * OpenAI on a miss (one request, and one row inserted when it answers), or the fallback
     * text when the request throws.
     */
    method EventDetails(rows: seq<TableRow>, levels: map<string, string>, model: string,
                        stripTags: string -> string, sha256: string -> string,
                        complete: CompletionRequest -> Option<string>)
      returns (out: seq<TableRow>, requests: seq<CompletionRequest>)
      requires |rows| > 6 && rows[5].DetailRow? && rows[6].DetailRow?
      modifies this
      ensures !Enabled(levels, Severity(rows, stripTags)) ==> out == rows && requests == [] && table == old(table)
      ensures Enabled(levels, Severity(rows, stripTags)) ==>
                |out| == |rows| + 1 && out[..|rows|] == rows && out[|rows|].ExplanationRow? && out[|rows|].header == Header
      ensures Enabled(levels, Severity(rows, stripTags)) && Lookup(old(table), sha256(MessageOf(rows, stripTags))).Some? ==>
                requests == [] && table == old(table) &&
                out[|rows|].markup == Lookup(old(table), sha256(MessageOf(rows, stripTags))).value.explanation
      ensures Enabled(levels, Severity(rows, stripTags)) && Lookup(old(table), sha256(MessageOf(rows, stripTags))).None? ==>
                requests == [ExplanationRequest(model, MessageOf(rows, stripTags))]
      ensures (Enabled(levels, Severity(rows, stripTags)) && Lookup(old(table), sha256(MessageOf(rows, stripTags))).None? &&
               complete(ExplanationRequest(model, MessageOf(rows, stripTags))).Some?) ==>
                (var reply := complete(ExplanationRequest(model, MessageOf(rows, stripTags))).value;
                 out[|rows|].markup == stripTags(Trim(reply)) &&
                 table == old(table) + [Explanation(sha256(MessageOf(rows, stripTags)), MessageOf(rows, stripTags),
                                                    stripTags(Trim(stripTags(Trim(reply)))))])
      ensures (Enabled(levels, Severity(rows, stripTags)) && Lookup(old(table), sha256(MessageOf(rows, stripTags))).None? &&
               complete(ExplanationRequest(model, MessageOf(rows, stripTags))).None?) ==>
                out[|rows|].markup == Fallback && table == old(table)
    {
      var severity := Trim(stripTags(rows[6].value));
      if !(severity in levels && levels[severity] != "" && levels[severity] != "0") {
        out, requests := rows, [];
        return;
      }
      var message := Truncate(Trim(stripTags(rows[5].value)), MessageLength);
      var hash := sha256(message);
      var found := Lookup(table, hash);
      if found.Some? {
        out := rows + [ExplanationRow(Header, found.value.explanation)];
        requests := [];
      } else {
        var request := ExplanationRequest(model, message);
        requests := [request];
        var response := complete(request);
        var markup := Fallback;
        if response.Some? {
          var explanation := stripTags(Trim(response.value));
          table := table + [Explanation(hash, message, stripTags(Trim(explanation)))];
          markup := explanation;
        }
        out := rows + [ExplanationRow(Header, markup)];
      }
    }
  }

  /**
   * Viewing the same event twice: after a miss whose request was answered, the second
   * view finds the stored explanation, so it makes no request.
   */
  lemma SecondViewHits(table: seq<Explanation>, hash: string, message: string, explanation: string)
    requires Lookup(table, hash).None?
    ensures Lookup(table + [Explanation(hash, message, explanation)], hash) == Some(Explanation(hash, message, explanation))
  {
    LookupAfterInsert(table, Explanation(hash, message, explanation), hash);
  }
}

=== FILE: php_strings.dfy ===
/**
 * The PHP and Drupal library string functions that the modelled code calls, with the
 * semantics the code relies on: trim(), str_replace() with an empty replacement,
 * strtolower(), explode()/implode(), sort() on strings, is_numeric(), the (int) cast,
 * integer-to-string conversion and Drupal's word-safe Unicode::truncate().
 */
module PhpStrings {
  import opened Wrappers

  /** Every character of `r` also occurs in `s`. */
  predicate CharsWithin(r: string, s: string) {
    forall c :: c in r ==> c in s
  }

  lemma ConcatAssoc(a: string, b: string, c: string)
    ensures a + b + c == a + (b + c)
  {
  }

  // ---------------------------------------------------------------------------
  // trim()

  /** PHP's default trim() character list: " \t\n\r\0\x0B". */
  predicate IsTrimChar(c: char) {
    c == ' ' || c == '\t' || c == '\n' || c == '\r' || c == '\0' || c == '\U{B}'
  }

  function TrimLeft(s: string): (r: string)
    ensures |r| <= |s| && r == s[|s| - |r|..]
    ensures r == [] || !IsTrimChar(r[0])
    ensures forall k :: 0 <= k < |s| - |r| ==> IsTrimChar(s[k])
  {
    if s != [] && IsTrimChar(s[0]) then TrimLeft(s[1..]) else s
  }

  function TrimRight(s: string): (r: string)
    ensures |r| <= |s| && r == s[..|r|]
    ensures r == [] || !IsTrimChar(r[|r| - 1])
    ensures forall k :: |r| <= k < |s| ==> IsTrimChar(s[k])
  {
    if s != [] && IsTrimChar(s[|s| - 1]) then TrimRight(s[..|s| - 1]) else s
  }

  /** trim($s): strips the default characters from both ends and nothing else. */
  function Trim(s: string): (r: string)
    ensures |r| <= |s| && CharsWithin(r, s)
    ensures r == [] || (!IsTrimChar(r[0]) && !IsTrimChar(r[|r| - 1]))
  {
    var l := TrimLeft(s);
    var r := TrimRight(l);
    assert CharsWithin(r, s) by {
      forall c | c in r ensures c in s {
        var k :| 0 <= k < |r| && r[k] == c;
        assert s[|s| - |l| + k] == c;
      }
    }
    r
  }

  /** A string that starts and ends with a kept character is left alone by trim(). */
  lemma TrimUntouched(s: string)
    requires s == [] || (!IsTrimChar(s[0]) && !IsTrimChar(s[|s| - 1]))
    ensures Trim(s) == s
  {
    assert TrimLeft(s) == s;
    assert TrimRight(s) == s;
  }

  lemma TrimIdempotent(s: string)
    ensures Trim(Trim(s)) == Trim(s)
  {
    var r := Trim(s);
    assert TrimLeft(r) == r;
    assert TrimRight(r) == r;
  }

  /** Left-trimming a text followed by more text: the leading blanks go, the rest stays. */
  lemma {:induction false} TrimLeftAppend(a: string, b: string)
    ensures TrimLeft(a) != [] ==> TrimLeft(a + b) == TrimLeft(a) + b
    ensures TrimLeft(a) == [] ==> TrimLeft(a + b) == TrimLeft(b)
    decreases |a|
  {
    if a == [] {
      assert a + b == b;
    } else {
      assert (a + b)[0] == a[0];
      assert (a + b)[1..] == a[1..] + b;
      if IsTrimChar(a[0]) {
        TrimLeftAppend(a[1..], b);
      }
    }
  }

  lemma TrimLeftKeptStart(s: string)
    requires s != [] && !IsTrimChar(s[0])
    ensures TrimLeft(s) == s
  {
  }

  /** A text whose last character is kept loses only its leading blanks to trim(). */
  lemma TrimKeptEnd(s: string)
    requires s != [] && !IsTrimChar(s[|s| - 1])
    ensures Trim(s) == TrimLeft(s)
  {
    var l := TrimLeft(s);
    assert l != [] && l[|l| - 1] == s[|s| - 1];
  }

  /** trim() of a text followed by a suffix that ends with a kept character. */
  lemma TrimAppendKept(text: string, suffix: string)
    requires suffix != [] && !IsTrimChar(suffix[|suffix| - 1])
    ensures TrimLeft(text) != [] ==> Trim(text + suffix) == TrimLeft(text) + suffix
    ensures TrimLeft(text) == [] ==> Trim(text + suffix) == TrimLeft(suffix)
  {
    var s := text + suffix;
    assert s[|s| - 1] == suffix[|suffix| - 1];
    TrimKeptEnd(s);
    TrimLeftAppend(text, suffix);
  }

  // ---------------------------------------------------------------------------
  // str_replace($pattern, '', $s)

  predicate StartsWith(s: string, prefix: string) {
    |prefix| <= |s| && s[..|prefix|] == prefix
  }

  /**
   * str_replace($pattern, '', $s): one left-to-right pass that deletes
   * non-overlapping occurrences of a non-empty pattern.
   */
  function RemoveAll(s: string, pattern: string): (r: string)
    requires |pattern| > 0
    ensures |r| <= |s|
    ensures |pattern| == 1 ==> pattern[0] !in r
    decreases |s|
  {
    if |s| < |pattern| then s
    else if StartsWith(s, pattern) then RemoveAll(s[|pattern|..], pattern)
    else [s[0]] + RemoveAll(s[1..], pattern)
  }

  /** Deleting only ever removes characters: nothing new appears. */
  lemma {:induction false} RemoveAllWithin(s: string, pattern: string)
    requires |pattern| > 0
    ensures CharsWithin(RemoveAll(s, pattern), s)
    decreases |s|
  {
    if |s| >= |pattern| {
      if StartsWith(s, pattern) {
        RemoveAllWithin(s[|pattern|..], pattern);
        forall c | c in RemoveAll(s, pattern) ensures c in s {
          var k :| 0 <= k < |s[|pattern|..]| && s[|pattern|..][k] == c;
          assert s[k + |pattern|] == c;
        }
      } else {
        RemoveAllWithin(s[1..], pattern);
        forall c | c in RemoveAll(s, pattern) ensures c in s {
          if c != s[0] {
            assert c in RemoveAll(s[1..], pattern);
            var k :| 0 <= k < |s[1..]| && s[1..][k] == c;
            assert s[k + 1] == c;
          }
        }
      }
    }
  }

  /** A pattern whose first character never occurs leaves the subject unchanged. */
  lemma {:induction false} RemoveAllAbsent(s: string, pattern: string)
    requires |pattern| > 0 && pattern[0] !in s
    ensures RemoveAll(s, pattern) == s
    decreases |s|
  {
    if |s| >= |pattern| {
      RemoveAllAbsent(s[1..], pattern);
      assert s == [s[0]] + s[1..];
    }
  }

  /** A one-character pattern is deleted at its first occurrence and the scan goes on after it. */
  lemma {:induction false} RemoveAllSkip(x: string, y: string, c: char)
    requires c !in x
    ensures RemoveAll(x + [c] + y, [c]) == x + RemoveAll(y, [c])
    decreases |x|
  {
    var s := x + [c] + y;
    if x == [] {
      assert s[..1] == [c];
      assert s[1..] == y;
    } else {
      assert s[..1] == [x[0]] && x[0] != c;
      assert s[1..] == x[1..] + [c] + y;
      RemoveAllSkip(x[1..], y, c);
      assert x == [x[0]] + x[1..];
    }
  }

  // ---------------------------------------------------------------------------
  // strtolower() / mb_strtolower() on ASCII letters

  function LowerChar(c: char): char {
    if 'A' <= c <= 'Z' then (c as int + 32) as char else c
  }

  predicate IsLower(s: string) {
    forall i :: 0 <= i < |s| ==> LowerChar(s[i]) == s[i]
  }

  function Lower(s: string): (r: string)
    ensures |r| == |s| && IsLower(r)
    ensures forall i :: 0 <= i < |s| ==> r[i] == LowerChar(s[i])
  {
    seq(|s|, i requires 0 <= i < |s| => LowerChar(s[i]))
  }

  lemma LowerOfLower(s: string)
    requires IsLower(s)
    ensures Lower(s) == s
  {
  }

  // ---------------------------------------------------------------------------
  // explode() / implode()

  /** No occurrence of `sep` starts anywhere in `s`. */
  predicate NoOccurrence(s: string, sep: string) {
    forall i :: 0 <= i <= |s| - |sep| ==> !StartsWith(s[i..], sep)
  }

  /** explode($sep, $s), with the piece collected so far in `current`. */
  function ExplodeFrom(s: string, sep: string, current: string): (r: seq<string>)
    requires |sep| > 0
    ensures |r| > 0
    decreases |s|
  {
    if |s| < |sep| then [current + s]
    else if StartsWith(s, sep) then [current] + ExplodeFrom(s[|sep|..], sep, [])
    else ExplodeFrom(s[1..], sep, current + [s[0]])
  }

  /** explode($sep, $s): always at least one piece, "" gives [""]. */
  function Explode(sep: string, s: string): (r: seq<string>)
    requires |sep| > 0
    ensures |r| > 0
  {
    ExplodeFrom(s, sep, [])
  }

  /** implode($sep, $words). */
  function Implode(sep: string, words: seq<string>): string {
    if |words| == 0 then ""
    else if |words| == 1 then words[0]
    else words[0] + sep + Implode(sep, words[1..])
  }

  /** Walking over a stretch `w` where no separator starts just appends it to the current piece. */
  lemma {:induction false} ExplodeSkips(w: string, rest: string, sep: string, current: string)
    requires |sep| > 0
    requires forall i :: 0 <= i < |w| ==> !StartsWith((w + rest)[i..], sep)
    ensures ExplodeFrom(w + rest, sep, current) == ExplodeFrom(rest, sep, current + w)
    decreases |w|
  {
    if w == [] {
      assert w + rest == rest;
      assert current + w == current;
    } else {
      var s := w + rest;
      assert !StartsWith(s[0..], sep);
      assert s[0..] == s;
      assert s[1..] == w[1..] + rest;
      if |s| < |sep| {
        assert |rest| < |sep|;
        assert current + s == (current + w) + rest;
      } else {
        forall i | 0 <= i < |w[1..]|
          ensures !StartsWith((w[1..] + rest)[i..], sep)
        {
          assert (w[1..] + rest)[i..] == s[i + 1..];
        }
        ExplodeSkips(w[1..], rest, sep, current + [s[0]]);
        assert current + [s[0]] + w[1..] == current + w;
      }
    }
  }

  /** A two-character separator whose characters differ cannot straddle a word's end. */
  predicate UnborderedPair(sep: string) {
    |sep| == 2 && sep[0] != sep[1]
  }

  lemma {:induction false} ExplodeImplode(sep: string, words: seq<string>)
    requires UnborderedPair(sep) && |words| > 0
    requires forall k :: 0 <= k < |words| ==> NoOccurrence(words[k], sep)
    ensures Explode(sep, Implode(sep, words)) == words
    decreases |words|
  {
    var w := words[0];
    if |words| == 1 {
      assert w + [] == w && [] + w == w;
      ExplodeSkips(w, [], sep, []);
      assert ExplodeFrom([], sep, w) == [w];
    } else {
      var rest := sep + Implode(sep, words[1..]);
      assert Implode(sep, words) == w + rest;
      forall i | 0 <= i < |w|
        ensures !StartsWith((w + rest)[i..], sep)
      {
        if i + 2 <= |w| {
          assert (w + rest)[i..][..2] == w[i..][..2];
          assert !StartsWith(w[i..], sep);
        } else {
          assert (w + rest)[i..][..2] == [w[i], sep[0]];
        }
      }
      ExplodeSkips(w, rest, sep, []);
      assert [] + w == w;
      assert rest[..|sep|] == sep;
      assert rest[|sep|..] == Implode(sep, words[1..]);
      ExplodeImplode(sep, words[1..]);
      assert words == [w] + words[1..];
    }
  }

  /** No piece explode() returns contains the separator. */
  lemma {:induction false} ExplodePiecesLackSeparator(s: string, sep: string, current: string)
    requires UnborderedPair(sep)
    requires NoOccurrence(current, sep)
    requires current != [] && s != [] ==> [current[|current| - 1], s[0]] != sep
    ensures forall k :: 0 <= k < |ExplodeFrom(s, sep, current)| ==> NoOccurrence(ExplodeFrom(s, sep, current)[k], sep)
    decreases |s|
  {
    var r := ExplodeFrom(s, sep, current);
    if |s| < |sep| {
      var p := current + s;
      forall i | 0 <= i <= |p| - |sep|
        ensures !StartsWith(p[i..], sep)
      {
        if i + 2 <= |current| {
          assert p[i..][..2] == current[i..][..2];
          assert !StartsWith(current[i..], sep);
        } else {
          assert |s| == 1 && i == |current| - 1;
          assert p[i..][..2] == [current[|current| - 1], s[0]];
        }
      }
    } else if StartsWith(s, sep) {
      ExplodePiecesLackSeparator(s[|sep|..], sep, []);
    } else {
      var c := current + [s[0]];
      forall i | 0 <= i <= |c| - |sep|
        ensures !StartsWith(c[i..], sep)
      {
        if i + 2 <= |current| {
          assert c[i..][..2] == current[i..][..2];
          assert !StartsWith(current[i..], sep);
        } else {
          assert i == |current| - 1;
          assert c[i..][..2] == [current[|current| - 1], s[0]];
        }
      }
      assert s[..2] != sep;
      ExplodePiecesLackSeparator(s[1..], sep, c);
    }
  }

  /** The pieces explode() returns from lower-case text are lower case. */
  lemma {:induction false} ExplodePiecesLower(s: string, sep: string, current: string)
    requires |sep| > 0 && IsLower(s) && IsLower(current)
    ensures forall k :: 0 <= k < |ExplodeFrom(s, sep, current)| ==> IsLower(ExplodeFrom(s, sep, current)[k])
    decreases |s|
  {
    if |s| < |sep| {
      assert forall i :: 0 <= i < |current + s| ==> (current + s)[i] in current + s;
    } else if StartsWith(s, sep) {
      ExplodePiecesLower(s[|sep|..], sep, []);
    } else {
      ExplodePiecesLower(s[1..], sep, current + [s[0]]);
    }
  }

  lemma LowerImplode(sep: string, words: seq<string>)
    requires IsLower(sep)
    ensures Lower(Implode(sep, words)) == Implode(sep, seq(|words|, k requires 0 <= k < |words| => Lower(words[k])))
    decreases |words|
  {
    if |words| > 1 {
      LowerImplode(sep, words[1..]);
      var lw := seq(|words|, k requires 0 <= k < |words| => Lower(words[k]));
      assert lw[1..] == seq(|words[1..]|, k requires 0 <= k < |words[1..]| => Lower(words[1..][k]));
    }
  }

  // ---------------------------------------------------------------------------
  // sort() on non-numeric strings: code-point lexicographic order (strcmp)

  predicate StrLe(a: string, b: string)
    decreases |a|
  {
    a == [] || (b != [] && (a[0] < b[0] || (a[0] == b[0] && StrLe(a[1..], b[1..]))))
  }

  lemma {:induction false} StrLeTotal(a: string, b: string)
    ensures StrLe(a, b) || StrLe(b, a)
    decreases |a|
  {
    if a != [] && b != [] && a[0] == b[0] {
      StrLeTotal(a[1..], b[1..]);
    }
  }

  lemma {:induction false} StrLeTransitive(a: string, b: string, c: string)
    requires StrLe(a, b) && StrLe(b, c)
    ensures StrLe(a, c)
    decreases |a|
  {
    if a != [] && a[0] == b[0] && b[0] == c[0] {
      StrLeTransitive(a[1..], b[1..], c[1..]);
    }
  }

  lemma {:induction false} StrLeAntisymmetric(a: string, b: string)
    requires StrLe(a, b) && StrLe(b, a)
    ensures a == b
    decreases |a|
  {
    if a != [] {
      StrLeAntisymmetric(a[1..], b[1..]);
      assert a == [a[0]] + a[1..] && b == [b[0]] + b[1..];
    }
  }

  lemma {:induction false} StrLeReflexive(a: string)
    ensures StrLe(a, a)
    decreases |a|
  {
    if a != [] {
      StrLeReflexive(a[1..]);
    }
  }

  predicate Sorted(s: seq<string>) {
    forall i, j :: 0 <= i < j < |s| ==> StrLe(s[i], s[j])
  }

  function Insert(x: string, s: seq<string>): (r: seq<string>)
    ensures multiset(r) == multiset(s) + multiset{x}
  {
    if s == [] || StrLe(x, s[0]) then [x] + s
    else
      assert s == [s[0]] + s[1..];
      [s[0]] + Insert(x, s[1..])
  }

  lemma {:induction false} InsertSorted(x: string, s: seq<string>)
    requires Sorted(s)
    ensures Sorted(Insert(x, s))
  {
    if s == [] || StrLe(x, s[0]) {
      forall j | 0 <= j < |s| ensures StrLe(x, s[j]) {
        if j > 0 { StrLeTransitive(x, s[0], s[j]); }
      }
    } else {
      var t := Insert(x, s[1..]);
      InsertSorted(x, s[1..]);
      StrLeTotal(x, s[0]);
      assert s == [s[0]] + s[1..];
      forall j | 0 <= j < |t| ensures StrLe(s[0], t[j]) {
        assert t[j] in multiset(t);
        if t[j] != x {
          assert t[j] in multiset(s[1..]);
          var k :| 0 <= k < |s[1..]| && s[1..][k] == t[j];
          assert s[k + 1] == t[j];
        }
      }
    }
  }

  /** The sorted permutation sort() leaves in place, computed by insertion. */
  function Sort(s: seq<string>): (r: seq<string>)
    ensures multiset(r) == multiset(s)
    ensures Sorted(r)
  {
    if s == [] then []
    else
      var t := Sort(s[1..]);
      InsertSorted(s[0], t);
      assert s == [s[0]] + s[1..];
      Insert(s[0], t)
  }

  lemma {:induction false} SortOfSorted(s: seq<string>)
    requires Sorted(s)
    ensures Sort(s) == s
  {
    if s != [] {
      SortOfSorted(s[1..]);
      assert s == [s[0]] + s[1..];
    }
  }

  lemma SortedHeadLeast(a: seq<string>, x: string)
    requires Sorted(a) && x in multiset(a)
    ensures StrLe(a[0], x)
  {
    var i :| 0 <= i < |a| && a[i] == x;
    if i == 0 { StrLeReflexive(x); }
  }

  lemma SortedTail(a: seq<string>)
    requires Sorted(a) && a != []
    ensures Sorted(a[1..])
  {
  }

  lemma SameHeadTails(a: seq<string>, b: seq<string>)
    requires a != [] && b != [] && a[0] == b[0] && multiset(a) == multiset(b)
    ensures multiset(a[1..]) == multiset(b[1..])
  {
    calc {
      multiset(a[1..]);
      { assert a == [a[0]] + a[1..]; }
      multiset(a) - multiset{a[0]};
      multiset(b) - multiset{b[0]};
      { assert b == [b[0]] + b[1..]; }
      multiset(b[1..]);
    }
  }

  /** Two sorted permutations of one multiset coincide, so any correct sort() yields Sort(s). */
  lemma {:induction false} SortedPermutationUnique(a: seq<string>, b: seq<string>)
    requires Sorted(a) && Sorted(b) && multiset(a) == multiset(b)
    ensures a == b
    decreases |a|
  {
    if a != [] {
      assert a[0] in multiset(a);
      SortedHeadLeast(b, a[0]);
      assert b[0] in multiset(b);
      SortedHeadLeast(a, b[0]);
      StrLeAntisymmetric(a[0], b[0]);
      SameHeadTails(a, b);
      SortedTail(a);
      SortedTail(b);
      SortedPermutationUnique(a[1..], b[1..]);
      assert a == [a[0]] + a[1..] && b == [b[0]] + b[1..];
    }
  }

  // ---------------------------------------------------------------------------
  // Integers as decimal strings

  predicate IsDigit(c: char) {
    '0' <= c <= '9'
  }

  predicate AllDigits(s: string) {
    forall i :: 0 <= i < |s| ==> IsDigit(s[i])
  }

  function DigitChar(d: nat): (c: char)
    requires d < 10
    ensures IsDigit(c)
  {
    ('0' as int + d) as char
  }

  /** The decimal rendering PHP gives a non-negative integer in string context. */
  function NatToString(n: nat): (r: string)
    ensures |r| > 0 && AllDigits(r)
  {
    if n < 10 then [DigitChar(n)] else NatToString(n / 10) + [DigitChar(n % 10)]
  }

  function DigitsValue(s: string): nat
    requires AllDigits(s)
  {
    if s == [] then 0 else DigitsValue(s[..|s| - 1]) * 10 + (s[|s| - 1] as int - '0' as int)
  }

  function ParseNat(s: string): Option<nat> {
    if s != [] && AllDigits(s) then Some(DigitsValue(s)) else None
  }

  lemma {:induction false} ParseNatToString(n: nat)
    ensures ParseNat(NatToString(n)) == Some(n)
  {
    var s := NatToString(n);
    if n < 10 {
      assert s[..|s| - 1] == [];
      assert s[0] as int - '0' as int == n;
      assert DigitsValue(s) == n;
    } else {
      ParseNatToString(n / 10);
      assert s[..|s| - 1] == NatToString(n / 10);
      assert s[|s| - 1] as int - '0' as int == n % 10;
      assert DigitsValue(s) == (n / 10) * 10 + n % 10;
    }
  }

  lemma NatToStringInjective(a: nat, b: nat)
    requires NatToString(a) == NatToString(b)
    ensures a == b
  {
    ParseNatToString(a);
    ParseNatToString(b);
  }

  // ---------------------------------------------------------------------------
  // is_numeric() and the numeric value of a numeric string

  function Pow10(k: nat): (r: nat)
    ensures r >= 1
  {
    if k == 0 then 1 else 10 * Pow10(k - 1)
  }

  function IndexOf(s: string, c: char): (r: Option<nat>)
    ensures r.Some? ==> r.value < |s| && s[r.value] == c && c !in s[..r.value]
    ensures r.None? ==> c !in s
  {
    if s == [] then None
    else if s[0] == c then Some(0)
    else match IndexOf(s[1..], c)
      case None => None
      case Some(k) => assert s[..k + 1] == [s[0]] + s[1..][..k]; Some(k + 1)
  }

  /** Digits with an optional decimal point, at least one digit in all. */
  function UnsignedValue(s: string): Option<real> {
    match IndexOf(s, '.')
    case None => if s != [] && AllDigits(s) then Some(DigitsValue(s) as real) else None
    case Some(k) =>
      var whole := s[..k];
      var frac := s[k + 1..];
      if AllDigits(whole) && AllDigits(frac) && |whole| + |frac| > 0 then
        Some(DigitsValue(whole) as real + DigitsValue(frac) as real / Pow10(|frac|) as real)
      else None
  }

  /** A one-digit decimal "a.b" has the value a + b/10. */
  lemma DecimalValue(a: char, b: char)
    requires IsDigit(a) && IsDigit(b)
    ensures NumericValue([a, '.', b]) == UnsignedValue([a, '.', b])
    ensures UnsignedValue([a, '.', b]) == Some((a as int - '0' as int) as real + (b as int - '0' as int) as real / 10.0)
  {
    var s := [a, '.', b];
    assert IndexOf(s[1..], '.') == Some(0);
    assert IndexOf(s, '.') == Some(1);
    assert s[..1] == [a] && s[2..] == [b];
    assert DigitsValue([a]) == a as int - '0' as int by { assert [a][..0] == []; }
    assert DigitsValue([b]) == b as int - '0' as int by { assert [b][..0] == []; }
  }

  /** The value of a decimal numeric string "[+-]?(D+(.D*)?|.D+)", None when is_numeric() is false. */
  function NumericValue(s: string): Option<real> {
    if s != [] && (s[0] == '+' || s[0] == '-') then
      match UnsignedValue(s[1..])
      case None => None
      case Some(v) => Some(if s[0] == '-' then -v else v)
    else UnsignedValue(s)
  }

  predicate IsNumeric(s: string) {
    NumericValue(s).Some?
  }

  lemma NumericValueOfNat(n: nat)
    ensures NumericValue(NatToString(n)) == Some(n as real)
  {
    var s := NatToString(n);
    ParseNatToString(n);
    assert IndexOf(s, '.') == None;
  }

  /** The (int) cast of a float: truncation toward zero. */
  function IntCast(r: real): (i: int)
    ensures 0.0 <= r ==> 0 <= i && i as real <= r < i as real + 1.0
    ensures r < 0.0 ==> i <= 0 && i as real - 1.0 < r <= i as real
  {
    if r >= 0.0 then r.Floor else -((-r).Floor)
  }

  // ---------------------------------------------------------------------------
  // Unicode::truncate($s, $max_length, TRUE): the word-safe cut

  predicate IsAsciiAlnum(c: char) {
    IsDigit(c) || 'a' <= c <= 'z' || 'A' <= c <= 'Z'
  }

  /**
   * Drupal's Unicode::PREG_CLASS_WORD_BOUNDARY over Latin-1 and General Punctuation:
   * every code point up to U+00A9 except the ASCII letters and digits; the Latin-1
   * punctuation and symbols U+00AB-U+00B1, U+00B4, U+00B6-U+00B8, U+00BB, U+00BF,
   * U+00D7 and U+00F7; and the block U+2000-U+206F (spaces, dashes, quotes).
   */
  predicate IsWordBoundaryChar(c: char) {
    (c as int <= 0xA9 && !IsAsciiAlnum(c)) ||
    (0xAB <= c as int <= 0xB1) || c as int == 0xB4 || (0xB6 <= c as int <= 0xB8) ||
    c as int == 0xBB || c as int == 0xBF || c as int == 0xD7 || c as int == 0xF7 ||
    (0x2000 <= c as int <= 0x206F)
  }

  /** The greatest j in 1..k with j < |s| whose character s[j] is a word boundary. */
  function LastBoundary(s: string, k: nat): (r: Option<nat>)
    ensures r.Some? ==> 1 <= r.value <= k && r.value < |s| && IsWordBoundaryChar(s[r.value])
    ensures r.Some? ==> forall j :: r.value < j <= k && j < |s| ==> !IsWordBoundaryChar(s[j])
    ensures r.None? ==> forall j :: 1 <= j <= k && j < |s| ==> !IsWordBoundaryChar(s[j])
  {
    if k == 0 then None
    else if k < |s| && IsWordBoundaryChar(s[k]) then Some(k)
    else LastBoundary(s, k - 1)
  }

  function MaxZero(n: int): nat {
    if n < 0 then 0 else n
  }

  /**
   * Unicode::truncate($s, $maxLength, TRUE): a string that fits is returned unchanged;
   * otherwise the longest prefix of 1..max characters that is followed by a
   * word-boundary character, or the plain max-character prefix when there is none.
   */
  function Truncate(s: string, maxLength: int): (r: string)
    ensures |r| <= MaxZero(maxLength) && r <= s
    ensures |s| <= MaxZero(maxLength) ==> r == s
    ensures MaxZero(maxLength) < |s| ==>
      (1 <= |r| && IsWordBoundaryChar(s[|r|])) ||
      (|r| == MaxZero(maxLength) && forall j :: 1 <= j <= |r| ==> !IsWordBoundaryChar(s[j]))
    ensures MaxZero(maxLength) < |s| ==> forall j :: |r| < j <= MaxZero(maxLength) ==> !IsWordBoundaryChar(s[j])
  {
    var m := MaxZero(maxLength);
    if |s| <= m then s
    else match LastBoundary(s, m)
      case Some(k) => s[..k]
      case None => s[..m]
  }

  /** The sentence of the length-limit examples. */
  const Dinosaurs: string := "Dinosaurs" + " roamed the earth" + " millions of years ago."

  /** Cut at 26: the space after "earth" is a word boundary. */
  lemma TruncateDinosaurs26()
    ensures Truncate(Dinosaurs, 26) == "Dinosaurs roamed the earth"
  {
    assert LastBoundary(Dinosaurs, 26) == Some(26);
  }

  /** From 9 up to 12 characters the last boundary is the space after "Dinosaurs". */
  lemma {:induction false} DinosaursFirstBoundary(k: nat)
    requires 9 <= k <= 12
    ensures LastBoundary(Dinosaurs, k) == Some(9)
    decreases k
  {
    if k > 9 {
      assert !IsWordBoundaryChar(Dinosaurs[k]);
      DinosaursFirstBoundary(k - 1);
    } else {
      assert Dinosaurs[9] == ' ';
    }
  }

  /** Cut at 10: "r" of "roamed" is no boundary, the space before it is. */
  lemma TruncateDinosaurs10()
    ensures Truncate(Dinosaurs, 10) == "Dinosaurs"
  {
    DinosaursFirstBoundary(10);
  }

  /** An em dash is a word boundary, so "ab", em dash, "cd" cut at 3 keeps "ab"; a letter beyond Latin-1 is not. */
  lemma TruncateAtDash()
    ensures Truncate("ab" + ['\U{2014}'] + "cd", 3) == "ab"
    ensures Truncate("ab" + ['\U{0101}'] + "cd", 3) == "ab" + ['\U{0101}']
  {
    assert LastBoundary("ab" + ['\U{2014}'] + "cd", 3) == Some(2);
    assert LastBoundary("ab" + ['\U{0101}'] + "cd", 3) == None;
  }

  /** Cut at 12: the cut falls back to the same space. */
  lemma TruncateDinosaurs12()
    ensures Truncate(Dinosaurs, 12) == "Dinosaurs"
  {
    DinosaursFirstBoundary(12);
  }
}

=== FILE: pinecone_client.dfy ===
/**
 * The requests the Pinecone HTTP client sends: the client options fixed at
 * construction and one request builder per API method. Payload keys that PHP adds
 * conditionally are present exactly when the condition holds; JSON key order is not
 * modelled (payloads are maps).
 */
module PineconeClient {
  import opened Wrappers

  /** A JSON value as the payloads use them. */
  datatype Json =
    | JBool(b: bool)
    | JInt(i: int)
    | JReal(r: real)
    | JString(s: string)
    | JArray(items: seq<Json>)
    | JObject(fields: map<string, Json>)

  datatype HttpMethod = Get | Post

  /** Guzzle request options: a JSON body, query-string parameters, or none. */
  datatype RequestOptions =
    | NoOptions
    | JsonBody(json: map<string, Json>)
    | QueryString(params: map<string, Json>)

  datatype Request = Request(verb: HttpMethod, path: string, options: RequestOptions)

  /** The options the HTTP client is created from. */
  datatype ClientOptions = ClientOptions(headers: map<string, string>, baseUri: string)

  /** The client options: a JSON content type, the API key header and the configured host. */
  function Options(apiKey: string, hostname: string): (o: ClientOptions)
    ensures o.headers.Keys == {"Content-Type", "API-Key"}
    ensures o.headers["Content-Type"] == "application/json"
    ensures o.headers["API-Key"] == apiKey && o.baseUri == hostname
  {
    ClientOptions(map["Content-Type" := "application/json", "API-Key" := apiKey], hostname)
  }

  function RealsJson(v: seq<real>): (j: Json)
    ensures j.JArray? && |j.items| == |v|
  {
    JArray(seq(|v|, i requires 0 <= i < |v| => JReal(v[i])))
  }

  function StringsJson(v: seq<string>): (j: Json)
    ensures j.JArray? && |j.items| == |v|
  {
    JArray(seq(|v|, i requires 0 <= i < |v| => JString(v[i])))
  }

  /** The arguments of a query, as a record. */
  datatype QueryArgs = QueryArgs(
    vector: seq<real>, topK: int, includeMetadata: bool, includeValues: bool,
    filters: map<string, Json>, namespace: string)

  /** POST /query with the vector, topK, both include flags, the namespace and, if any, the filter. */
  function Query(vector: seq<real>, topK: int, includeMetadata: bool, includeValues: bool,
                 filters: map<string, Json>, namespace: string): (r: Request)
    ensures r.verb == Post && r.path == "/query" && r.options.JsonBody?
    ensures r.options.json.Keys
         == {"vector", "topK", "includeMetadata", "includeValues", "namespace"}
          + (if filters == map[] then {} else {"filter"})
    ensures "filter" in r.options.json <==> filters != map[]
  {
    var payload := map[
      "vector" := RealsJson(vector),
      "topK" := JInt(topK),
      "includeMetadata" := JBool(includeMetadata),
      "includeValues" := JBool(includeValues),
      "namespace" := JString(namespace)];
    Request(Post, "/query",
      JsonBody(if filters == map[] then payload else payload["filter" := JObject(filters)]))
  }

  /** query() called with only a vector: topK 5, no metadata, no values, no filter, namespace ''. */
  function DefaultQuery(vector: seq<real>): (r: Request)
    ensures DecodeQuery(r) == Some(QueryArgs(vector, 5, false, false, map[], ""))
  {
    QueryRoundTrip(QueryArgs(vector, 5, false, false, map[], ""));
    Query(vector, 5, false, false, map[], "")
  }

  function RealsOf(items: seq<Json>): (r: Option<seq<real>>)
    ensures r.Some? ==> |r.value| == |items|
  {
    if items == [] then Some([])
    else match (items[0], RealsOf(items[1..]))
      case (JReal(x), Some(rest)) => Some([x] + rest)
      case _ => None
  }

  /** Reads the arguments back out of a query request. */
  function DecodeQuery(r: Request): Option<QueryArgs> {
    if r.verb != Post || r.path != "/query" || !r.options.JsonBody? then None
    else
      var p := r.options.json;
      if !("vector" in p && "topK" in p && "includeMetadata" in p && "includeValues" in p && "namespace" in p) then None
      else match (p["vector"], p["topK"], p["includeMetadata"], p["includeValues"], p["namespace"])
        case (JArray(items), JInt(k), JBool(m), JBool(v), JString(ns)) =>
          var filters := if "filter" in p && p["filter"].JObject? then p["filter"].fields else map[];
          (match RealsOf(items)
           case Some(vector) => Some(QueryArgs(vector, k, m, v, filters, ns))
           case None => None)
        case _ => None
  }

  lemma {:induction false} RealsOfJson(v: seq<real>)
    ensures RealsOf(RealsJson(v).items) == Some(v)
  {
    if v != [] {
      RealsOfJson(v[1..]);
      assert RealsJson(v).items[1..] == RealsJson(v[1..]).items;
      assert v == [v[0]] + v[1..];
    }
  }

  /** The query request carries every argument: reading it back gives them all. */
  lemma QueryRoundTrip(a: QueryArgs)
    ensures DecodeQuery(Query(a.vector, a.topK, a.includeMetadata, a.includeValues, a.filters, a.namespace)) == Some(a)
  {
    RealsOfJson(a.vector);
  }

  /** POST /vectors/upsert with exactly the vectors and the namespace. */
  function Upsert(vectors: Json, namespace: string): (r: Request)
    ensures r.verb == Post && r.path == "/vectors/upsert" && r.options.JsonBody?
    ensures r.options.json.Keys == {"vectors", "namespace"}
    ensures r.options.json["vectors"] == vectors && r.options.json["namespace"] == JString(namespace)
  {
    Request(Post, "/vectors/upsert", JsonBody(map["vectors" := vectors, "namespace" := JString(namespace)]))
  }

  /** GET /vectors/fetch with the ids and the namespace as query parameters, no body. */
  function Fetch(ids: seq<string>, namespace: string): (r: Request)
    ensures r.verb == Get && r.path == "/vectors/fetch" && r.options.QueryString?
    ensures r.options.params.Keys == {"ids", "namespace"}
    ensures r.options.params["ids"] == StringsJson(ids) && r.options.params["namespace"] == JString(namespace)
  {
    Request(Get, "/vectors/fetch", QueryString(map["ids" := StringsJson(ids), "namespace" := JString(namespace)]))
  }

  /**
   * POST /vectors/delete: deleteAll only without a filter, the namespace always,
   * ids and filter only when non-empty.
   */
  function Delete(ids: seq<string>, deleteAll: bool, namespace: string, filter: map<string, Json>): (r: Request)
    ensures r.verb == Post && r.path == "/vectors/delete" && r.options.JsonBody?
    ensures "deleteAll" in r.options.json <==> filter == map[]
    ensures "filter" in r.options.json <==> filter != map[]
    ensures "ids" in r.options.json <==> ids != []
    ensures !("deleteAll" in r.options.json && "filter" in r.options.json)
    ensures r.options.json.Keys <= {"deleteAll", "namespace", "ids", "filter"}
    ensures "namespace" in r.options.json && r.options.json["namespace"] == JString(namespace)
  {
    var withDeleteAll: map<string, Json> := if filter == map[] then map["deleteAll" := JBool(deleteAll)] else map[];
    var withNamespace := withDeleteAll["namespace" := JString(namespace)];
    var withIds := if ids != [] then withNamespace["ids" := StringsJson(ids)] else withNamespace;
    var payload := if filter != map[] then withIds["filter" := JObject(filter)] else withIds;
    Request(Post, "/vectors/delete", JsonBody(payload))
  }

  /** What a delete request asks the index to remove. */
  datatype DeleteArgs = DeleteArgs(ids: seq<string>, deleteAll: bool, namespace: string, filter: map<string, Json>)

  function StringsOf(items: seq<Json>): (r: Option<seq<string>>)
    ensures r.Some? ==> |r.value| == |items|
  {
    if items == [] then Some([])
    else match (items[0], StringsOf(items[1..]))
      case (JString(x), Some(rest)) => Some([x] + rest)
      case _ => None
  }

  lemma {:induction false} StringsOfJson(v: seq<string>)
    ensures StringsOf(StringsJson(v).items) == Some(v)
  {
    if v != [] {
      StringsOfJson(v[1..]);
      assert StringsJson(v).items[1..] == StringsJson(v[1..]).items;
      assert v == [v[0]] + v[1..];
    }
  }

  /** Reads a delete request back: absent keys mean no ids, no deleteAll and no filter. */
  function DecodeDelete(r: Request): Option<DeleteArgs> {
    if r.verb != Post || r.path != "/vectors/delete" || !r.options.JsonBody? then None
    else
      var p := r.options.json;
      if "namespace" !in p || !p["namespace"].JString? then None
      else
        var all := "deleteAll" in p && p["deleteAll"].JBool? && p["deleteAll"].b;
        var filter := if "filter" in p && p["filter"].JObject? then p["filter"].fields else map[];
        if "ids" in p then
          if !p["ids"].JArray? then None
          else match StringsOf(p["ids"].items)
            case Some(ids) => Some(DeleteArgs(ids, all, p["namespace"].s, filter))
            case None => None
        else Some(DeleteArgs([], all, p["namespace"].s, filter))
  }

  /** A delete request conveys its arguments, except that a filter overrides deleteAll. */
  lemma DeleteRoundTrip(ids: seq<string>, deleteAll: bool, namespace: string, filter: map<string, Json>)
    ensures DecodeDelete(Delete(ids, deleteAll, namespace, filter))
         == Some(DeleteArgs(ids, deleteAll && filter == map[], namespace, filter))
  {
    StringsOfJson(ids);
  }

  /** POST /describe_index_stats without a body. */
  function Stats(): (r: Request)
    ensures r.verb == Post && r.path == "/describe_index_stats" && r.options == NoOptions
  {
    Request(Post, "/describe_index_stats", NoOptions)
  }
}

=== FILE: pinecone_plugin.dfy ===
/**
 * The Pinecone vector-client plugin: its configuration (merged over the defaults),
 * the persisted config object that the HTTP client's headers and base URI come from,
 * and the query and upsert requests it sends.
 */
module PineconePlugin {
  import opened Wrappers
  import opened PineconeClient

  /** Plugin configuration and the persisted config object, as flat string maps. */
  type Config = map<string, string>

  /** The default configuration: an empty hostname and an empty API key. */
  function DefaultConfiguration(): (c: Config)
    ensures c.Keys == {"hostname", "api_key"}
    ensures c["hostname"] == "" && c["api_key"] == ""
  {
    map["hostname" := "", "api_key" := ""]
  }

  /**
   * A configuration filled in from the defaults: both `c += defaults` and
   * NestedArray::mergeDeep(defaults, c) give this on flat string-keyed maps.
   */
  function OverDefaults(c: Config): (r: Config)
    ensures r.Keys == c.Keys + {"hostname", "api_key"}
    ensures forall k :: k in c ==> r[k] == c[k]
    ensures forall k :: k in r && k !in c ==> r[k] == ""
  {
    DefaultConfiguration() + c
  }

  /** A persisted setting, with an unset key read as the empty string. */
  function Setting(stored: Config, key: string): string {
    if key in stored then stored[key] else ""
  }

  /**
   * The persisted config after setConfiguration(c): hostname and api_key of the
   * merged configuration written over the previous object, nothing else touched.
   */
  function Persisted(stored: Config, c: Config): (s: Config)
    ensures s.Keys == stored.Keys + {"hostname", "api_key"}
    ensures s["hostname"] == OverDefaults(c)["hostname"] && s["api_key"] == OverDefaults(c)["api_key"]
    ensures forall k :: k in stored && k != "hostname" && k != "api_key" ==> s[k] == stored[k]
  {
    var merged := OverDefaults(c);
    stored["hostname" := merged["hostname"]]["api_key" := merged["api_key"]]
  }

  /**
   * A plugin built after setConfiguration(c) talks to the host and with the key that c
   * supplied, or with empty ones where c supplied none.
   */
  lemma ReloadedClient(stored: Config, c: Config)
    ensures Setting(Persisted(stored, c), "hostname") == Setting(c, "hostname")
    ensures Setting(Persisted(stored, c), "api_key") == Setting(c, "api_key")
  {
  }

  class Pinecone {
    /** The plugin's configuration array. */
    var configuration: Config
    /** The editable config object plugin.plugin_configuration.vector_client.<plugin id>. */
    var stored: Config
    /** The HTTP client's options, fixed when the plugin is created. */
    const client: ClientOptions

    constructor (configuration: Config, stored: Config)
      ensures this.configuration == OverDefaults(configuration)
      ensures this.stored == stored
      ensures client == Options(Setting(stored, "api_key"), Setting(stored, "hostname"))
    {
      this.configuration := OverDefaults(configuration);
      this.stored := stored;
      client := Options(Setting(stored, "api_key"), Setting(stored, "hostname"));
    }

    /** Merges c over the defaults and persists hostname and api_key. */
    method SetConfiguration(c: Config)
      modifies this
      ensures configuration == OverDefaults(c)
      ensures stored == Persisted(old(stored), c)
    {
      configuration := OverDefaults(c);
      stored := stored["hostname" := configuration["hostname"]]["api_key" := configuration["api_key"]];
    }

    /** Submitting the configuration form sets the configuration to the form values. */
    method SubmitConfigurationForm(values: Config)
      modifies this
      ensures configuration == OverDefaults(values)
      ensures stored == Persisted(old(stored), values)
    {
      SetConfiguration(values);
    }

    /** The plugin's query request: the same payload as the HTTP client's query. */
    function Query(vector: seq<real>, topK: int, includeMetadata: bool, includeValues: bool,
                   filters: map<string, Json>, namespace: string): (r: Request)
      ensures r.verb == Post && r.path == "/query" && r.options.JsonBody?
      ensures "filter" in r.options.json <==> filters != map[]
      ensures DecodeQuery(r) == Some(QueryArgs(vector, topK, includeMetadata, includeValues, filters, namespace))
    {
      QueryRoundTrip(QueryArgs(vector, topK, includeMetadata, includeValues, filters, namespace));
      PineconeClient.Query(vector, topK, includeMetadata, includeValues, filters, namespace)
    }

    /** The plugin's upsert request: the vectors only, with no namespace. */
    function Upsert(vectors: Json): (r: Request)
      ensures r.verb == Post && r.path == "/vectors/upsert" && r.options.JsonBody?
      ensures r.options.json.Keys == {"vectors"} && r.options.json["vectors"] == vectors
    {
      Request(Post, "/vectors/upsert", JsonBody(map["vectors" := vectors]))
    }

    /** Not implemented by the plugin: changes nothing. */
    method Insert(parameters: Config)
      ensures configuration == old(configuration) && stored == old(stored)
    {
    }

    /** Not implemented by the plugin: changes nothing. */
    method Update(parameters: Config)
      ensures configuration == old(configuration) && stored == old(stored)
    {
    }

    /** Not implemented by the plugin: changes nothing. */
    method Delete(parameters: Config)
      ensures configuration == old(configuration) && stored == old(stored)
    {
    }
  }
}

=== FILE: pinecone_stats.dfy ===
/**
 * The Pinecone stats page: a two-column table with one row per namespace of the index
 * statistics, the empty namespace given a readable label.
 */
module PineconeStats {
  import opened Wrappers

  /** One namespace entry of the statistics response, in response order. */
  datatype NamespaceCount = NamespaceCount(key: string, vectorCount: int)

  datatype StatsRow = StatsRow(title: string, vectorCount: int)

  datatype Table = Table(header: seq<string>, rows: seq<StatsRow>, empty: string)

  const NoNamespace: string := "No namespace entered"

  const Header: seq<string> := ["Namespaces", "Vector Count"]

  /** The label of a namespace: the key itself, or a placeholder when it is empty. */
  function Label(key: string): (l: string)
    ensures key == "" ==> l == NoNamespace
    ensures key != "" ==> l == key
  {
    if |key| == 0 then NoNamespace else key
  }

  /** Labels are never empty, and different namespaces get different labels unless one is named like the placeholder. */
  lemma LabelsDistinct(a: string, b: string)
    requires a != b
    requires a != NoNamespace && b != NoNamespace
    ensures Label(a) != Label(b)
    ensures Label(a) != ""
  {
  }

  /**
   * index(): the statistics call, then one row per namespace; when the call throws
   * (`None`) the error is logged and the table has no rows.
   */
  method Index(stats: Option<seq<NamespaceCount>>) returns (t: Table)
    ensures t.header == Header && |t.header| == 2
    ensures t.empty == "No statistics are available."
    ensures stats.None? ==> t.rows == []
    ensures stats.Some? ==> |t.rows| == |stats.value|
    ensures stats.Some? ==> forall i :: 0 <= i < |t.rows| ==>
              t.rows[i] == StatsRow(Label(stats.value[i].key), stats.value[i].vectorCount)
  {
    var rows: seq<StatsRow> := [];
    if stats.Some? {
      var namespaces := stats.value;
      var i := 0;
      while i < |namespaces|
        invariant 0 <= i <= |namespaces| && |rows| == i
        invariant forall j :: 0 <= j < i ==> rows[j] == StatsRow(Label(namespaces[j].key), namespaces[j].vectorCount)
      {
        var title;
        if |namespaces[i].key| == 0 {
          title := NoNamespace;
        } else {
          title := namespaces[i].key;
        }
        rows := rows + [StatsRow(title, namespaces[i].vectorCount)];
        i := i + 1;
      }
    }
    t := Table(Header, rows, "No statistics are available.");
  }
}

=== FILE: search_form.dfy ===
/**
 * The embeddings search form's response: the query text is normalised and embedded,
 * the store is asked for the 8 nearest vectors of the chosen entity type, and the
 * matches are walked in the order the store returned them, emitting each entity at
 * most once and only when its score reaches the threshold.
 */
module SearchForm {
  import opened Wrappers
  import opened StringHelper
  import opened PineconeClient

  /** One match of a query: the entity its metadata names and its similarity score. */
  datatype Match = Match(entityType: string, entityId: string, score: real)

  /**
   * The services the form talks to. A `None` stands for a call that throws: the
   * exception leaves the AJAX callback and no response is built.
   */
  datatype SearchEnv = SearchEnv(
    parse: string -> seq<Node>,
    embed: (string, string) -> Option<seq<real>>,
    query: Request -> Option<seq<Match>>,
    link: (string, string) -> string,
    scoreText: real -> string)

  const EmbeddingModel: string := "text-embedding-ada-002"

  const NoResults: string :=
    "<p>" + "No results were found, or results were excluded because they did not meet the relevancy score threshold." + "</p>"

  /** The text that is embedded: the query normalised to at most 1024 characters. */
  function SearchText(env: SearchEnv, query: string): (t: string)
    ensures |t| <= 1024
    ensures forall i :: 0 <= i < |t| ==> IsPromptChar(t[i])
  {
    PrepareText(env.parse(query), [], 1024)
  }

  /** The store query: 8 matches with metadata, no values, filtered on the entity type. */
  function SearchRequest(vector: seq<real>, filterBy: string, namespace: string): (r: Request)
    ensures r.verb == Post && r.path == "/query" && r.options.JsonBody?
    ensures DecodeQuery(r)
         == Some(QueryArgs(vector, 8, true, false, map["entity_type" := JString(filterBy)], namespace))
  {
    var filters := map["entity_type" := JString(filterBy)];
    QueryRoundTrip(QueryArgs(vector, 8, true, false, filters, namespace));
    PineconeClient.Query(vector, 8, true, false, filters, namespace)
  }

  predicate SameEntity(a: Match, b: Match) {
    a.entityType == b.entityType && a.entityId == b.entityId
  }

  /** Some match of es names the entity of x. */
  predicate Mentions(es: seq<Match>, x: Match)
    decreases |es|
  {
    es != [] && (SameEntity(es[|es| - 1], x) || Mentions(es[..|es| - 1], x))
  }

  /**
   * The emitted matches, in the store's order: a match is skipped when an earlier
   * emitted match names the same entity or when its score is below the threshold.
   */
  function Emitted(ms: seq<Match>, threshold: real): (es: seq<Match>)
    ensures |es| <= |ms|
    decreases |ms|
  {
    if ms == [] then []
    else
      var n := |ms| - 1;
      var prev := Emitted(ms[..n], threshold);
      if Mentions(prev, ms[n]) || ms[n].score < threshold then prev else prev + [ms[n]]
  }

  /** One list item: the entity's link and its score. */
  function Item(env: SearchEnv, m: Match): string {
    "<li>" + env.link(m.entityType, m.entityId) + " had a score of " + env.scoreText(m.score) + "</li>"
  }

  /** `$output` after the walk has emitted es: the opening tag and one item per match. */
  function Listing(env: SearchEnv, es: seq<Match>): (r: string)
    ensures |r| >= 4 && r[..4] == "<ul>"
    decreases |es|
  {
    if es == [] then "<ul>" else Listing(env, es[..|es| - 1]) + Item(env, es[|es| - 1])
  }

  /** The HTML put into the response element. */
  function Output(env: SearchEnv, es: seq<Match>): string {
    if es == [] then NoResults else Listing(env, es) + "</ul>"
  }

  /** The whole callback: `None` when the embedding or the store query throws. */
  function Response(env: SearchEnv, query: string, filterBy: string, threshold: real, namespace: string): Option<string> {
    match env.embed(EmbeddingModel, SearchText(env, query))
    case None => None
    case Some(vector) =>
      match env.query(SearchRequest(vector, filterBy, namespace))
      case None => None
      case Some(ms) => Some(Output(env, Emitted(ms, threshold)))
  }

  /** The `$tracked` map: entity type to the ids emitted for it, in emission order. */
  function TrackedBy(es: seq<Match>): (tracked: map<string, seq<string>>)
    ensures tracked == map[] <==> es == []
    decreases |es|
  {
    if es == [] then map[]
    else
      Track(TrackedBy(es[..|es| - 1]), es[|es| - 1])
  }

  /** `$tracked[type][] = id`: the id appended to its type's list, which is created if absent. */
  function Track(tracked: map<string, seq<string>>, m: Match): (r: map<string, seq<string>>)
    ensures r.Keys == tracked.Keys + {m.entityType}
  {
    tracked[m.entityType := (if m.entityType in tracked then tracked[m.entityType] else []) + [m.entityId]]
  }

  lemma TrackedSnoc(es: seq<Match>, m: Match)
    ensures TrackedBy(es + [m]) == Track(TrackedBy(es), m)
  {
    assert (es + [m])[..|es|] == es;
  }

  lemma ListingSnoc(env: SearchEnv, es: seq<Match>, m: Match)
    ensures Listing(env, es + [m]) == Listing(env, es) + Item(env, m)
  {
    assert (es + [m])[..|es|] == es;
  }

  predicate Seen(tracked: map<string, seq<string>>, m: Match) {
    m.entityType in tracked && m.entityId in tracked[m.entityType]
  }

  /** The tracked map knows exactly the entities already emitted. */
  lemma {:induction false} SeenTrackedBy(es: seq<Match>, m: Match)
    ensures Seen(TrackedBy(es), m) <==> Mentions(es, m)
    decreases |es|
  {
    if es != [] {
      SeenTrackedBy(es[..|es| - 1], m);
    }
  }

  /** Mentions read as a quantifier over positions. */
  lemma {:induction false} MentionsSome(es: seq<Match>, x: Match)
    ensures Mentions(es, x) <==> exists j :: 0 <= j < |es| && SameEntity(es[j], x)
    decreases |es|
  {
    if es != [] {
      var p := es[..|es| - 1];
      MentionsSome(p, x);
      assert forall j :: 0 <= j < |p| ==> p[j] == es[j];
    }
  }

  /** Every result reaches the threshold. */
  lemma {:induction false} EmittedAbove(ms: seq<Match>, threshold: real)
    ensures forall e :: e in Emitted(ms, threshold) ==> e.score >= threshold
    decreases |ms|
  {
    if ms != [] {
      EmittedAbove(ms[..|ms| - 1], threshold);
    }
  }

  /** No two results name the same entity. */
  lemma {:induction false} EmittedDistinct(ms: seq<Match>, threshold: real)
    ensures forall a, b :: 0 <= a < b < |Emitted(ms, threshold)|
              ==> !SameEntity(Emitted(ms, threshold)[a], Emitted(ms, threshold)[b])
    decreases |ms|
  {
    if ms != [] {
      var n := |ms| - 1;
      var prev := Emitted(ms[..n], threshold);
      EmittedDistinct(ms[..n], threshold);
      MentionsSome(prev, ms[n]);
      var es := Emitted(ms, threshold);
      forall a, b | 0 <= a < b < |es|
        ensures !SameEntity(es[a], es[b])
      {
        if b < |prev| {
          assert es[a] == prev[a] && es[b] == prev[b];
          assert !SameEntity(prev[a], prev[b]);
        } else {
          assert es == prev + [ms[n]] && !Mentions(prev, ms[n]);
          assert es[a] == prev[a] && es[b] == ms[n];
        }
      }
    }
  }

  /** xs is ys with some elements left out: the order of ys is kept. */
  predicate Subsequence(xs: seq<Match>, ys: seq<Match>)
    decreases |ys|
  {
    xs == []
    || (ys != []
        && ((xs[|xs| - 1] == ys[|ys| - 1] && Subsequence(xs[..|xs| - 1], ys[..|ys| - 1]))
            || Subsequence(xs, ys[..|ys| - 1])))
  }

  /** The results keep the store's order: nothing is re-sorted. */
  lemma {:induction false} EmittedInOrder(ms: seq<Match>, threshold: real)
    ensures Subsequence(Emitted(ms, threshold), ms)
    decreases |ms|
  {
    if ms != [] {
      var n := |ms| - 1;
      var prev := Emitted(ms[..n], threshold);
      EmittedInOrder(ms[..n], threshold);
      if !(Mentions(prev, ms[n]) || ms[n].score < threshold) {
        assert (prev + [ms[n]])[..|prev|] == prev;
      }
    }
  }

  /**
   * Every entity with a match reaching the threshold is listed, whatever matches below
   * the threshold came before; no other entity is.
   */
  lemma {:induction false} EmittedCovers(ms: seq<Match>, threshold: real, x: Match)
    ensures Mentions(Emitted(ms, threshold), x)
        <==> exists j :: 0 <= j < |ms| && ms[j].score >= threshold && SameEntity(ms[j], x)
    decreases |ms|
  {
    if ms != [] {
      var n := |ms| - 1;
      var p := ms[..n];
      var prev := Emitted(p, threshold);
      EmittedCovers(p, threshold, x);
      EmittedCovers(p, threshold, ms[n]);
      assert forall j :: 0 <= j < n ==> p[j] == ms[j];
      if !(Mentions(prev, ms[n]) || ms[n].score < threshold) {
        assert (prev + [ms[n]])[..|prev|] == prev;
      }
      if exists j :: 0 <= j < |ms| && ms[j].score >= threshold && SameEntity(ms[j], x) {
        var j :| 0 <= j < |ms| && ms[j].score >= threshold && SameEntity(ms[j], x);
        if j < n {
          assert p[j] == ms[j];
        } else if Mentions(prev, ms[n]) {
          MentionsSame(prev, ms[n], x);
        }
      }
    }
  }

  lemma {:induction false} MentionsSame(es: seq<Match>, y: Match, x: Match)
    requires Mentions(es, y) && SameEntity(y, x)
    ensures Mentions(es, x)
    decreases |es|
  {
    if !SameEntity(es[|es| - 1], y) {
      MentionsSame(es[..|es| - 1], y, x);
    }
  }

  /**
   * The match at position i is emitted exactly when it reaches the threshold and no
   * earlier match of the same entity did; otherwise the results are unchanged by it.
   */
  lemma EmittedAt(ms: seq<Match>, threshold: real, i: nat)
    requires i < |ms|
    ensures var before := Emitted(ms[..i], threshold);
            var after := Emitted(ms[..i + 1], threshold);
            (after == before + [ms[i]] || after == before)
            && (after == before + [ms[i]]
                <==> (ms[i].score >= threshold
                      && forall j :: 0 <= j < i && ms[j].score >= threshold ==> !SameEntity(ms[j], ms[i])))
  {
    var p := ms[..i + 1];
    assert p[..i] == ms[..i];
    EmittedCovers(ms[..i], threshold, ms[i]);
    assert forall j :: 0 <= j < i ==> ms[..i][j] == ms[j];
  }

  /** Nothing is emitted exactly when no match reaches the threshold. */
  lemma EmittedNone(ms: seq<Match>, threshold: real)
    ensures Emitted(ms, threshold) == [] <==> forall j :: 0 <= j < |ms| ==> ms[j].score < threshold
  {
    if exists j :: 0 <= j < |ms| && ms[j].score >= threshold {
      var j :| 0 <= j < |ms| && ms[j].score >= threshold;
      EmittedCovers(ms, threshold, ms[j]);
    } else {
      EmittedCovers(ms, threshold, Match("", "", 0.0));
    }
  }

  /** The output is the "no results" paragraph exactly when nothing was emitted. */
  lemma OutputNoResults(env: SearchEnv, es: seq<Match>)
    ensures Output(env, es) == NoResults <==> es == []
  {
    if es != [] {
      assert Output(env, es)[1] == Listing(env, es)[..4][1] == 'u';
      assert NoResults[1] == 'p';
    }
  }

  /** The response is the "no results" paragraph exactly when every match is below the threshold. */
  lemma NoResultsExactly(env: SearchEnv, ms: seq<Match>, threshold: real)
    ensures Output(env, Emitted(ms, threshold)) == NoResults
        <==> forall j :: 0 <= j < |ms| ==> ms[j].score < threshold
  {
    OutputNoResults(env, Emitted(ms, threshold));
    EmittedNone(ms, threshold);
  }

  /** The AJAX callback: embeds the query, queries the store and walks the matches. */
  method GetResponse(env: SearchEnv, query: string, filterBy: string, threshold: real, namespace: string)
    returns (r: Option<string>)
    ensures r == Response(env, query, filterBy, threshold, namespace)
  {
    var text := PrepareText(env.parse(query), [], 1024);
    var vector := env.embed(EmbeddingModel, text);
    if vector.None? {
      return None;
    }
    var result := env.query(SearchRequest(vector.value, filterBy, namespace));
    if result.None? {
      return None;
    }
    var output := Walk(env, result.value, threshold);
    return Some(output);
  }

  /** The walk over the matches: a list item per emitted match, or the "no results" paragraph. */
  method Walk(env: SearchEnv, ms: seq<Match>, threshold: real) returns (output: string)
    ensures output == Output(env, Emitted(ms, threshold))
  {
    output := "<ul>";
    var tracked: map<string, seq<string>> := map[];
    ghost var emitted: seq<Match> := [];
    var i := 0;
    while i < |ms|
      invariant 0 <= i <= |ms|
      invariant emitted == Emitted(ms[..i], threshold)
      invariant tracked == TrackedBy(emitted)
      invariant output == Listing(env, emitted)
    {
      var m := ms[i];
      SeenTrackedBy(emitted, m);
      assert ms[..i + 1][..i] == ms[..i];
      if m.entityType in tracked && m.entityId in tracked[m.entityType] {
      } else if m.score < threshold {
      } else {
        ListingSnoc(env, emitted, m);
        TrackedSnoc(emitted, m);
        output := output + Item(env, m);
        tracked := Track(tracked, m);
        emitted := emitted + [m];
      }
      i := i + 1;
    }
    assert ms[..i] == ms;
    output := output + "</ul>";
    if tracked == map[] {
      output := NoResults;
    }
  }
}

=== FILE: string_helper.dfy ===
/**
 * StringHelper::prepareText: turns an HTML fragment into prompt-ready plain text.
 * The fragment is taken as the already parsed DOM (a list of nodes that the code wraps
 * in a <div>); element removal, text extraction, line-break stripping, trimming,
 * space collapsing, the character whitelist and the word-safe truncation follow.
 */
module StringHelper {
  import opened PhpStrings

  /** A DOM node: a text node or an element with its children in document order. */
  datatype Node = Text(text: string) | Element(tag: string, children: seq<Node>)

  /** The elements whose contents are never included. */
  const DefaultRemovedElements: seq<string> := ["pre", "code", "script", "iframe"]

  /** The default length limit of prepareText(). */
  const DefaultMaxLength: int := 10000

  // ---------------------------------------------------------------------------
  // The set of removed elements

  /**
   * The removal list as the code builds it: PHP's array union `+=` keeps every index
   * the caller already used, so the defaults at indices 0..|caller|-1 are dropped.
   */
  function RemovalSetAsWritten(caller: seq<string>): (r: seq<string>)
    ensures |r| == if |caller| < |DefaultRemovedElements| then |DefaultRemovedElements| else |caller|
    ensures caller <= r
    ensures forall k :: |caller| <= k < |DefaultRemovedElements| ==> r[k] == DefaultRemovedElements[k]
  {
    if |caller| >= |DefaultRemovedElements| then caller
    else caller + DefaultRemovedElements[|caller|..]
  }

  /** As written, naming a single element to remove switches off the removal of <pre>. */
  lemma AsWrittenDropsPre(caller: seq<string>)
    requires 1 <= |caller| && "pre" !in caller
    ensures "pre" !in RemovalSetAsWritten(caller)
  {
    var r := RemovalSetAsWritten(caller);
    if |caller| < |DefaultRemovedElements| {
      assert r == caller + DefaultRemovedElements[|caller|..];
      assert "pre" !in DefaultRemovedElements[|caller|..];
    }
  }

  /** The intended removal list: the caller's elements and always the defaults. */
  function RemovalSet(caller: seq<string>): (r: seq<string>)
    ensures forall t :: t in r <==> t in caller || t in DefaultRemovedElements
  {
    caller + DefaultRemovedElements
  }

  // ---------------------------------------------------------------------------
  // Removing elements from the tree

  /** No element in the forest carries one of `tags`. */
  predicate FreeOf(nodes: seq<Node>, tags: seq<string>)
    decreases nodes
  {
    forall i :: 0 <= i < |nodes| ==>
      match nodes[i]
      case Text(_) => true
      case Element(tag, children) => tag !in tags && FreeOf(children, tags)
  }

  /** Detaches every element whose tag is in `tags`, together with its subtree. */
  function RemoveElements(nodes: seq<Node>, tags: seq<string>): (r: seq<Node>)
    ensures FreeOf(r, tags)
    ensures |r| <= |nodes|
    decreases nodes
  {
    if nodes == [] then []
    else
      var rest := RemoveElements(nodes[1..], tags);
      match nodes[0]
      case Text(t) => [Text(t)] + rest
      case Element(tag, children) =>
        if tag in tags then rest
        else [Element(tag, RemoveElements(children, tags))] + rest
  }

  lemma {:induction false} FreeOfNothing(nodes: seq<Node>)
    ensures FreeOf(nodes, [])
    decreases nodes
  {
    forall i | 0 <= i < |nodes|
      ensures match nodes[i]
              case Text(_) => true
              case Element(tag, children) => tag !in [] && FreeOf(children, [])
    {
      match nodes[i]
      case Text(_) =>
      case Element(_, children) => FreeOfNothing(children);
    }
  }

  /** A forest without the removed elements is left as it is. */
  lemma {:induction false} RemoveElementsFree(nodes: seq<Node>, tags: seq<string>)
    requires FreeOf(nodes, tags)
    ensures RemoveElements(nodes, tags) == nodes
    decreases nodes
  {
    if nodes != [] {
      RemoveElementsFree(nodes[1..], tags);
      match nodes[0]
      case Text(_) =>
      case Element(tag, children) =>
        RemoveElementsFree(children, tags);
    }
  }

  /** Removing a set of tags and then one more tag is removing them all at once. */
  lemma {:induction false} RemoveElementsStep(nodes: seq<Node>, tags: seq<string>, tag: string)
    ensures RemoveElements(RemoveElements(nodes, tags), [tag]) == RemoveElements(nodes, tags + [tag])
    decreases nodes
  {
    if nodes != [] {
      RemoveElementsStep(nodes[1..], tags, tag);
      match nodes[0]
      case Text(_) =>
      case Element(t, children) =>
        RemoveElementsStep(children, tags, tag);
    }
  }

  /** The collect-then-detach loops, one tag at a time, reach the all-at-once removal. */
  method DetachElements(nodes: seq<Node>, tags: seq<string>) returns (r: seq<Node>)
    ensures r == RemoveElements(nodes, tags)
    ensures FreeOf(r, tags)
  {
    FreeOfNothing(nodes);
    RemoveElementsFree(nodes, []);
    r := nodes;
    var i := 0;
    while i < |tags|
      invariant 0 <= i <= |tags|
      invariant r == RemoveElements(nodes, tags[..i])
    {
      RemoveElementsStep(nodes, tags[..i], tags[i]);
      assert tags[..i] + [tags[i]] == tags[..i + 1];
      r := RemoveElements(r, [tags[i]]);
      i := i + 1;
    }
    assert tags[..i] == tags;
  }

  /** The text the serialised document keeps once its markup is stripped. */
  function TextContent(nodes: seq<Node>): string
    decreases nodes
  {
    if nodes == [] then ""
    else
      (match nodes[0]
       case Text(t) => t
       case Element(_, children) => TextContent(children))
      + TextContent(nodes[1..])
  }

  // ---------------------------------------------------------------------------
  // The string clean-up passes

  /**
   * str_replace(["\r\n", "\r", "\n", "\\r", "\\n", "\\r\\n"], "", $text): each
   * pattern in turn, over the result of the previous one.
   */
  function StripLineBreaks(s: string): (r: string)
    ensures '\r' !in r && '\n' !in r
    ensures |r| <= |s|
  {
    var a := RemoveAll(s, "\r\n");
    var b := RemoveAll(a, "\r");
    var c := RemoveAll(b, "\n");
    var d := RemoveAll(c, "\\r");
    var e := RemoveAll(d, "\\n");
    RemoveAllWithin(b, "\n");
    RemoveAllWithin(c, "\\r");
    RemoveAllWithin(d, "\\n");
    RemoveAllWithin(e, "\\r\\n");
    RemoveAll(e, "\\r\\n")
  }

  predicate NoDoubleSpace(s: string) {
    forall i :: 0 <= i < |s| - 1 ==> !(s[i] == ' ' && s[i + 1] == ' ')
  }

  /** The characters of `s` other than the space, in order. */
  function NonSpaces(s: string): string {
    if s == [] then "" else (if s[0] == ' ' then "" else [s[0]]) + NonSpaces(s[1..])
  }

  /** preg_replace("/  +/", ' ', $s): every run of two or more spaces becomes one space. */
  function CollapseSpaces(s: string): (r: string)
    ensures NoDoubleSpace(r)
    ensures |r| <= |s| && (s != [] ==> r != [] && r[0] == s[0])
    ensures ' ' in s ==> ' ' in r
  {
    if |s| < 2 then s
    else if s[0] == ' ' && s[1] == ' ' then CollapseSpaces(s[1..])
    else [s[0]] + CollapseSpaces(s[1..])
  }

  /** Collapsing only ever deletes spaces: every other character stays, in order. */
  lemma {:induction false} CollapseSpacesKeepsNonSpaces(s: string)
    ensures NonSpaces(CollapseSpaces(s)) == NonSpaces(s)
  {
    if |s| >= 2 {
      CollapseSpacesKeepsNonSpaces(s[1..]);
      if !(s[0] == ' ' && s[1] == ' ') {
        var t := CollapseSpaces(s[1..]);
        assert ([s[0]] + t)[1..] == t;
      }
    }
  }

  lemma {:induction false} CollapseSpacesIdempotent(s: string)
    requires NoDoubleSpace(s)
    ensures CollapseSpaces(s) == s
  {
    if |s| >= 2 {
      CollapseSpacesIdempotent(s[1..]);
      assert s == [s[0]] + s[1..];
    }
  }

  /** The characters /[a-z0-9.?!,' ]/i lets through. */
  predicate IsPromptChar(c: char) {
    IsAsciiAlnum(c) || c == '.' || c == '?' || c == '!' || c == ',' || c == '\'' || c == ' '
  }

  /** preg_replace("/[^a-z0-9.?!,' ]/i", '', $s): drops every other character. */
  function FilterChars(s: string): (r: string)
    ensures forall i :: 0 <= i < |r| ==> IsPromptChar(r[i])
    ensures |r| <= |s|
  {
    if s == [] then ""
    else (if IsPromptChar(s[0]) then [s[0]] else "") + FilterChars(s[1..])
  }

  /** Exactly the whitelisted characters of the input survive. */
  lemma {:induction false} FilterCharsKeeps(s: string, c: char)
    ensures c in FilterChars(s) <==> c in s && IsPromptChar(c)
  {
    if s != [] {
      FilterCharsKeeps(s[1..], c);
      assert c in s <==> c == s[0] || c in s[1..] by {
        assert s == [s[0]] + s[1..];
      }
    }
  }

  lemma {:induction false} FilterCharsIdempotent(s: string)
    requires forall i :: 0 <= i < |s| ==> IsPromptChar(s[i])
    ensures FilterChars(s) == s
  {
    if s != [] {
      FilterCharsIdempotent(s[1..]);
      assert s == [s[0]] + s[1..];
    }
  }

  /** The clean-up that follows text extraction, before the length cut. */
  function CleanText(text: string): string {
    FilterChars(CollapseSpaces(Trim(StripLineBreaks(text))))
  }

  /** prepareText() for a given removal list. */
  function PrepareTextWith(nodes: seq<Node>, removal: seq<string>, maxLength: int): (r: string)
    ensures |r| <= MaxZero(maxLength)
    ensures forall i :: 0 <= i < |r| ==> IsPromptChar(r[i])
  {
    var cleaned := CleanText(TextContent(RemoveElements([Element("div", nodes)], removal)));
    var r := Truncate(cleaned, maxLength);
    PromptCharsPrefix(r, cleaned);
    r
  }

  lemma PromptCharsPrefix(r: string, s: string)
    requires r <= s && forall i :: 0 <= i < |s| ==> IsPromptChar(s[i])
    ensures forall i :: 0 <= i < |r| ==> IsPromptChar(r[i])
  {
    forall i | 0 <= i < |r| ensures IsPromptChar(r[i]) {
      assert r[i] == s[i];
    }
  }

  /** prepareText($text, $removeHtmlElements, $max_length) with the defaults always removed. */
  function PrepareText(nodes: seq<Node>, remove: seq<string>, maxLength: int): (r: string)
    ensures |r| <= MaxZero(maxLength)
    ensures forall i :: 0 <= i < |r| ==> IsPromptChar(r[i])
  {
    PrepareTextWith(nodes, RemovalSet(remove), maxLength)
  }

  /**
   * Two forests that agree everywhere except inside elements whose tag is in `tags`:
   * same shape and text outside them, at any depth, whatever those elements hold.
   */
  predicate SameOutside(xs: seq<Node>, ys: seq<Node>, tags: seq<string>)
    decreases xs
  {
    |xs| == |ys| &&
    forall i :: 0 <= i < |xs| ==>
      match xs[i]
      case Text(t) => ys[i] == Text(t)
      case Element(tag, children) =>
        ys[i].Element? && ys[i].tag == tag && (tag in tags || SameOutside(children, ys[i].children, tags))
  }

  /** Forests that differ only inside removed elements are equal once those are removed. */
  lemma {:induction false} RemovedSubtreeIgnored(xs: seq<Node>, ys: seq<Node>, tags: seq<string>)
    requires SameOutside(xs, ys, tags)
    ensures RemoveElements(xs, tags) == RemoveElements(ys, tags)
    decreases xs
  {
    if xs != [] {
      forall i | 0 <= i < |xs| - 1
        ensures match xs[1..][i]
                case Text(t) => ys[1..][i] == Text(t)
                case Element(tag, children) =>
                  ys[1..][i].Element? && ys[1..][i].tag == tag &&
                  (tag in tags || SameOutside(children, ys[1..][i].children, tags))
      {
        assert xs[1..][i] == xs[i + 1] && ys[1..][i] == ys[i + 1];
      }
      RemovedSubtreeIgnored(xs[1..], ys[1..], tags);
      match xs[0]
      case Text(_) =>
      case Element(tag, children) =>
        if tag !in tags {
          RemovedSubtreeIgnored(children, ys[0].children, tags);
        }
    }
  }

  /**
   * Nothing inside a removed element reaches the output, at any depth and for any
   * removal list (the intended one and the one the code builds alike).
   */
  lemma RemovedContentIgnored(nodes1: seq<Node>, nodes2: seq<Node>, removal: seq<string>, maxLength: int)
    requires SameOutside(nodes1, nodes2, removal)
    ensures PrepareTextWith(nodes1, removal, maxLength) == PrepareTextWith(nodes2, removal, maxLength)
  {
    assert SameOutside([Element("div", nodes1)], [Element("div", nodes2)], removal);
    RemovedSubtreeIgnored([Element("div", nodes1)], [Element("div", nodes2)], removal);
    PrepareTextWithUnfold(nodes1, removal, maxLength);
    PrepareTextWithUnfold(nodes2, removal, maxLength);
  }

  /**
   * A script nested in a paragraph is removed with everything it holds: whatever the
   * caller passes, two documents that differ only inside it give the same text.
   */
  lemma NestedScriptIgnored(a: string, b: string, hidden1: seq<Node>, hidden2: seq<Node>, remove: seq<string>, maxLength: int)
    ensures PrepareText([Element("p", [Text(a), Element("script", hidden1), Text(b)])], remove, maxLength)
         == PrepareText([Element("p", [Text(a), Element("script", hidden2), Text(b)])], remove, maxLength)
  {
    var removal := RemovalSet(remove);
    assert "script" in DefaultRemovedElements;
    var inner1 := [Text(a), Element("script", hidden1), Text(b)];
    var inner2 := [Text(a), Element("script", hidden2), Text(b)];
    assert SameOutside(inner1, inner2, removal);
    assert SameOutside([Element("p", inner1)], [Element("p", inner2)], removal);
    RemovedContentIgnored([Element("p", inner1)], [Element("p", inner2)], removal, maxLength);
  }

  // ---------------------------------------------------------------------------
  // Text the clean-up leaves alone, and the documented examples

  /** No line break and no backslash: str_replace() finds nothing to delete. */
  lemma StripLineBreaksAbsent(s: string)
    requires '\r' !in s && '\n' !in s && '\\' !in s
    ensures StripLineBreaks(s) == s
  {
    RemoveAllAbsent(s, "\r\n");
    RemoveAllAbsent(s, "\r");
    RemoveAllAbsent(s, "\n");
    RemoveAllAbsent(s, "\\r");
    RemoveAllAbsent(s, "\\n");
    RemoveAllAbsent(s, "\\r\\n");
  }

  /** Whitelisted text with single spaces inside and none at either end. */
  predicate Plain(s: string) {
    s != [] && s[0] != ' ' && s[|s| - 1] != ' ' && NoDoubleSpace(s) &&
    forall i :: 0 <= i < |s| ==> IsPromptChar(s[i])
  }

  /** Plain text comes out of the clean-up unchanged. */
  lemma CleanTextPlain(s: string)
    requires Plain(s)
    ensures CleanText(s) == s
  {
    StripLineBreaksAbsent(s);
    TrimUntouched(s);
    CollapseSpacesIdempotent(s);
    FilterCharsIdempotent(s);
  }

  function Spaces(n: nat): (r: string)
    ensures |r| == n && forall i :: 0 <= i < n ==> r[i] == ' '
  {
    if n == 0 then "" else [' '] + Spaces(n - 1)
  }

  lemma NoDoubleSpaceTail(a: string)
    requires NoDoubleSpace(a) && a != []
    ensures NoDoubleSpace(a[1..])
  {
    forall i | 0 <= i < |a[1..]| - 1
      ensures !(a[1..][i] == ' ' && a[1..][i + 1] == ' ')
    {
      assert a[1..][i] == a[i + 1] && a[1..][i + 1] == a[i + 2];
    }
  }

  /** A character that does not start a double space is kept in front. */
  lemma CollapseSpacesCons(c: char, t: string)
    requires !(c == ' ' && t != [] && t[0] == ' ')
    ensures CollapseSpaces([c] + t) == [c] + CollapseSpaces(t)
  {
    assert ([c] + t)[1..] == t;
  }

  /** Collapsing passes over a prefix that has no double space and does not end in one. */
  lemma {:induction false} CollapseSpacesPrefix(a: string, rest: string)
    requires NoDoubleSpace(a) && (a != [] ==> a[|a| - 1] != ' ')
    ensures CollapseSpaces(a + rest) == a + CollapseSpaces(rest)
    decreases |a|
  {
    if a == [] {
      assert a + rest == rest;
    } else {
      var t := a[1..] + rest;
      assert a + rest == [a[0]] + t;
      assert |a| >= 2 ==> t[0] == a[1];
      CollapseSpacesCons(a[0], t);
      NoDoubleSpaceTail(a);
      CollapseSpacesPrefix(a[1..], rest);
      assert a == [a[0]] + a[1..];
    }
  }

  /** A run of spaces before a word becomes one space. */
  lemma {:induction false} CollapseSpacesRun(n: nat, b: string)
    requires n >= 1 && b != [] && b[0] != ' '
    ensures CollapseSpaces(Spaces(n) + b) == " " + CollapseSpaces(b)
    decreases n
  {
    var s := Spaces(n) + b;
    if n == 1 {
      assert s[1..] == b;
    } else {
      assert s[1..] == Spaces(n - 1) + b;
      CollapseSpacesRun(n - 1, b);
    }
  }

  /** Whitelisted text holds neither line breaks nor backslashes. */
  lemma PromptCharsLackBreaks(s: string)
    requires forall i :: 0 <= i < |s| ==> IsPromptChar(s[i])
    ensures '\r' !in s && '\n' !in s && '\\' !in s
  {
  }

  /** The line break between two plain texts is deleted and the indentation kept. */
  lemma StripLineBreaksJoin(a: string, sp: string, b: string)
    requires Plain(a) && Plain(b) && forall i :: 0 <= i < |sp| ==> sp[i] == ' '
    ensures StripLineBreaks(a + ("\n" + sp) + b) == a + sp + b
  {
    PromptCharsLackBreaks(a);
    PromptCharsLackBreaks(b);
    assert '\r' !in sp && '\n' !in sp && '\\' !in sp;
    var s := a + ("\n" + sp) + b;
    var t := a + sp + b;
    assert '\r' !in s;
    RemoveAllAbsent(s, "\r\n");
    RemoveAllAbsent(s, "\r");
    ConcatAssoc(a, "\n" + sp, b);
    ConcatAssoc("\n", sp, b);
    assert s == a + ['\n'] + (sp + b);
    RemoveAllSkip(a, sp + b, '\n');
    RemoveAllAbsent(sp + b, "\n");
    ConcatAssoc(a, sp, b);
    assert RemoveAll(RemoveAll(RemoveAll(s, "\r\n"), "\r"), "\n") == t;
    assert '\\' !in t;
    RemoveAllAbsent(t, "\\r");
    RemoveAllAbsent(t, "\\n");
    RemoveAllAbsent(t, "\\r\\n");
  }

  /** Plain texts around a run of spaces: the run becomes one space. */
  lemma CollapseSpacesJoin(a: string, n: nat, b: string)
    requires Plain(a) && Plain(b) && n >= 1
    ensures CollapseSpaces(a + Spaces(n) + b) == a + " " + b
  {
    ConcatAssoc(a, Spaces(n), b);
    CollapseSpacesPrefix(a, Spaces(n) + b);
    CollapseSpacesRun(n, b);
    CollapseSpacesIdempotent(b);
    ConcatAssoc(a, " ", b);
  }

  /** Two plain texts separated by a line break and indentation join with a single space. */
  lemma CleanTextJoin(a: string, n: nat, b: string)
    requires Plain(a) && Plain(b) && n >= 1
    ensures CleanText(a + ("\n" + Spaces(n)) + b) == a + " " + b
  {
    var t := a + Spaces(n) + b;
    StripLineBreaksJoin(a, Spaces(n), b);
    assert t[0] == a[0] && t[|t| - 1] == b[|b| - 1];
    TrimUntouched(t);
    CollapseSpacesJoin(a, n, b);
    var j := a + " " + b;
    assert forall i :: 0 <= i < |j| ==> IsPromptChar(j[i]);
    FilterCharsIdempotent(j);
  }

  lemma PrepareTextUnfold(nodes: seq<Node>, remove: seq<string>, maxLength: int)
    ensures PrepareText(nodes, remove, maxLength)
         == Truncate(CleanText(TextContent(RemoveElements([Element("div", nodes)], RemovalSet(remove)))), maxLength)
  {
  }

  lemma TextOfText(t: string)
    ensures TextContent([Text(t)]) == t
  {
    assert t + "" == t;
  }

  lemma TextOfElement(tag: string, children: seq<Node>)
    ensures TextContent([Element(tag, children)]) == TextContent(children)
  {
    assert TextContent(children) + "" == TextContent(children);
  }

  /** When the removal leaves the wrapped document whole, only the text clean-up and the cut remain. */
  lemma PrepareTextKept(nodes: seq<Node>, remove: seq<string>, maxLength: int)
    requires RemoveElements([Element("div", nodes)], RemovalSet(remove)) == [Element("div", nodes)]
    ensures PrepareText(nodes, remove, maxLength) == Truncate(CleanText(TextContent(nodes)), maxLength)
  {
    assert TextContent([Element("div", nodes)]) == TextContent(nodes) + "";
    assert TextContent(nodes) + "" == TextContent(nodes);
  }

  /** A heading, a separating text node and a paragraph. */
  function HeadingAndParagraph(a: string, separator: string, b: string): seq<Node> {
    [Element("h1", [Text(a)]), Text(separator), Element("p", [Text(b)])]
  }

  lemma HeadingAndParagraphText(a: string, separator: string, b: string)
    ensures TextContent(HeadingAndParagraph(a, separator, b)) == a + separator + b
  {
    var nodes := HeadingAndParagraph(a, separator, b);
    assert TextContent([Text(a)]) == a by { assert a + "" == a; }
    assert TextContent([Text(b)]) == b by { assert b + "" == b; }
    assert nodes[1..][1..] == [Element("p", [Text(b)])];
    assert TextContent(nodes[1..][1..]) == b by { assert b + "" == b; }
    assert TextContent(nodes[1..]) == separator + b;
    assert TextContent(nodes) == a + (separator + b);
  }

  lemma HeadingAndParagraphKept(a: string, separator: string, b: string, tags: seq<string>)
    requires "div" !in tags && "h1" !in tags && "p" !in tags
    ensures RemoveElements([Element("div", HeadingAndParagraph(a, separator, b))], tags)
         == [Element("div", HeadingAndParagraph(a, separator, b))]
  {
    var nodes := HeadingAndParagraph(a, separator, b);
    assert FreeOf([Text(a)], tags) && FreeOf([Text(b)], tags);
    assert FreeOf(nodes, tags);
    assert FreeOf([Element("div", nodes)], tags);
    RemoveElementsFree([Element("div", nodes)], tags);
  }

  lemma HeadingAndParagraphPrepared(a: string, separator: string, b: string, maxLength: int)
    ensures PrepareText(HeadingAndParagraph(a, separator, b), [], maxLength)
         == Truncate(CleanText(a + separator + b), maxLength)
  {
    HeadingAndParagraphKept(a, separator, b, RemovalSet([]));
    PrepareTextKept(HeadingAndParagraph(a, separator, b), [], maxLength);
    HeadingAndParagraphText(a, separator, b);
  }

  /** The text of the wrapped document when no element is removed. */
  lemma ExampleHeadingAndParagraph(a: string, n: nat, b: string, maxLength: int)
    requires Plain(a) && Plain(b) && n >= 1 && |a| + 1 + |b| <= maxLength
    ensures PrepareText(HeadingAndParagraph(a, "\n" + Spaces(n), b), [], maxLength) == a + " " + b
  {
    HeadingAndParagraphPrepared(a, "\n" + Spaces(n), b, maxLength);
    CleanTextJoin(a, n, b);
  }

  /** Indentation left over once a line break is gone trims away to nothing. */
  lemma CleanTextBlank(n: nat)
    ensures CleanText("\n" + Spaces(n)) == ""
  {
    var s := "\n" + Spaces(n);
    assert '\r' !in s;
    RemoveAllAbsent(s, "\r\n");
    RemoveAllAbsent(s, "\r");
    assert s == [] + ['\n'] + Spaces(n);
    RemoveAllSkip([], Spaces(n), '\n');
    RemoveAllAbsent(Spaces(n), "\n");
    assert '\\' !in Spaces(n);
    RemoveAllAbsent(Spaces(n), "\\r");
    RemoveAllAbsent(Spaces(n), "\\n");
    RemoveAllAbsent(Spaces(n), "\\r\\n");
    assert StripLineBreaks(s) == Spaces(n);
  }

  /** Removing both the heading and the paragraph leaves nothing but blank text. */
  lemma ExampleAllRemoved(a: string, n: nat, b: string, maxLength: int)
    ensures PrepareText(HeadingAndParagraph(a, "\n" + Spaces(n), b), ["h1", "p"], maxLength) == ""
  {
    var separator := "\n" + Spaces(n);
    var nodes := HeadingAndParagraph(a, separator, b);
    var tags := RemovalSet(["h1", "p"]);
    assert "h1" in tags && "p" in tags && "div" !in tags;
    assert RemoveElements(nodes[2..], tags) == [];
    assert RemoveElements(nodes[1..], tags) == [Text(separator)];
    assert RemoveElements(nodes, tags) == [Text(separator)];
    assert RemoveElements([Element("div", nodes)], tags) == [Element("div", [Text(separator)])];
    TextOfText(separator);
    TextOfElement("div", [Text(separator)]);
    CleanTextBlank(n);
    PrepareTextUnfold(nodes, ["h1", "p"], maxLength);
  }

  /** A paragraph of plain text is only cut to length. */
  lemma ExampleParagraph(b: string, maxLength: int)
    requires Plain(b)
    ensures PrepareText([Element("p", [Text(b)])], [], maxLength) == Truncate(b, maxLength)
  {
    var nodes := [Element("p", [Text(b)])];
    var tags := RemovalSet([]);
    assert FreeOf([Text(b)], tags);
    assert FreeOf(nodes, tags);
    assert FreeOf([Element("div", nodes)], tags);
    RemoveElementsFree([Element("div", nodes)], tags);
    PrepareTextKept(nodes, [], maxLength);
    TextOfText(b);
    TextOfElement("p", [Text(b)]);
    CleanTextPlain(b);
  }

  /** The sentence of the length examples is plain text. */
  lemma DinosaursPlain()
    ensures Plain(Dinosaurs)
  {
    forall i | 0 <= i < |Dinosaurs|
      ensures IsPromptChar(Dinosaurs[i])
    {
    }
  }

  /** The length examples end to end: the dinosaur paragraph cut at 26, 10 and 12 characters. */
  lemma ExampleDinosaurs()
    ensures PrepareText([Element("p", [Text(Dinosaurs)])], [], 26) == "Dinosaurs roamed the earth"
    ensures PrepareText([Element("p", [Text(Dinosaurs)])], [], 10) == "Dinosaurs"
    ensures PrepareText([Element("p", [Text(Dinosaurs)])], [], 12) == "Dinosaurs"
  {
    DinosaursPlain();
    ExampleParagraph(Dinosaurs, 26);
    ExampleParagraph(Dinosaurs, 10);
    ExampleParagraph(Dinosaurs, 12);
    TruncateDinosaurs26();
    TruncateDinosaurs10();
    TruncateDinosaurs12();
  }

  lemma PrepareTextWithUnfold(nodes: seq<Node>, removal: seq<string>, maxLength: int)
    ensures PrepareTextWith(nodes, removal, maxLength)
         == Truncate(CleanText(TextContent(RemoveElements([Element("div", nodes)], removal))), maxLength)
  {
  }

  /** As written, a <pre> block survives when the caller names a single element to remove. */
  lemma AsWrittenKeepsPreContent(a: string, b: string, maxLength: int)
    requires Plain(b) && |b| <= maxLength
    ensures PrepareTextWith([Element("h1", [Text(a)]), Element("pre", [Text(b)])],
                            RemovalSetAsWritten(["h1"]), maxLength) == b
  {
    var nodes := [Element("h1", [Text(a)]), Element("pre", [Text(b)])];
    var asWritten := RemovalSetAsWritten(["h1"]);
    assert asWritten == ["h1", "code", "script", "iframe"];
    assert "pre" !in asWritten && "div" !in asWritten && "h1" in asWritten;
    assert nodes[1..] == [Element("pre", [Text(b)])];
    assert RemoveElements([Text(b)], asWritten) == [Text(b)];
    assert RemoveElements(nodes[1..], asWritten) == nodes[1..];
    assert RemoveElements(nodes, asWritten) == nodes[1..];
    assert RemoveElements([Element("div", nodes)], asWritten) == [Element("div", nodes[1..])];
    TextOfText(b);
    TextOfElement("pre", [Text(b)]);
    TextOfElement("div", nodes[1..]);
    CleanTextPlain(b);
    PrepareTextWithUnfold(nodes, asWritten, maxLength);
  }

  /** With the defaults always removed, the same <pre> block is dropped. */
  lemma IntendedDropsPreContent(a: string, b: string, maxLength: int)
    ensures PrepareText([Element("h1", [Text(a)]), Element("pre", [Text(b)])], ["h1"], maxLength) == ""
  {
    var nodes := [Element("h1", [Text(a)]), Element("pre", [Text(b)])];
    var intended := RemovalSet(["h1"]);
    assert intended == ["h1", "pre", "code", "script", "iframe"];
    assert "pre" in intended && "h1" in intended && "div" !in intended;
    assert nodes[1..] == [Element("pre", [Text(b)])];
    assert RemoveElements(nodes[1..], intended) == [];
    assert RemoveElements(nodes, intended) == [];
    assert RemoveElements([Element("div", nodes)], intended) == [Element("div", [])];
    TextOfElement("div", []);
    StripLineBreaksAbsent("");
    PrepareTextUnfold(nodes, ["h1"], maxLength);
  }

  /** Text without line breaks, edge blanks or double spaces reaches the whitelist unchanged. */
  lemma CleanTextIsFilter(t: string)
    requires '\r' !in t && '\n' !in t && '\\' !in t && NoDoubleSpace(t)
    requires t == [] || (!IsTrimChar(t[0]) && !IsTrimChar(t[|t| - 1]))
    ensures CleanText(t) == FilterChars(t)
  {
    StripLineBreaksAbsent(t);
    TrimUntouched(t);
    CollapseSpacesIdempotent(t);
  }

  lemma FilterDropped(x: char, dropped: char, y: char)
    requires IsAsciiAlnum(x) && IsAsciiAlnum(y) && !IsPromptChar(dropped)
    ensures FilterChars([x, ' ', dropped, ' ', y]) == [x, ' ', ' ', y]
  {
    var t := [x, ' ', dropped, ' ', y];
    assert FilterChars(t[4..]) == [y];
    assert FilterChars(t[3..]) == [' ', y];
    assert FilterChars(t[2..]) == [' ', y];
    assert FilterChars(t[1..]) == [' ', ' ', y];
  }

  /** One dropped character between two single spaces. */
  lemma CleanTextDropped(x: char, dropped: char, y: char)
    requires IsAsciiAlnum(x) && IsAsciiAlnum(y) && !IsPromptChar(dropped) && !IsTrimChar(dropped)
    requires dropped != '\\'
    ensures CleanText([x, ' ', dropped, ' ', y]) == [x, ' ', ' ', y]
  {
    var t := [x, ' ', dropped, ' ', y];
    assert '\r' !in t && '\n' !in t && '\\' !in t;
    assert NoDoubleSpace(t);
    assert !IsTrimChar(t[0]) && !IsTrimChar(t[|t| - 1]);
    CleanTextIsFilter(t);
    FilterDropped(x, dropped, y);
  }

  /** Spaces are collapsed before the whitelist runs, so a dropped character can leave two. */
  lemma FilterCanLeaveDoubleSpace(x: char, dropped: char, y: char, maxLength: int)
    requires IsAsciiAlnum(x) && IsAsciiAlnum(y) && !IsPromptChar(dropped) && !IsTrimChar(dropped)
    requires dropped != '\\' && maxLength >= 4
    ensures PrepareText([Text([x, ' ', dropped, ' ', y])], [], maxLength) == [x, ' ', ' ', y]
  {
    var t := [x, ' ', dropped, ' ', y];
    var nodes := [Text(t)];
    assert "div" !in RemovalSet([]);
    assert RemoveElements(nodes, RemovalSet([])) == nodes;
    assert RemoveElements([Element("div", nodes)], RemovalSet([])) == [Element("div", nodes)];
    PrepareTextUnfold(nodes, [], maxLength);
    TextOfText(t);
    TextOfElement("div", nodes);
    CleanTextDropped(x, dropped, y);
  }
}

=== FILE: wrappers.dfy ===
/** Failure-compatible wrappers used to model PHP's NULL returns and exceptions. */
module Wrappers {

  /** A value that may be absent: NULL, FALSE or an exception thrown by a remote call. */
  datatype Option<+T> = None | Some(value: T)
}
